=== FILE: README.md ===
# python-scripture-scraper: the chapter output pipeline in Dafny

This project models the output pipeline of `output_full_content` in
`scrape.py`. It takes the pages already fetched for each chapter of each
publication of one language and turns them into the outputs:

- the JSON chapter records;
- the HTML, Markdown and plain-text publication buffers;
- the four row lists (publications, chapters, chapter media, paragraphs) behind CSV, TSV and SQL.

Along the way it:

- classifies every block of a page (`get_paragraph_type`);
- gives it an id per chapter and type (`get_paragraph_id`);
- tracks the printed page number through a book;
- serialises each block per format (`get_paragraph_content`).

Modules, one per file:

| file | module | what it holds |
|---|---|---|
| `wrappers.dfy` | `Wrappers`, `Exceptions` | `Option`, `Result`, and the Python exceptions the pipeline can raise |
| `dict.dfy` | `Dicts` | Python's `dict` with string keys as a list of entries in insertion order, with `d[k] = v` and `d.get(k)` |
| `text.dfy` | `Text` | the CPython `str` operations the code relies on (`replace`, `strip`, `split`, `join`, slicing, `str(int)`, `int(str)`, truthiness) |
| `paragraphs.dfy` | `Paragraphs` | the block record, the ten paragraph types, the classifier and the verse number |
| `ids.dfy` | `ParagraphIds` | the id scheme as functions, and `IdRegistry`, a class holding the type lists per chapter whose `NextId` is `get_paragraph_id` |
| `content.dfy` | `ParagraphContent` | image content, id/href prefixing (an in-place array method), the newline collapse, and `get_paragraph_content` as a function and as a method |
| `metadata.dfy` | `Metadata` | slugs, URIs, comparison ids, the publication key, the chapter abbreviation, chapter media, link rewriting, and the plural suffix |
| `pipeline.dfy` | `Pipeline` | the pipeline as step functions on a `State` record, one per loop level (paragraph, chapter, book, publication), plus the lemmas about them |
| `export.dfy` | `Export` | `Exporter`, a class whose fields are the lists, buffers and counters the source appends to; its methods run the nested loops and each is proved to end in the state the matching `Pipeline` function computes, or with the same error |

The Python code raises an exception where a `data-page` attribute is missing, where `int()` rejects one, where a page number is `None`, or where the subtitle rule finds no element sibling. Each of these is a `Failure` in the model, and the whole run stops there, as the program does.

Where the documented behaviour and the code differ, the model follows the code:

- With plain HTTP requests (media info off), a page whose article does not carry the expected URI is still processed; only a warning is printed (scrape.py:766-771). Only the browser path skips it. See `Pipeline.MismatchedUriKeptOverHttp`.
- Chapter separators depend on a counter that only split-JSON mode advances (scrape.py:920-928). Without split JSON, no `<hr>`, rule line or `---` is ever written between chapters.

## Model

| member | source | states |
|---|---|---|
| Text.ReplaceAll | scrape.py:694 | `str.replace`: no occurrence leaves the string unchanged; a replacement no longer than the pattern never lengthens it; a new occurrence comes only from the input or the replacement |
| Text.ReplaceAllAtStart | scrape.py:909 | an occurrence at the start is replaced, and the search goes on after it: `replace(pat + rest, pat, rep) == rep + replace(rest, pat, rep)` |
| Text.ReplaceFirst | scrape.py:659 | `replace(pat, rep, 1)`: a leading occurrence is replaced once and the rest kept; no occurrence leaves the string unchanged |
| Text.Strip | scrape.py:691 | `str.strip`: the result neither starts nor ends with whitespace and is no longer than the input |
| Text.StripIdempotent | scrape.py:607 | stripping an already stripped verse number changes nothing |
| Text.Split | scrape.py:622 | `str.split(sep)` on one character: the pieces hold no separator and joined with it give the string back |
| Text.SplitJoin | scrape.py:708 | splitting a join of separator-free pieces gives the pieces back |
| Text.LastPieceAfterSep | scrape.py:622 | the last `/`-piece of `x + '/' + f` is `f` when `f` has no `/` |
| Text.PiecesAreAffixes | scrape.py:825 | the first piece of a split is a prefix of the string and the last is a suffix |
| Text.Slice | scrape.py:624 | Python's clamped slice `s[i:j]`: its length is the part of the range inside the string (zero for an empty or out-of-range slice), and its characters are those of `s` from position `i` on |
| Text.NatToString | scrape.py:600 | `str(n)`: non-empty decimal digits without a leading zero |
| Text.IntToString | scrape.py:741 | `str(i)`: non-empty, with no whitespace |
| Text.ParseNatural | scrape.py:972 | `int(str(n)) == n` for every natural number |
| Text.ParseNegative | scrape.py:972 | `int("-" + str(n)) == -n` for every positive number |
| Text.ParseIntToString | scrape.py:972 | `int(str(i)) == i` for every integer |
| Text.NatToStringInjective | scrape.py:600 | different counts give different decimal strings |
| Paragraphs.TypeName | scrape.py:564-589 | the type strings; none is `footnotes` |
| Paragraphs.TypeNameInjective | scrape.py:564-589 | different types are written as different strings |
| Paragraphs.FirstClass | scrape.py:580 | the first class exists exactly when the class list is non-empty |
| Paragraphs.ElementBefore | scrape.py:570-573 | the previous sibling if it is a tag, else the one before it; `AttributeError` exactly when neither is a tag |
| Paragraphs.Classify | scrape.py:563-590 | rules in source order: an `h1` is always `book-title`, even with id `title_number1`; `title_number1` otherwise gives `chapter-title`; the subtypes of subtitles come only from `subtitle1`; failure exactly when the subtitle rule finds no element sibling |
| Paragraphs.SubtitleFallsBackToParagraph | scrape.py:569-577 | a `subtitle1` block whose preceding element is neither `h1` nor `title_number1` is `paragraph`, whatever its tag or class |
| Paragraphs.ClassifyImage | scrape.py:586-587 | `image` exactly for `img` tags that no earlier rule claims (both directions) |
| Paragraphs.ClassifyNeverFootnotes | scrape.py:1028-1029 | the classifier never yields `footnotes`, so the HTML `<ul>` branch is dead |
| Paragraphs.ParagraphNumber | scrape.py:603-608 | a number exactly when the block has a verse number, and it is already stripped |
| ParagraphIds.Count | scrape.py:598 | `list.count` never exceeds the list length |
| ParagraphIds.CountAppend | scrape.py:597-598 | appending a type raises its count by one and no other count |
| ParagraphIds.CountPrefixMonotone | scrape.py:598 | a longer prefix never has a smaller count |
| ParagraphIds.ParagraphId | scrape.py:600 | the id is the type's abbreviation (`None` when the table lacks the type) followed by at least one more character |
| ParagraphIds.ParagraphIdOrdinal | scrape.py:600 | what follows the abbreviation reads back with `int()` as the ordinal |
| ParagraphIds.ParagraphIdDistinct | scrape.py:600 | one type with different ordinals gives different ids |
| ParagraphIds.Record | scrape.py:595-597 | recording a type: the chapter's list grows by exactly that type, and other chapters' lists are unchanged |
| ParagraphIds.AssignId | scrape.py:594-600 | one call records the type as `Record` does, and the id is the abbreviation followed by the type's count before the call plus one |
| ParagraphIds.AssignIdOtherTypes | scrape.py:597-598 | a call for one type leaves the counts of every other type in the chapter unchanged |
| ParagraphIds.AssignIds | scrape.py:594-600 | a sequence of calls returns one id per call |
| ParagraphIds.AssignIdsRecords | scrape.py:595-597 | after a sequence of calls the chapter's list has gained exactly those types, in order |
| ParagraphIds.AssignIdsOtherChapters | scrape.py:595-597 | calls for one chapter leave every other chapter's list alone |
| ParagraphIds.AssignIdsOrdinal | scrape.py:594-600 | the i-th call returns the abbreviation followed by the number of paragraphs of its type so far, this one included |
| ParagraphIds.FreshChapterIdsDistinct | scrape.py:594-600 | in a new chapter the k-th paragraph of a type gets ordinal k, and two paragraphs of one type never share an id |
| ParagraphIds.IdRegistry.NextId | scrape.py:594-600 | the method leaves exactly the table and returns exactly the id that `AssignId` gives |
| ParagraphContent.ImageFilename | scrape.py:622 | the last `/`-piece of `src` (or of `''`): it holds no `/` |
| ParagraphContent.ImageUrl | scrape.py:624 | the URL starts with the asset host and ends with the file name as its last segment |
| ParagraphContent.ImageUrlSegments | scrape.py:624 | split on `/`, the URL is exactly `https:`, ``, the host, `id[0:2]`, `id[2:4]`, the id and the file name |
| ParagraphContent.ImageTag | scrape.py:627 | the `<img>` tag starts with its id attribute |
| ParagraphContent.ImageContent | scrape.py:619-631 | Markdown image content is always empty (the formatted string is discarded); otherwise it is non-empty exactly when both the asset id and the file name are non-empty; the text is the URL and the HTML an `<img>` whose id is prefix + id |
| ParagraphContent.PrefixAttr | scrape.py:655-659 | an id gains the prefix; an href starting with `#` becomes `#` + prefix + the rest; every other href is unchanged |
| ParagraphContent.PrefixKeepsLinks | scrape.py:657-659 | a link `#v` still points at element `v` after both are prefixed |
| ParagraphContent.PrefixKeepsIdsDistinct | scrape.py:657 | prefixing keeps distinct ids distinct |
| ParagraphContent.PrefixAttrs | scrape.py:656-659 | the prefixing is element-wise and keeps the attribute count |
| ParagraphContent.PrefixIdentifiers | scrape.py:655-659 | the in-place pass over the attribute array (ids, then hrefs) leaves exactly the element-wise prefixed attributes |
| ParagraphContent.CollapseOnce | scrape.py:694 | one `replace('\n\n\n', '\n\n')` never lengthens the string and leaves it alone without a triple newline |
| ParagraphContent.Collapse | scrape.py:694 | the four passes never lengthen the string and leave it alone without a triple newline |
| ParagraphContent.CollapseOnceRun | scrape.py:694 | one pass turns a run of n newlines into n - n/3 |
| ParagraphContent.CollapseRun | scrape.py:694 | four passes give the run length after four such reductions |
| ParagraphContent.ShortRunStays | scrape.py:694 | a run of one or two newlines on its own is unchanged |
| ParagraphContent.MediumRunShrinks | scrape.py:694 | a run of three to nine newlines on its own becomes exactly two |
| ParagraphContent.CollapseOnceCopies | scrape.py:694 | where no triple newline starts, one pass copies the first character and goes on with the rest |
| ParagraphContent.TripleStaysLeft | scrape.py:694 | a triple newline at the start of `a + b` lies inside `a` when no run of newlines crosses from `a` into `b` |
| ParagraphContent.CollapseOnceSplit | scrape.py:694 | one pass is local: when no run of newlines crosses from `a` into `b`, it works on `a + b` as on `a` and `b` separately |
| ParagraphContent.CollapseOnceKeepsLast | scrape.py:694 | one pass keeps a last character that is not a newline |
| ParagraphContent.CollapseOnceKeepsFirst | scrape.py:694 | one pass keeps a first character that is not a newline |
| ParagraphContent.CollapseOnceKeepsBoundary | scrape.py:694 | after one pass on each side, still no run crosses from `a` into `b` |
| ParagraphContent.CollapseSplit | scrape.py:694 | the four passes are local in the same way: `Collapse(a + b) == Collapse(a) + Collapse(b)` when no run crosses |
| ParagraphContent.CollapseEmbeddedRun | scrape.py:694 | a run of newlines between text not ending and text not starting with a newline collapses on its own, and the text around it as if the run were absent |
| ParagraphContent.CollapseShortRun | scrape.py:694 | inside any content, a run of one or two newlines between other characters is kept as it is |
| ParagraphContent.CollapseMediumRun | scrape.py:694 | inside any content, a run of three to nine newlines between other characters becomes exactly one blank line (`\n\n`) |
| ParagraphContent.CollapseLongRun | scrape.py:694 | a run of ten or more newlines still holds a triple newline afterwards |
| ParagraphContent.ScrollIdsPresent | scrape.py:650-652 | true exactly when no note reference of the block lacks its `data-scroll-id` |
| ParagraphContent.Prepare | scrape.py:615-616 | text and Markdown always use basic styling; ids and hrefs are prefixed only for HTML or Markdown with a non-empty prefix |
| ParagraphContent.Content | scrape.py:611-696 | fails exactly when classification fails, or when a non-image block holds a note reference without `data-scroll-id` (the `KeyError` of the pop at scrape.py:650-652); images give the image content without collapse; plain text of a `footnotes` block is empty |
| ParagraphContent.TextIgnoresStyleAndIds | scrape.py:615-616 | plain text depends neither on the styling flag nor on the prefix or id |
| ParagraphContent.MarkdownIgnoresStyle | scrape.py:615-616 | Markdown does not depend on the styling flag |
| ParagraphContent.ImageMarkdownEmpty | scrape.py:627-628 | the Markdown content of an image is empty |
| ParagraphContent.GetContent | scrape.py:611-696 | the method (copy, in-place prefixing, four replace passes) returns exactly `Content` |
| Metadata.SingularBookSlug | resources/resources.py:6-10 | a slug in the plural table becomes its non-empty singular form; every other slug is kept |
| Metadata.ChapterNumber | scrape.py:741 | a numbered chapter's string reads back as its number; a named chapter (`fac-1`..`fac-3`) is its own name |
| Metadata.ChapterSlug | scrape.py:741-743 | the slug is the singular book slug, `-`, then the chapter's number or name |
| Metadata.ChapterUri | scrape.py:744 | the URI is the book URI, `/`, then the chapter's number or name |
| Metadata.ChapterUriNumber | scrape.py:744 | a numbered chapter's number is read back from the URI's last segment |
| Metadata.ChapterUriName | scrape.py:744 | a named chapter's name is the URI's last segment |
| Metadata.ChapterSlugNumber | scrape.py:741-743 | a non-negative chapter number is read back from the slug's last `-` piece |
| Metadata.ChapterSlugInjective | scrape.py:741-743 | two chapters of one book, numbered or named (a name that is not itself a number), never share a slug |
| Metadata.CompareId | scrape.py:998 | the comparison id starts with the chapter slug and `_` and ends with the paragraph id |
| Metadata.CompareIdInjective | scrape.py:998 | within one chapter, different paragraph ids give different comparison ids |
| Metadata.KeepTruthy | scrape.py:708 | `filter(None, …)` keeps only non-empty parts, and all of them when all are truthy; which parts and in what order is fixed by `KeepTruthySingle` and `KeepTruthyAppend` |
| Metadata.PublicationKey | scrape.py:708 | the key starts with the language when it is non-empty, and is the language alone when the abbreviation and both version fields are absent or empty; the other combinations are stated by `PublicationKeyParts`, `PublicationKeyYearFallback` and `PublicationKeyNoAbbrev` |
| Metadata.PublicationKeyParts | scrape.py:708 | with all parts present and free of `_`, the key splits back into language, abbreviation and version key |
| Metadata.KeepTruthySingle | scrape.py:708 | one item is kept, as its string, exactly when it is truthy |
| Metadata.KeepTruthyAppend | scrape.py:708 | filtering a concatenation is the concatenation of the filtered parts, so the kept strings are the truthy inputs in their order |
| Metadata.KeyParts | scrape.py:708 | the kept parts of the key are the language, the abbreviation and the `versionKey or editionYear` part, each exactly when truthy, in that order |
| Metadata.PublicationKeyYearFallback | scrape.py:708 | without a version key the edition year takes its place: the key splits into language, abbreviation and year |
| Metadata.PublicationKeyNoAbbrev | scrape.py:708 | a missing or empty abbreviation drops out: the key splits into language and version key |
| Metadata.PublicationKeyVersionWins | scrape.py:708 | the edition year matters only when there is no version key |
| Metadata.PublicationKeyNoEmptyParts | scrape.py:708 | the key never has an empty `_`-part |
| Metadata.VersionSlug | scrape.py:709 | the version slug extends the publication slug, and equals it exactly when there is no version key |
| Metadata.PublicationCategory | scrape.py:725 | `bible` exactly for the two testaments, otherwise `cjc` |
| Metadata.ChapterAbbrev | scrape.py:906-909 | an abbreviation exactly when the book's abbreviation is truthy; the name is kept when it does not mention the book |
| Metadata.ChapterAbbrevReplaces | scrape.py:906-909 | with a non-empty book abbreviation, a name that starts with the book's name (which does not occur again) has it replaced by the abbreviation and the rest kept |
| Metadata.VideoSubtype | scrape.py:783-791 | `hls` for HLS addresses, otherwise 360p, 720p or 1080p by height, else none |
| Metadata.VideoMedia | scrape.py:780-801 | exactly one entry per source with a `data-src`, so one per source when all have one; each is a `video` with the video's asset id and poster and a non-empty URL |
| Metadata.VideoMediaPositions | scrape.py:790-801 | the entry for source j sits after the entries of the sources before it and is built from source j: its URL and its subtype `VideoSubtype(data-src, data-height)` |
| Metadata.DownloadType | scrape.py:805-809 | `audio` exactly for MP3 texts, `pdf` for PDF texts that are not MP3, else none |
| Metadata.DownloadSubtype | scrape.py:810-818 | the first of Male, Female, Vocal, Accompaniment that the text contains decides: `male`, `female` (only without Male), `music-vocal` (without either), `music-accompaniment` (without the three); none exactly when it has none of them |
| Metadata.MediaUrl | scrape.py:825 | the URL is the longest prefix of the href with no `?` or `#`: a shorter URL stops just before a `?` or `#`, and the whole href is kept when it has neither |
| Metadata.DownloadMedia | scrape.py:802-831 | exactly one entry per listed link (one not saying `Entire`), never a video, with no asset id or thumbnail and a URL without query or fragment |
| Metadata.DownloadMediaPositions | scrape.py:803-831 | the entry for listed link j sits after the entries of the listed links before it and is built from link j: its subtype and its cut URL |
| Metadata.DownloadMediaSkipsEntire | scrape.py:804 | links whose text says `Entire` are never listed |
| Metadata.ChapterMedia | scrape.py:777-831 | the media are the video's entries followed by the downloads' (their count is the sum), so every video precedes every download; no video and no downloads give no media |
| Metadata.RewriteHref | scrape.py:843-848 | a site-relative study link becomes `#` and the piece between its first and second `#` (`IndexError` exactly when there is no `#`), other site-relative links become absolute, and the rest are unchanged |
| Metadata.StudyLinkFragment | scrape.py:846 | a study link `x#f` followed by nothing or by a further `#...` becomes `#f` |
| Metadata.RewriteHrefIdempotent | scrape.py:843-848 | rewriting a rewritten link changes nothing |
| Metadata.Xor1 | scrape.py:103 | `n ^ 1` flips the parity and moves by one |
| Metadata.PluralSuffix | scrape.py:190 | `'s'[:n^1]` is empty exactly for one item and `s` otherwise, zero included |
| Pipeline.IdPrefix | scrape.py:962-964 | the id prefix is the chapter slug and one more character |
| Pipeline.IdPrefixMakesCompareId | scrape.py:998 | prefix + id is the comparison id (the prefix is set at scrape.py line 964) |
| Pipeline.NestedBreak | scrape.py:988-991 | a block holding a page break moves the current page to its `data-page` and records `old,new`; `KeyError` or `TypeError` exactly when the attribute or the old page is missing |
| Pipeline.NestedBreakPages | scrape.py:991 | the recorded page number splits into the old page and the new one |
| Pipeline.SeedPage | scrape.py:969-972 | the seed changes only the current page, and nothing when a page is already current or there is no break |
| Pipeline.SeedPageValue | scrape.py:972 | the seed reads back as the first break's number minus one |
| Pipeline.JsonNumber | scrape.py:1010 | a number exactly when the block's number is truthy, and it is stripped |
| Pipeline.ContentOf | scrape.py:611-696 | content of a classified block never fails |
| Pipeline.JsonEmit | scrape.py:1000-1014 | one entry is appended exactly when JSON is on and the text or HTML content is non-empty; it carries the type, id, number, page, comparison and church ids and both contents; nothing else changes |
| Pipeline.HtmlBlock | scrape.py:1019-1031 | `book-title` is anchored at the book slug, `chapter-title` at the chapter slug, section titles and paragraphs at prefix + id; an image is its content and a newline |
| Pipeline.HtmlEmit | scrape.py:1016-1032 | with HTML off or empty content nothing changes; otherwise exactly the block's HTML (`HtmlBlock`) is appended to the HTML buffer and nothing else changes |
| Pipeline.MdBlock | scrape.py:1037-1052 | the heading level and anchor per type: book slug, chapter slug, otherwise prefix + id |
| Pipeline.MdEmit | scrape.py:1034-1053 | with Markdown off or empty content nothing changes; otherwise exactly the block's Markdown (`MdBlock`) is appended and nothing else changes |
| Pipeline.TxtEmit | scrape.py:1055-1061 | with text off or empty content nothing changes; otherwise the content (upper-cased for a chapter title) and a blank line are appended and nothing else changes |
| Pipeline.RowEmit | scrape.py:1063-1079 | one row is appended exactly when rows are on and the content is non-empty; it carries the chapter, type, ids, number, page, text and HTML, and the old length as its position; nothing else changes |
| Pipeline.IsPageBreak | scrape.py:985 | a block is a stand-alone page break exactly when its first class is `page-break` |
| Pipeline.ParagraphStep | scrape.py:975-1079 | a stand-alone page break succeeds exactly when it has a `data-page`; a successful step only extends the row lists and written files (`Extends`); its other effects are stated by the lemmas below |
| Pipeline.PageBreakOnlyMovesPage | scrape.py:985-987 | a stand-alone page break emits nothing and only sets the current page |
| Pipeline.StepConsumesId | scrape.py:994-996 | every other block appends its type to its chapter's list, whatever the outputs keep, and no other chapter's list changes |
| Pipeline.ClassifyIgnoresPageBreak | scrape.py:992-995 | removing the nested page break does not change the type |
| Pipeline.StepNestedBreak | scrape.py:984-991 | a block with a break records `old,new`, and later blocks get `new` |
| Pipeline.StepAddsRowIffContent | scrape.py:1063-1068 | a paragraph row is added exactly when rows are on and the text or HTML content is non-empty |
| Pipeline.StepEmptyContentAddsNothing | scrape.py:1016-1061 | an output that is off, or whose content is empty, adds nothing to its HTML, Markdown or text buffer |
| Pipeline.StepImageAddsNoMarkdown | scrape.py:1047-1049 | an image never reaches the Markdown buffer |
| Pipeline.HtmlAnchorIsCompareId | scrape.py:1025-1031 | any block but a title or image is anchored in HTML at its comparison id |
| Pipeline.HtmlEmitAnchor | scrape.py:1016-1032 | what the HTML output appends for a block other than a title or image opens with its comparison id |
| Pipeline.MdEmitAnchor | scrape.py:1034-1053 | what the Markdown output appends for a block other than a title or image opens with an anchor at its comparison id |
| Pipeline.StepAnchorsAgree | scrape.py:1000-1079 | in one step, the HTML and Markdown anchors, the JSON entry and the row of a block other than a title or image all carry the same comparison id |
| Pipeline.HtmlBlockNeverList | scrape.py:1028-1029 | no HTML block other than an image's own content opens a `<ul>` |
| Pipeline.RowTextMatchesJson | scrape.py:1000-1079 | JSON and rows share the plain text; non-empty text adds both, and when both are added they agree on text and comparison id |
| Pipeline.BlockTypes | scrape.py:974-995 | at most one type per block |
| Pipeline.ParagraphsRecordTypes | scrape.py:974-996 | after a chapter's loop its type list has gained exactly the types of its blocks that are not page breaks, and the others are unchanged |
| Pipeline.RunParagraphs | scrape.py:975-1079 | the paragraph loop only extends the row lists and written files |
| Pipeline.ParagraphsStopAtFailure | scrape.py:974-996 | an exception ends the loop: later blocks do not change the outcome |
| Pipeline.RowEmitKeepsRowsNumbered | scrape.py:1063-1079 | adding a paragraph row keeps every row list numbered 0..n-1 |
| Pipeline.StepKeepsRowsNumbered | scrape.py:1070 | a paragraph step keeps every row list numbered 0..n-1 |
| Pipeline.ParagraphsKeepRowsNumbered | scrape.py:974-1079 | the paragraph loop keeps every row list numbered and does not touch publication or chapter rows |
| Pipeline.Separators | scrape.py:928-935 | a rule is written into each enabled text buffer exactly when more than one chapter is counted |
| Pipeline.MediaRows | scrape.py:948-960 | one media row per media item, in order |
| Pipeline.CountChapter | scrape.py:920-921 | the counter moves by one exactly in split-JSON mode |
| Pipeline.ChapterRows | scrape.py:937-960 | the chapter row at the next position, then the media rows; nothing when rows are off |
| Pipeline.OpenChapter | scrape.py:911-972 | everything before the loop only extends the row lists and files, and leaves the chapter's paragraph list empty |
| Pipeline.OpenChapterCounter | scrape.py:920-935 | without split JSON the counter stays put and no separator is written; with it, the second chapter on gets one |
| Pipeline.OpenChapterRows | scrape.py:937-960 | one chapter row and exactly one media row per item, numbering kept |
| Pipeline.OpenChapterKeepsCarriedPage | scrape.py:971 | a page carried over from the previous chapter of the book is never reseeded |
| Pipeline.CloseChapter | scrape.py:911-926 | in split mode the chapter record goes into its own file (written at scrape.py lines 1081-1086) and the publication JSON is untouched; otherwise it is stored under book slug and chapter slug: a new book goes after the books already there and a new chapter after its book's chapters, while a present key keeps its place |
| Pipeline.CloseChapterOtherBooks | scrape.py:922-926 | storing a chapter leaves every other book's chapters as they were |
| Dicts.Keys | scrape.py:922-926 | one key per entry, in insertion order |
| Dicts.Get | scrape.py:922-926 | a value exactly for a present key, and it is the one stored with it |
| Dicts.Put | scrape.py:922-926 | `d[k] = v`: a present key keeps its place, a new key goes last, and `k` then maps to `v` |
| Dicts.PutOthers | scrape.py:922-926 | `d[k] = v` leaves what every other key maps to |
| Dicts.PutDistinct | scrape.py:922-926 | assignments keep the keys distinct |
| Pipeline.ReadChapter | scrape.py:974-1086 | the paragraph loop and storing the record only extend the row lists and files |
| Pipeline.ChapterInfoOf | scrape.py:905-909 | the chapter's number string, stripped name and abbreviation, its media, and the slug and URI built at scrape.py lines 740-744, for numbered and named chapters alike |
| Pipeline.HasSoup | scrape.py:746-773 | a chapter is processed only with a response; over plain requests every response is processed, and with the browser exactly those whose URI matched |
| Pipeline.ChapterStep | scrape.py:740-1087 | a chapter without a processed page changes nothing; a processed one only extends the row lists and files |
| Pipeline.RunChapters | scrape.py:740-1087 | the chapter loop only extends the row lists and files |
| Pipeline.SkippedChapterChangesNothing | scrape.py:746-773 | a chapter without a processed page changes nothing |
| Pipeline.MismatchedUriKeptOverHttp | scrape.py:766-771 | over plain requests a mismatched URI is still processed |
| Pipeline.ChapterKeepsRowsNumbered | scrape.py:937-1079 | a chapter keeps every row list numbered |
| Pipeline.ChaptersStopAtFailure | scrape.py:740 | an exception ends the chapter loop |
| Pipeline.ChaptersKeepRowsNumbered | scrape.py:740-1079 | the chapter loop keeps every row list numbered |
| Pipeline.BookScraped | scrape.py:734 | a book is scraped exactly when the language has it and its URI is present and non-empty |
| Pipeline.BookStep | scrape.py:733-739 | a book the language lacks, or one without URI, changes nothing; a scraped one only extends the row lists and files |
| Pipeline.RunBooks | scrape.py:733-1087 | the book loop only extends the row lists and files |
| Pipeline.BookStartsWithoutPage | scrape.py:739 | a book ignores the page number it is handed: the page is reset per book only |
| Pipeline.BooksStopAtFailure | scrape.py:733 | an exception ends the book loop |
| Pipeline.BooksKeepRowsNumbered | scrape.py:733-1079 | the book loop keeps every row list numbered |
| Pipeline.OpenPublication | scrape.py:700-731 | the buffers, JSON and counter are reset; the publication row, when rows are on, is at the next position |
| Pipeline.ClosePublication | scrape.py:1113-1120 | one file set is added for the publication's slug: the JSON content exactly when JSON is on and not split, and the HTML, Markdown and text buffers exactly when enabled, each as accumulated; nothing else changes |
| Pipeline.PublicationStep | scrape.py:699-1120 | a publication the language lacks changes nothing; an available one only extends the row lists and files |
| Pipeline.RunPublications | scrape.py:699-1120 | the publication loop only extends the row lists and files |
| Pipeline.PublicationsStopAtFailure | scrape.py:699 | an exception ends the publication loop |
| Pipeline.PublicationKeepsRowsNumbered | scrape.py:699-1079 | a publication keeps every row list numbered |
| Pipeline.PublicationsKeepRowsNumbered | scrape.py:699-1079 | the publication loop keeps every row list numbered |
| Pipeline.OutputFullContent | scrape.py:556-1120 | a successful run numbers its paragraph rows, and likewise its publication and chapter rows (scrape.py lines 715 and 940), 0..n-1 with no gap, across all publications |
| Export.Exporter.EmitJson | scrape.py:1000-1014 | the method leaves exactly the state `JsonEmit` gives |
| Export.Exporter.EmitHtml | scrape.py:1016-1032 | the method leaves exactly the state `HtmlEmit` gives |
| Export.Exporter.EmitMd | scrape.py:1034-1053 | the method leaves exactly the state `MdEmit` gives |
| Export.Exporter.EmitTxt | scrape.py:1055-1061 | the method leaves exactly the state `TxtEmit` gives |
| Export.Exporter.EmitRow | scrape.py:1063-1079 | the method leaves exactly the state `RowEmit` gives |
| Export.Exporter.TakeNestedBreak | scrape.py:988-991 | the current page and the block's page after a nested break, as `NestedBreak`, or its error |
| Export.Exporter.EmitAll | scrape.py:1000-1079 | the five outputs in source order leave exactly `RowEmit(TxtEmit(MdEmit(HtmlEmit(JsonEmit(..)))))` |
| Export.Exporter.ExportParagraph | scrape.py:974-1079 | one loop iteration ends in `ParagraphStep`'s state or with its error |
| Export.Exporter.CountAndSeparate | scrape.py:920-935 | the counter and separators as `Separators` after `CountChapter` |
| Export.Exporter.AddChapterRows | scrape.py:937-960 | the chapter row and the media-row loop leave exactly `ChapterRows` |
| Export.Exporter.SeedPageState | scrape.py:969-972 | the seed ends in `SeedPage`'s state or with its error |
| Export.Exporter.OpenChapterState | scrape.py:911-972 | everything before the paragraph loop, as `OpenChapter` |
| Export.Exporter.CloseChapterState | scrape.py:911-926 | the record is stored as `CloseChapter` says |
| Export.Exporter.ReadChapterState | scrape.py:974-1086 | the paragraph loop and the record, as `ReadChapter` |
| Export.Exporter.ExportChapter | scrape.py:740-1086 | one chapter, as `ChapterStep` |
| Export.Exporter.ExportChapters | scrape.py:740 | the chapter loop, as `RunChapters` |
| Export.Exporter.ExportBook | scrape.py:733-1086 | one book, as `BookStep` |
| Export.Exporter.OpenPublicationState | scrape.py:700-731 | the reset and publication row, as `OpenPublication` |
| Export.Exporter.ClosePublicationState | scrape.py:1113-1120 | the publication files, as `ClosePublication` |
| Export.Exporter.ExportBooks | scrape.py:733 | the book loop, as `RunBooks` |
| Export.Exporter.ExportPublication | scrape.py:699-1118 | one publication, as `PublicationStep` |
| Export.Exporter.ExportPublications | scrape.py:699 | the publication loop, as `RunPublications` |
| Export.Exporter.constructor | scrape.py:557-593 | all lists, buffers and the id table start empty |
| Export.ExportLanguage | scrape.py:556-1118 | a fresh exporter run ends as `OutputFullContent` says, and on success every row list is numbered 0..n-1 |

## Left out

- Network and browser I/O (requests, Playwright, pauses) is not modelled. A chapter's page is an input: absent when no successful response came, with a flag for whether its article carries the expected URI.
- Metadata discovery is not modelled: the languages, the availability tables, the version information and `churchChapters`. Publications, books, chapters and version fields are inputs.
- BeautifulSoup selection and the DOM clean-up passes are not modelled (scrape.py:834-904, 642-652, 661-672). A block is the record these passes leave: tag, id, classes, siblings, verse number, nested page break, image attributes and the `id`/`href` attributes of its descendants. The first nested `.page-break` of a block is part of its block; the loop's skipping of elements already decomposed is therefore not modelled separately. Of these passes, the one failure that depends on the block is modelled: a `.study-note-ref` without `data-scroll-id` makes the pop at scrape.py:652 raise `KeyError` as soon as an enabled output asks for the content of a block that is not an image, so each block records the `data-scroll-id` of its note references.
- The serialisers are parameters of the model: `decode_contents`, `.text`, markdownify's `convert_soup`, and Unicode `str.upper` for chapter titles. So is the type-abbreviation table `mapping_paragraph_type_to_paragraph_type_abbrev`; its definition is not part of this model, and a missing entry is written as `None`, as the f-string does. Their results are opaque strings that the model post-processes as the source does.
- JSON, CSV, TSV and SQL serialisation, the HTML template, file paths, and writing the files are not modelled. The model keeps what would be written: the chapter records (per chapter in split mode) and one set of publication buffers per publication. The publication JSON keeps its dicts in insertion order (books, then each book's chapters), the order `json.dump(..., sort_keys=False)` writes them in.
- Publication-row fields copied from the version information or fixed by the source are not modelled (name, version abbreviation and name, edition years, copyright, the constant flags and source URL). Media-row fields that are always `None` or constant are not modelled either (start and end seconds, source).
- `int()` is modelled for optional surrounding whitespace, an optional sign and ASCII digits. Underscores and non-ASCII digits, which Python also accepts, are treated as a `ValueError`.
- The `AttributeError` raised when a page has no chapter header is not modelled; the header is an input.
- Metadata.DownloadMedia: the asset id of a download is always absent. For a link on the asset host, scrape.py:821 subscripts the `split` method itself, which raises `TypeError`; the model does not raise there.
- Pipeline.IdPrefix: the prefix is always the chapter slug and `_`. When HTML output is off, scrape.py:962-967 never binds `paragraph_id_prefix`, and `OUTPUT_AS_HTML` is a constant of resources/config.py, so no earlier chapter binds it either. The first JSON content call (scrape.py:1002) or Markdown content call (scrape.py:1036) would then raise `UnboundLocalError`, a `NameError`; the model does not raise there.
- Pipeline.CloseChapter: the chapter record is stored after its paragraph loop. The source stores it before the loop and appends to it in place, which leaves the same record once the loop ends.
- Stdout and stderr messages are not modelled; only their plural suffix is.

=== FILE: content.dfy ===
/**
 * The content of one paragraph in one output format (`get_paragraph_content`
 * in scrape.py): image URLs, the prefixing of ids and in-page links, and the
 * clean-up applied to what the serialisers return. Serialising a block (as
 * text, as HTML, as Markdown) is BeautifulSoup's and markdownify's work; the
 * model receives those serialisers as functions of the prepared block.
 */
module ParagraphContent {
  import opened Wrappers
  import opened Exceptions
  import opened Text
  import opened Paragraphs

  /** The `content_type` argument. */
  datatype ContentType = PlainText | Html | Markdown

  /**
   * What the serialisers see of the copied block after the in-tree passes:
   * whether the verse number was kept, whether the basic styling pass ran,
   * and the `id`/`href` attributes after prefixing.
   */
  datatype Prepared = Prepared(node: Node, keepNumber: bool, basic: bool, attrs: seq<Attr>)

  /** `.text`, `.decode_contents()` and `MarkdownConverter.convert_soup` of a prepared block. */
  datatype Renderers = Renderers(text: Prepared -> string, html: Prepared -> string, markdown: Prepared -> string)

  const AssetHost: string := "https://assets.ldscdn.org/"

  // ---------------------------------------------------------------------------
  // Images

  /** `(paragraph.get('src') or '').split('/')[-1]`. */
  function ImageFilename(n: Node): (r: string)
    ensures '/' !in r
    ensures !Truthy(n.src) ==> r == ""
  {
    LastPiece(if Truthy(n.src) then n.src.value else "", '/')
  }

  /** The CDN address of an image: two two-character shards of the asset id, the id, the file name. */
  function ImageUrl(assetId: string, filename: string): (r: string)
    ensures AssetHost <= r
    ensures '/' !in filename ==> LastPiece(r, '/') == filename
  {
    var dir := AssetHost + Slice(assetId, 0, 2) + "/" + Slice(assetId, 2, 4) + "/" + assetId;
    var r := dir + "/" + filename;
    assert '/' !in filename ==> LastPiece(r, '/') == filename by {
      if '/' !in filename {
        assert r == dir + ['/'] + filename;
        LastPieceAfterSep(dir, '/', filename);
      }
    }
    r
  }

  /** The `<img>` element of an image block, lazily loaded, with its asset id. */
  function ImageTag(elementId: string, url: string, alt: string, assetId: string): (r: string)
    ensures "<img id=\"" + elementId + "\"" <= r
  {
    var head := "<img id=\"" + elementId + "\"";
    head + (" src=\"" + url + "\" alt=\"" + alt + "\" data-asset-id=\"" + assetId + "\" loading=\"lazy\" decoding=\"async\">")
  }

  /**
   * The image branch of `get_paragraph_content`. The Markdown string is built
   * and thrown away, so Markdown content of an image is always empty.
   */
  function ImageContent(n: Node, ctype: ContentType, prefix: string, id: string): (r: string)
    ensures ctype == Markdown ==> r == ""
    ensures ctype != Markdown ==> (r != "" <==> Truthy(n.assetId) && ImageFilename(n) != "")
    ensures ctype == PlainText && r != "" ==> AssetHost <= r && LastPiece(r, '/') == ImageFilename(n)
    ensures ctype == Html && r != "" ==> "<img id=\"" + prefix + id + "\"" <= r
  {
    var filename := ImageFilename(n);
    if Truthy(n.assetId) && filename != "" then
      var assetId := n.assetId.value;
      var url := ImageUrl(assetId, filename);
      match ctype
      case Html =>
        var tag := ImageTag(prefix + id, url, n.alt.GetOr(""), assetId);
        assert "<img id=\"" + prefix + id + "\"" == "<img id=\"" + (prefix + id) + "\"";
        tag
      case Markdown => ""
      case PlainText => url
    else ""
  }

  /**
   * With an asset id free of `/`, splitting the image URL on `/` gives back the
   * scheme, the host, both shards, the asset id and the file name.
   */
  lemma ImageUrlSegments(assetId: string, filename: string)
    requires '/' !in assetId && '/' !in filename
    ensures Split(ImageUrl(assetId, filename), '/')
      == ["https:", "", "assets.ldscdn.org", Slice(assetId, 0, 2), Slice(assetId, 2, 4), assetId, filename]
  {
    var a, b := Slice(assetId, 0, 2), Slice(assetId, 2, 4);
    SliceOmits(assetId, 0, 2, '/');
    SliceOmits(assetId, 2, 4, '/');
    var pieces := ["https:", "", "assets.ldscdn.org", a, b, assetId, filename];
    var tail := a + "/" + b + "/" + assetId + "/" + filename;
    JoinTail4(a, b, assetId, filename);
    assert pieces[3..] == [a, b, assetId, filename];
    assert pieces[1..] == ["", "assets.ldscdn.org", a, b, assetId, filename];
    assert pieces[2..] == ["assets.ldscdn.org", a, b, assetId, filename];
    assert Join(pieces[2..], "/") == "assets.ldscdn.org" + "/" + tail;
    assert Join(pieces[1..], "/") == "" + "/" + ("assets.ldscdn.org" + "/" + tail);
    assert Join(pieces, "/") == "https:" + "/" + ("" + "/" + ("assets.ldscdn.org" + "/" + tail));
    HostPieces(tail);
    Reassoc(AssetHost, a, b, assetId, filename, "/");
    assert Join(pieces, "/") == ImageUrl(assetId, filename);
    forall i | 0 <= i < |pieces|
      ensures '/' !in pieces[i]
    {
    }
    SplitJoin(pieces, '/');
  }

  /** A character missing from a string is missing from every slice of it. */
  lemma SliceOmits(s: string, i: nat, j: nat, c: char)
    requires c !in s
    ensures c !in Slice(s, i, j)
  {
  }

  lemma HostPieces(tail: string)
    ensures "https:" + "/" + ("" + "/" + ("assets.ldscdn.org" + "/" + tail)) == AssetHost + tail
  {
    assert "https:" + "/" + "" + "/" + "assets.ldscdn.org" + "/" == AssetHost;
  }

  lemma Reassoc(h: string, a: string, b: string, c: string, d: string, s: string)
    ensures h + a + s + b + s + c + s + d == h + (a + s + b + s + c + s + d)
  {
  }

  lemma JoinTail4(a: string, b: string, c: string, d: string)
    ensures Join([a, b, c, d], "/") == a + "/" + b + "/" + c + "/" + d
  {
    assert [a, b, c, d][1..] == [b, c, d];
    assert [b, c, d][1..] == [c, d];
    assert [c, d][1..] == [d];
    assert Join([c, d], "/") == c + "/" + d;
    assert Join([b, c, d], "/") == b + "/" + (c + "/" + d);
    assert Join([a, b, c, d], "/") == a + "/" + (b + "/" + (c + "/" + d));
    Flatten4(a, b, c, d, "/");
  }

  lemma Flatten4(a: string, b: string, c: string, d: string, s: string)
    ensures a + s + (b + s + (c + s + d)) == a + s + b + s + c + s + d
  {
  }

  // ---------------------------------------------------------------------------
  // Prefixing ids and in-page links

  /**
   * One attribute after the prefixing pass: every `id` gains the prefix, an
   * `href` that starts with `#` has its first `#` replaced by `#` + prefix,
   * and other links are left alone.
   */
  function PrefixAttr(a: Attr, prefix: string): (r: Attr)
    ensures r.IdAttr? == a.IdAttr?
    ensures a.IdAttr? ==> r.value == prefix + a.value
    ensures a.HrefAttr? && "#" <= a.value ==> r.value == "#" + prefix + a.value[1..]
    ensures a.HrefAttr? && !("#" <= a.value) ==> r == a
  {
    match a
    case IdAttr(v) => IdAttr(prefix + v)
    case HrefAttr(v) => if "#" <= v then HrefAttr(ReplaceFirst(v, "#", "#" + prefix)) else a
  }

  /** A link to an id inside the block still points at that id once both are prefixed. */
  lemma PrefixKeepsLinks(v: string, prefix: string)
    ensures PrefixAttr(HrefAttr("#" + v), prefix).value == "#" + PrefixAttr(IdAttr(v), prefix).value
  {
    assert ("#" + v)[1..] == v;
  }

  /** Distinct ids stay distinct after prefixing. */
  lemma PrefixKeepsIdsDistinct(u: string, v: string, prefix: string)
    requires u != v
    ensures PrefixAttr(IdAttr(u), prefix) != PrefixAttr(IdAttr(v), prefix)
  {
    assert (prefix + u)[|prefix|..] == u;
    assert (prefix + v)[|prefix|..] == v;
  }

  /** The whole attribute list after the `[id]` pass and the `[href^="#"]` pass. */
  function PrefixAttrs(attrs: seq<Attr>, prefix: string): (r: seq<Attr>)
    ensures |r| == |attrs|
    ensures forall i :: 0 <= i < |r| ==> r[i] == PrefixAttr(attrs[i], prefix)
  {
    seq(|attrs|, i requires 0 <= i < |attrs| => PrefixAttr(attrs[i], prefix))
  }

  /**
   * The two loops of the prefixing pass, run in place on the copied block's
   * attributes: first every `id`, then every `href` starting with `#`.
   */
  method PrefixIdentifiers(attrs: array<Attr>, prefix: string)
    modifies attrs
    ensures attrs[..] == PrefixAttrs(old(attrs[..]), prefix)
  {
    var i := 0;
    while i < attrs.Length
      invariant 0 <= i <= attrs.Length
      invariant forall k :: 0 <= k < i ==> attrs[k] == (if old(attrs[k]).IdAttr? then PrefixAttr(old(attrs[k]), prefix) else old(attrs[k]))
      invariant forall k :: i <= k < attrs.Length ==> attrs[k] == old(attrs[k])
    {
      if attrs[i].IdAttr? {
        attrs[i] := IdAttr(prefix + attrs[i].value);
      }
      i := i + 1;
    }
    i := 0;
    while i < attrs.Length
      invariant 0 <= i <= attrs.Length
      invariant forall k :: 0 <= k < i ==> attrs[k] == PrefixAttr(old(attrs[k]), prefix)
      invariant forall k :: i <= k < attrs.Length ==> attrs[k] == (if old(attrs[k]).IdAttr? then PrefixAttr(old(attrs[k]), prefix) else old(attrs[k]))
    {
      if attrs[i].HrefAttr? && "#" <= attrs[i].value {
        attrs[i] := HrefAttr(ReplaceFirst(attrs[i].value, "#", "#" + prefix));
      }
      i := i + 1;
    }
  }

  // ---------------------------------------------------------------------------
  // Collapsing blank lines

  /** One `.replace('\n\n\n', '\n\n')`. */
  function CollapseOnce(s: string): (r: string)
    ensures |r| <= |s|
    ensures !Contains(s, "\n\n\n") ==> r == s
  {
    ReplaceAll(s, "\n\n\n", "\n\n")
  }

  /** The four chained replacements at the end of `get_paragraph_content`. */
  function Collapse(s: string): (r: string)
    ensures |r| <= |s|
    ensures !Contains(s, "\n\n\n") ==> r == s
  {
    CollapseOnce(CollapseOnce(CollapseOnce(CollapseOnce(s))))
  }

  /** A run of `n` newlines. */
  function Newlines(n: nat): (r: string)
    ensures |r| == n
    ensures forall k :: 0 <= k < n ==> r[k] == '\n'
  {
    seq(n, _ => '\n')
  }

  /** One pass turns a run of `n` newlines into a run of `n - n / 3`. */
  lemma {:induction false} CollapseOnceRun(n: nat)
    ensures CollapseOnce(Newlines(n)) == Newlines(n - n / 3)
    decreases n
  {
    var s := Newlines(n);
    if n >= 3 {
      assert "\n\n\n" <= s;
      assert s[3..] == Newlines(n - 3);
      CollapseOnceRun(n - 3);
      assert "\n\n" + Newlines(n - 3 - (n - 3) / 3) == Newlines(n - n / 3);
    } else if n > 0 {
      assert !("\n\n\n" <= s);
      assert s[1..] == Newlines(n - 1);
      CollapseOnceRun(n - 1);
      assert [s[0]] + Newlines(n - 1) == Newlines(n);
    }
  }

  /** The run length after four passes. */
  lemma CollapseRun(n: nat)
    ensures var a := n - n / 3; var b := a - a / 3; var c := b - b / 3;
      Collapse(Newlines(n)) == Newlines(c - c / 3)
  {
    var a := n - n / 3;
    var b := a - a / 3;
    var c := b - b / 3;
    CollapseOnceRun(n);
    CollapseOnceRun(a);
    CollapseOnceRun(b);
    CollapseOnceRun(c);
  }

  /** A run of at most two newlines survives the four passes. */
  lemma ShortRunStays(n: nat)
    requires n <= 2
    ensures Collapse(Newlines(n)) == Newlines(n)
  {
    CollapseRun(n);
  }

  /** A run of three to nine newlines ends as one blank line. */
  lemma MediumRunShrinks(n: nat)
    requires 3 <= n <= 9
    ensures Collapse(Newlines(n)) == "\n\n"
  {
    CollapseRun(n);
    assert Newlines(2) == "\n\n";
  }

  /** No run of newlines crosses the point where `a` meets `b`. */
  predicate NoRunAcross(a: string, b: string) {
    a == [] || b == [] || a[|a| - 1] != '\n' || b[0] != '\n'
  }

  /** Where no triple newline starts, one pass copies the first character. */
  lemma CollapseOnceCopies(s: string)
    requires s != [] && !("\n\n\n" <= s)
    ensures CollapseOnce(s) == [s[0]] + CollapseOnce(s[1..])
  {
  }

  /** A triple newline at the start of `a + b` lies within `a` when no run crosses into `b`. */
  lemma TripleStaysLeft(a: string, b: string)
    requires a != [] && NoRunAcross(a, b) && "\n\n\n" <= a + b
    ensures |a| >= 3 && "\n\n\n" <= a
  {
    var s := a + b;
    assert s[0] == '\n' && s[1] == '\n' && s[2] == '\n';
    if a != [] {
      assert s[|a| - 1] == a[|a| - 1];
    }
    if b != [] {
      assert s[|a|] == b[0];
    }
    assert |a| >= 3;
    assert a[..3] == s[..3];
  }

  /**
   * One pass works on each side of a point that no run of newlines crosses:
   * the left-to-right scan reaches that point exactly, never straddling it.
   */
  lemma {:induction false} CollapseOnceSplit(a: string, b: string)
    requires NoRunAcross(a, b)
    ensures CollapseOnce(a + b) == CollapseOnce(a) + CollapseOnce(b)
    decreases |a|
  {
    if a == [] {
      assert !Contains(a, "\n\n\n");
      assert a + b == b;
    } else if "\n\n\n" <= a + b {
      TripleStaysLeft(a, b);
      CollapseOnceSplit(a[3..], b);
      SplitAtTriple(a, b);
    } else {
      CollapseOnceSplit(a[1..], b);
      SplitAtOther(a, b);
    }
  }

  /** The step of `CollapseOnceSplit` where `a` starts with a triple newline. */
  lemma SplitAtTriple(a: string, b: string)
    requires |a| >= 3 && "\n\n\n" <= a
    requires CollapseOnce(a[3..] + b) == CollapseOnce(a[3..]) + CollapseOnce(b)
    ensures CollapseOnce(a + b) == CollapseOnce(a) + CollapseOnce(b)
  {
    var s := a + b;
    assert "\n\n\n" <= s;
    assert s[3..] == a[3..] + b;
    AppendAssoc("\n\n", CollapseOnce(a[3..]), CollapseOnce(b));
  }

  /** The step of `CollapseOnceSplit` where `a + b` starts with anything else. */
  lemma SplitAtOther(a: string, b: string)
    requires a != [] && !("\n\n\n" <= a + b)
    requires CollapseOnce(a[1..] + b) == CollapseOnce(a[1..]) + CollapseOnce(b)
    ensures CollapseOnce(a + b) == CollapseOnce(a) + CollapseOnce(b)
  {
    var s := a + b;
    assert a <= s;
    CollapseOnceCopies(s);
    CollapseOnceCopies(a);
    assert s[1..] == a[1..] + b;
    AppendAssoc([a[0]], CollapseOnce(a[1..]), CollapseOnce(b));
  }

  /** One pass keeps a last character that is not a newline. */
  lemma CollapseOnceKeepsLast(a: string)
    requires a != [] && a[|a| - 1] != '\n'
    ensures var r := CollapseOnce(a); r != [] && r[|r| - 1] == a[|a| - 1]
  {
    var last := [a[|a| - 1]];
    assert a[..|a| - 1] + last == a;
    CollapseOnceSplit(a[..|a| - 1], last);
    NotContainsChar(last, '\n', "\n\n\n");
  }

  /** One pass keeps a first character that is not a newline. */
  lemma CollapseOnceKeepsFirst(b: string)
    requires b != [] && b[0] != '\n'
    ensures var r := CollapseOnce(b); r != [] && r[0] == b[0]
  {
    var first := [b[0]];
    assert first + b[1..] == b;
    CollapseOnceSplit(first, b[1..]);
    NotContainsChar(first, '\n', "\n\n\n");
  }

  /** After one pass on each side, still no run crosses the meeting point. */
  lemma CollapseOnceKeepsBoundary(a: string, b: string)
    requires NoRunAcross(a, b)
    ensures NoRunAcross(CollapseOnce(a), CollapseOnce(b))
  {
    if a == [] || b == [] {
      assert !Contains([], "\n\n\n");
    } else if a[|a| - 1] != '\n' {
      CollapseOnceKeepsLast(a);
    } else {
      CollapseOnceKeepsFirst(b);
    }
  }

  /** The four passes work on each side of a point that no run of newlines crosses. */
  lemma CollapseSplit(a: string, b: string)
    requires NoRunAcross(a, b)
    ensures Collapse(a + b) == Collapse(a) + Collapse(b)
  {
    var a1, b1 := CollapseOnce(a), CollapseOnce(b);
    var a2, b2 := CollapseOnce(a1), CollapseOnce(b1);
    var a3, b3 := CollapseOnce(a2), CollapseOnce(b2);
    CollapseOnceSplit(a, b);
    CollapseOnceKeepsBoundary(a, b);
    CollapseOnceSplit(a1, b1);
    CollapseOnceKeepsBoundary(a1, b1);
    CollapseOnceSplit(a2, b2);
    CollapseOnceKeepsBoundary(a2, b2);
    CollapseOnceSplit(a3, b3);
  }

  /**
   * A run of newlines between text that does not end or start with a
   * newline collapses on its own, whatever surrounds it.
   */
  lemma CollapseEmbeddedRun(a: string, n: nat, b: string)
    requires a == [] || a[|a| - 1] != '\n'
    requires b == [] || b[0] != '\n'
    ensures Collapse(a + Newlines(n) + b) == Collapse(a) + Collapse(Newlines(n)) + Collapse(b)
  {
    CollapseSplit(a, Newlines(n) + b);
    CollapseSplit(Newlines(n), b);
    AppendAssoc(a, Newlines(n), b);
    AppendAssoc(Collapse(a), Collapse(Newlines(n)), Collapse(b));
  }

  /** Runs of one or two newlines inside the content are left as they are. */
  lemma CollapseShortRun(a: string, n: nat, b: string)
    requires n <= 2
    requires a == [] || a[|a| - 1] != '\n'
    requires b == [] || b[0] != '\n'
    ensures Collapse(a + Newlines(n) + b) == Collapse(a) + Newlines(n) + Collapse(b)
  {
    CollapseEmbeddedRun(a, n, b);
    ShortRunStays(n);
  }

  /** A run of three to nine newlines inside the content becomes exactly one blank line. */
  lemma CollapseMediumRun(a: string, n: nat, b: string)
    requires 3 <= n <= 9
    requires a == [] || a[|a| - 1] != '\n'
    requires b == [] || b[0] != '\n'
    ensures Collapse(a + Newlines(n) + b) == Collapse(a) + "\n\n" + Collapse(b)
  {
    CollapseEmbeddedRun(a, n, b);
    MediumRunShrinks(n);
  }

  /** One pass never shortens a longer run below a shorter one's result. */
  lemma PassMonotone(m: nat, n: nat)
    requires m <= n
    ensures m - m / 3 <= n - n / 3
  {
  }

  /**
   * A run of ten or more newlines still holds three after the four passes:
   * the collapse does not remove every blank-line excess.
   */
  lemma CollapseLongRun(n: nat)
    requires n >= 10
    ensures |Collapse(Newlines(n))| >= 3
    ensures Contains(Collapse(Newlines(n)), "\n\n\n")
  {
    CollapseRun(n);
    var a := n - n / 3;
    var b := a - a / 3;
    var c := b - b / 3;
    PassMonotone(10, n);
    PassMonotone(7, a);
    PassMonotone(5, b);
    PassMonotone(4, c);
    var r := Collapse(Newlines(n));
    assert r[0..3] == "\n\n\n";
    ContainsAt(r, "\n\n\n", 0);
  }

  // ---------------------------------------------------------------------------
  // The whole function

  /**
   * The copied block as the serialiser sees it: `text` and `markdown` force
   * the basic styling pass; for `html` and `markdown` a non-empty prefix is
   * put in front of every id and every in-page link.
   */
  function Prepare(n: Node, ctype: ContentType, basic: bool, keepNumber: bool, prefix: string): (r: Prepared)
    ensures r.node == n && r.keepNumber == keepNumber
    ensures r.basic == (!ctype.Html? || basic)
    ensures ctype == PlainText || prefix == "" ==> r.attrs == n.attrs
    ensures ctype != PlainText && prefix != "" ==>
      |r.attrs| == |n.attrs| &&
      forall i :: 0 <= i < |n.attrs| && n.attrs[i].IdAttr? ==> r.attrs[i] == IdAttr(prefix + n.attrs[i].value)
  {
    var forcedBasic := if ctype == PlainText || ctype == Markdown then true else basic;
    var attrs := if ctype != PlainText && prefix != "" then PrefixAttrs(n.attrs, prefix) else n.attrs;
    Prepared(n, keepNumber, forcedBasic, attrs)
  }

  /** Every nested `.study-note-ref` has the `data-scroll-id` the footnote pass pops. */
  function ScrollIdsPresent(n: Node): (r: bool)
    ensures r <==> None !in n.noteRefs
  {
    forall i :: 0 <= i < |n.noteRefs| ==> n.noteRefs[i].Some?
  }

  /**
   * `get_paragraph_content(paragraph, content_type, basic_html, include_number, id_prefix, id)`.
   * It fails where classifying the block fails and, for a block other than an
   * image, with a `KeyError` when a note reference has no `data-scroll-id`.
   */
  function Content(render: Renderers, n: Node, ctype: ContentType, basic: bool, keepNumber: bool, prefix: string, id: string)
    : (r: Result<string, Exception>)
    ensures r.Failure? <==> Classify(n).Failure? || (Classify(n).value != Image && !ScrollIdsPresent(n))
    ensures Classify(n).Success? && Classify(n).value != Image && !ScrollIdsPresent(n) ==> r == Failure(KeyError("data-scroll-id"))
    ensures r.Success? && Classify(n).value == Image ==> r.value == ImageContent(n, ctype, prefix, id)
    ensures r.Success? && Classify(n).value != Image && ctype == PlainText && FirstClass(n) == Some("footnotes") ==> r.value == ""
  {
    var t :- Classify(n);
    if t == Image then Success(ImageContent(n, ctype, prefix, id))
    else if !ScrollIdsPresent(n) then Failure(KeyError("data-scroll-id"))
    else
      var prepared := Prepare(n, ctype, basic, keepNumber, prefix);
      match ctype
      case Markdown => Success(Collapse(render.markdown(prepared)))
      case Html => Success(Collapse(Strip(ReplaceAll(render.html(prepared), " </small>", "</small> "))))
      case PlainText =>
        if FirstClass(n) == Some("footnotes") then Success("")
        else Success(Collapse(Strip(render.text(prepared))))
  }

  /** Plain text depends neither on the styling flag nor on the id prefix nor on the id. */
  lemma TextIgnoresStyleAndIds(render: Renderers, n: Node, keepNumber: bool, b1: bool, b2: bool, p1: string, p2: string, i1: string, i2: string)
    ensures Content(render, n, PlainText, b1, keepNumber, p1, i1) == Content(render, n, PlainText, b2, keepNumber, p2, i2)
  {
  }

  /** Markdown content does not depend on the styling flag. */
  lemma MarkdownIgnoresStyle(render: Renderers, n: Node, keepNumber: bool, b1: bool, b2: bool, prefix: string, id: string)
    ensures Content(render, n, Markdown, b1, keepNumber, prefix, id) == Content(render, n, Markdown, b2, keepNumber, prefix, id)
  {
  }

  /** An image never has Markdown content, so the Markdown image wrapper is never reached. */
  lemma ImageMarkdownEmpty(render: Renderers, n: Node, basic: bool, keepNumber: bool, prefix: string, id: string)
    requires Classify(n) == Success(Image)
    ensures Content(render, n, Markdown, basic, keepNumber, prefix, id) == Success("")
  {
  }

  /**
   * The imperative form of `get_paragraph_content`: it copies the block's
   * attributes, prefixes them in place and hands the copy to the serialiser.
   */
  method GetContent(render: Renderers, n: Node, ctype: ContentType, basic: bool, keepNumber: bool, prefix: string, id: string)
    returns (r: Result<string, Exception>)
    ensures r == Content(render, n, ctype, basic, keepNumber, prefix, id)
  {
    var classified := Classify(n);
    if classified.Failure? {
      return Failure(classified.error);
    }
    var t := classified.value;
    var forcedBasic := basic;
    if ctype == PlainText || ctype == Markdown {
      forcedBasic := true;
    }
    if t == Image {
      return Success(ImageContent(n, ctype, prefix, id));
    }
    if !ScrollIdsPresent(n) {
      return Failure(KeyError("data-scroll-id"));
    }
    var copy := new Attr[|n.attrs|](i requires 0 <= i < |n.attrs| => n.attrs[i]);
    if ctype != PlainText && prefix != "" {
      PrefixIdentifiers(copy, prefix);
    }
    var prepared := Prepared(n, keepNumber, forcedBasic, copy[..]);
    assert prepared == Prepare(n, ctype, basic, keepNumber, prefix);
    var content: string;
    match ctype {
      case Markdown =>
        content := render.markdown(prepared);
      case Html =>
        content := Strip(ReplaceAll(render.html(prepared), " </small>", "</small> "));
      case PlainText =>
        if FirstClass(n) == Some("footnotes") {
          return Success("");
        }
        content := Strip(render.text(prepared));
    }
    content := ReplaceAll(content, "\n\n\n", "\n\n");
    content := ReplaceAll(content, "\n\n\n", "\n\n");
    content := ReplaceAll(content, "\n\n\n", "\n\n");
    content := ReplaceAll(content, "\n\n\n", "\n\n");
    return Success(content);
  }
}

=== FILE: dict.dfy ===
/**
 * Python's `dict` with string keys, as `json.dump(..., sort_keys=False)`
 * sees it: its entries in insertion order. Assigning to a key that is
 * already present replaces its value where it stands; a new key goes last.
 */
module Dicts {
  import opened Wrappers

  /** The entries of a dict, oldest first. */
  type Dict<V> = seq<(string, V)>

  /** `list(d)`: the keys in insertion order. */
  function Keys<V>(d: Dict<V>): (r: seq<string>)
    ensures |r| == |d|
    ensures forall i :: 0 <= i < |d| ==> r[i] == d[i].0
  {
    if d == [] then [] else [d[0].0] + Keys(d[1..])
  }

  /** Every key occurs once, as in any dict built with `Put`. */
  predicate DistinctKeys<V>(d: Dict<V>) {
    var keys := Keys(d);
    forall i, j :: 0 <= i < j < |keys| ==> keys[i] != keys[j]
  }

  /** `d.get(k)`: the value stored under `k`, if `k` is a key. */
  function Get<V>(d: Dict<V>, k: string): (r: Option<V>)
    ensures r.Some? <==> k in Keys(d)
    ensures r.Some? ==> (k, r.value) in d
  {
    if d == [] then None
    else if d[0].0 == k then Some(d[0].1)
    else
      assert Keys(d) == [d[0].0] + Keys(d[1..]);
      Get(d[1..], k)
  }

  /** `d[k] = v`: a present key keeps its place, a new one goes last. */
  function Put<V>(d: Dict<V>, k: string, v: V): (r: Dict<V>)
    ensures Keys(r) == if k in Keys(d) then Keys(d) else Keys(d) + [k]
    ensures Get(r, k) == Some(v)
  {
    if d == [] then [(k, v)]
    else
      KeysCons(d[0], d[1..]);
      assert d == [d[0]] + d[1..];
      if d[0].0 == k then
        KeysCons((k, v), d[1..]);
        GetCons((k, v), d[1..], k);
        [(k, v)] + d[1..]
      else
        var rest := Put(d[1..], k, v);
        KeysCons(d[0], rest);
        GetCons(d[0], rest, k);
        ConsSnoc(d[0].0, Keys(d[1..]), k);
        [d[0]] + rest
  }

  lemma ConsSnoc(x: string, xs: seq<string>, y: string)
    ensures [x] + (xs + [y]) == [x] + xs + [y]
  {
  }

  lemma KeysCons<V>(e: (string, V), d: Dict<V>)
    ensures Keys([e] + d) == [e.0] + Keys(d)
  {
    assert ([e] + d)[1..] == d;
  }

  lemma GetCons<V>(e: (string, V), d: Dict<V>, k: string)
    ensures Get([e] + d, k) == if e.0 == k then Some(e.1) else Get(d, k)
  {
    assert ([e] + d)[1..] == d;
  }

  /** Assigning to one key leaves what every other key maps to. */
  lemma {:induction false} PutOthers<V>(d: Dict<V>, k: string, v: V, other: string)
    requires other != k
    ensures Get(Put(d, k, v), other) == Get(d, other)
    decreases |d|
  {
    if d != [] && d[0].0 != k {
      PutOthers(d[1..], k, v, other);
      assert ([d[0]] + Put(d[1..], k, v))[1..] == Put(d[1..], k, v);
    }
  }

  /** Assignments keep the keys distinct. */
  lemma PutDistinct<V>(d: Dict<V>, k: string, v: V)
    requires DistinctKeys(d)
    ensures DistinctKeys(Put(d, k, v))
  {
    var keys := Keys(d);
    if k !in keys {
      var grown := keys + [k];
      assert Keys(Put(d, k, v)) == grown;
      forall i, j | 0 <= i < j < |grown|
        ensures grown[i] != grown[j]
      {
        assert grown[i] == keys[i];
        if j < |keys| {
          assert grown[j] == keys[j];
        }
      }
    }
  }
}

=== FILE: export.dfy ===
/**
 * `output_full_content` as the source runs it: one object holding the lists
 * and buffers it appends to, the current page, and the id registry, with one
 * method per loop level. Each method is proved to leave exactly the state the
 * matching function of `Pipeline` computes, or to stop with the same error.
 */
module Export {
  import opened Wrappers
  import opened Exceptions
  import opened Text
  import opened Paragraphs
  import opened ParagraphIds
  import opened ParagraphContent
  import opened Metadata
  import opened Dicts
  import opened Pipeline

  /** A method's outcome agrees with a step function: the same error, or no error and the state it computes. */
  predicate Agrees(expected: Result<State, Exception>, err: Option<Exception>, now: State) {
    match expected
    case Success(v) => err.None? && now == v
    case Failure(e) => err == Some(e)
  }

  class Exporter {
    var publicationRows: seq<PublicationRow>
    var chapterRows: seq<ChapterRow>
    var mediaRows: seq<MediaRow>
    var paragraphRows: seq<ParagraphRow>
    var chapterFiles: seq<ChapterFile>
    var publicationFiles: seq<PublicationFile>
    var chaptersInPublication: nat
    var json: Dict<Dict<ChapterRecord>>
    var html: string
    var md: string
    var txt: string
    var previousPageNumber: Option<string>
    var paragraphs: seq<JsonParagraph>
    const ids: IdRegistry

    /** The state the `Pipeline` functions speak of. */
    function Snapshot(): State
      reads this, ids
    {
      State(publicationRows, chapterRows, mediaRows, paragraphRows, ids.typesByChapter, chapterFiles, publicationFiles,
            chaptersInPublication, json, html, md, txt, previousPageNumber, paragraphs)
    }

    constructor()
      ensures Snapshot() == Initial && fresh(ids)
    {
      publicationRows, chapterRows, mediaRows, paragraphRows := [], [], [], [];
      chapterFiles, publicationFiles := [], [];
      chaptersInPublication, json := 0, [];
      html, md, txt := "", "", "";
      previousPageNumber, paragraphs := None, [];
      ids := new IdRegistry();
    }

    method EmitJson(ctx: ChapterContext, b: Block)
      requires Emittable(ctx, b)
      modifies this
      ensures Snapshot() == JsonEmit(ctx, old(Snapshot()), b)
    {
      if ctx.cfg.json {
        var text := GetContent(ctx.ext.render, b.node, PlainText, ctx.cfg.basicHtml, false, IdPrefix(ctx), b.id);
        var contentHtml := GetContent(ctx.ext.render, b.node, Html, ctx.cfg.basicHtml, false, IdPrefix(ctx), b.id);
        assert text == Success(ContentOf(ctx.ext, b, PlainText, ctx.cfg.basicHtml, false, IdPrefix(ctx), b.id));
        assert contentHtml == Success(ContentOf(ctx.ext, b, Html, ctx.cfg.basicHtml, false, IdPrefix(ctx), b.id));
        if text.value != "" || contentHtml.value != "" {
          var number := if Truthy(b.number) then Some(Strip(b.number.value)) else None;
          paragraphs := paragraphs + [JsonParagraph(b.ptype, b.id, text.value, contentHtml.value, number, b.pageNumber, CompareId(ctx.chapterSlug, b.id), b.node.id)];
        }
      }
    }

    method EmitHtml(ctx: ChapterContext, b: Block)
      requires Emittable(ctx, b)
      modifies this
      ensures Snapshot() == HtmlEmit(ctx, old(Snapshot()), b)
    {
      if ctx.cfg.html {
        var content := GetContent(ctx.ext.render, b.node, Html, ctx.cfg.basicHtml, true, IdPrefix(ctx), b.id);
        assert content == Success(ContentOf(ctx.ext, b, Html, ctx.cfg.basicHtml, true, IdPrefix(ctx), b.id));
        if content.value != "" {
          html := html + HtmlBlock(b.ptype, ctx.bookSlug, ctx.chapterSlug, IdPrefix(ctx), b.id, content.value);
        }
      }
    }

    method EmitMd(ctx: ChapterContext, b: Block)
      requires Emittable(ctx, b)
      modifies this
      ensures Snapshot() == MdEmit(ctx, old(Snapshot()), b)
    {
      if ctx.cfg.md {
        var content := GetContent(ctx.ext.render, b.node, Markdown, ctx.cfg.basicHtml, true, IdPrefix(ctx), "");
        assert content == Success(ContentOf(ctx.ext, b, Markdown, ctx.cfg.basicHtml, true, IdPrefix(ctx), ""));
        if content.value != "" {
          md := md + MdBlock(b.ptype, ctx.bookSlug, ctx.chapterSlug, IdPrefix(ctx), b.id, content.value);
        }
      }
    }

    method EmitTxt(ctx: ChapterContext, b: Block)
      requires Emittable(ctx, b)
      modifies this
      ensures Snapshot() == TxtEmit(ctx, old(Snapshot()), b)
    {
      if ctx.cfg.txt {
        var content := GetContent(ctx.ext.render, b.node, PlainText, ctx.cfg.basicHtml, true, "", "");
        assert content == Success(ContentOf(ctx.ext, b, PlainText, ctx.cfg.basicHtml, true, "", ""));
        if content.value != "" {
          var line := if b.ptype == ChapterTitle then ctx.ext.upper(content.value) else content.value;
          txt := txt + line + "\n\n";
        }
      }
    }

    method EmitRow(ctx: ChapterContext, b: Block)
      requires Emittable(ctx, b)
      modifies this
      ensures Snapshot() == RowEmit(ctx, old(Snapshot()), b)
    {
      if ctx.cfg.rows {
        var text := GetContent(ctx.ext.render, b.node, PlainText, ctx.cfg.basicHtml, false, "", b.id);
        var contentHtml := GetContent(ctx.ext.render, b.node, Html, ctx.cfg.basicHtml, false, "", b.id);
        assert text == Success(ContentOf(ctx.ext, b, PlainText, ctx.cfg.basicHtml, false, "", b.id));
        assert contentHtml == Success(ContentOf(ctx.ext, b, Html, ctx.cfg.basicHtml, false, "", b.id));
        if text.value != "" || contentHtml.value != "" {
          paragraphRows := paragraphRows + [ParagraphRow(
            ctx.pubKey, ctx.chapterSlug, |paragraphRows|, b.ptype, b.id, text.value, contentHtml.value, b.number,
            b.pageNumber, CompareId(ctx.chapterSlug, b.id), b.node.id)];
        }
      }
    }

    /** One iteration of the paragraph loop. */
    method ExportParagraph(ctx: ChapterContext, n: Node) returns (err: Option<Exception>)
      modifies this, ids
      ensures Agrees(ParagraphStep(ctx, old(Snapshot()), n), err, Snapshot())
    {
      if IsPageBreak(n) {
        if n.dataPage.None? {
          return Some(KeyError("data-page"));
        }
        previousPageNumber := n.dataPage;
        return None;
      }
      var pageNumber;
      err, pageNumber := TakeNestedBreak(n);
      if err.Some? {
        return;
      }
      ghost var paged := Snapshot();
      var node := n.(pageBreak := None);
      var classified := Classify(node);
      if classified.Failure? {
        return Some(classified.error);
      }
      var t := classified.value;
      var id := ids.NextId(ctx.ext.abbrev, ctx.chapterSlug, t);
      var b := Block(node, t, id, ParagraphNumber(node), pageNumber);
      if AnyOutput(ctx.cfg) && t != Image && !ScrollIdsPresent(node) {
        // the first content call of an enabled output pops a missing `data-scroll-id`
        return Some(KeyError("data-scroll-id"));
      }
      assert Snapshot() == paged.(typesByChapter := AssignId(ctx.ext.abbrev, paged.typesByChapter, ctx.chapterSlug, t).0);
      EmitAll(ctx, b);
    }

    /** The page-break handling of an ordinary block: the page it is on, and the page after it. */
    method TakeNestedBreak(n: Node) returns (err: Option<Exception>, pageNumber: Option<string>)
      modifies this
      ensures var expected := NestedBreak(old(previousPageNumber), n);
        && (expected.Failure? ==> err == Some(expected.error))
        && (expected.Success? ==>
              (err.None? && pageNumber == expected.value.1
               && Snapshot() == old(Snapshot()).(previousPageNumber := expected.value.0)))
    {
      pageNumber := previousPageNumber;
      if n.pageBreak.Some? {
        if n.pageBreak.value.dataPage.None? {
          return Some(KeyError("data-page")), pageNumber;
        }
        previousPageNumber := n.pageBreak.value.dataPage;
        if pageNumber.None? {
          return Some(TypeError("unsupported operand type(s) for +=: 'NoneType' and 'str'")), pageNumber;
        }
        pageNumber := Some(pageNumber.value + "," + previousPageNumber.value);
      }
      return None, pageNumber;
    }

    /** A classified block goes to every output, in the source's order. */
    method EmitAll(ctx: ChapterContext, b: Block)
      requires Emittable(ctx, b)
      modifies this
      ensures Snapshot() == RowEmit(ctx, TxtEmit(ctx, MdEmit(ctx, HtmlEmit(ctx, JsonEmit(ctx, old(Snapshot()), b), b), b), b), b)
    {
      EmitJson(ctx, b);
      EmitHtml(ctx, b);
      EmitMd(ctx, b);
      EmitTxt(ctx, b);
      EmitRow(ctx, b);
    }

    /** The split-mode counter and the separators. */
    method CountAndSeparate(cfg: Config)
      modifies this
      ensures Snapshot() == Separators(cfg, CountChapter(cfg, old(Snapshot())))
    {
      if cfg.json && cfg.splitJson {
        chaptersInPublication := chaptersInPublication + 1;
      }
      if chaptersInPublication > 1 {
        if cfg.html {
          html := html + "\n<hr>\n\n";
        }
        if cfg.txt {
          txt := txt + "\n--------------------\n\n";
        }
        if cfg.md {
          md := md + "\n---\n\n";
        }
      }
    }

    /** The chapter row, then a loop adding one media row per media item. */
    method AddChapterRows(bctx: BookContext, info: ChapterInfo)
      modifies this
      ensures Snapshot() == ChapterRows(bctx, old(Snapshot()), info)
    {
      if bctx.cfg.rows {
        chapterRows := chapterRows + [ChapterRowOf(bctx, |chapterRows|, info)];
        var media := info.media;
        var j := 0;
        while j < |media|
          invariant 0 <= j <= |media|
          invariant chapterRows == old(chapterRows) + [ChapterRowOf(bctx, |old(chapterRows)|, info)]
          invariant mediaRows == old(mediaRows) + MediaRows(bctx.pubKey, info.slug, media[..j])
          invariant Snapshot() == old(Snapshot()).(chapterRows := chapterRows, mediaRows := mediaRows)
        {
          assert MediaRows(bctx.pubKey, info.slug, media[..j + 1]) == MediaRows(bctx.pubKey, info.slug, media[..j]) + [MediaRow(bctx.pubKey, info.slug, media[j])];
          mediaRows := mediaRows + [MediaRow(bctx.pubKey, info.slug, media[j])];
          j := j + 1;
        }
        assert media[..j] == media;
      }
    }

    /** The seed of the current page from the chapter's first page break. */
    method SeedPageState(first: Option<PageBreak>) returns (err: Option<Exception>)
      modifies this
      ensures Agrees(SeedPage(old(Snapshot()), first), err, Snapshot())
    {
      if first.Some? && !Truthy(previousPageNumber) {
        if first.value.dataPage.None? {
          return Some(KeyError("data-page"));
        }
        var dataPage := first.value.dataPage.value;
        var parsed := ParseInt(dataPage);
        if parsed.None? {
          return Some(ValueError(dataPage));
        }
        previousPageNumber := Some(IntToString(parsed.value - 1));
      }
      return None;
    }

    /** The part of a chapter before its paragraph loop. */
    method OpenChapterState(bctx: BookContext, info: ChapterInfo, first: Option<PageBreak>) returns (err: Option<Exception>)
      modifies this
      ensures Agrees(OpenChapter(bctx, old(Snapshot()), info, first), err, Snapshot())
    {
      CountAndSeparate(bctx.cfg);
      AddChapterRows(bctx, info);
      paragraphs := [];
      err := SeedPageState(first);
    }

    /** The chapter record goes into the publication JSON, or into its own file in split mode. */
    method CloseChapterState(bctx: BookContext, slug: string, record: ChapterRecord)
      modifies this
      ensures Snapshot() == CloseChapter(bctx, old(Snapshot()), slug, record)
    {
      if bctx.cfg.json {
        if bctx.cfg.splitJson {
          chapterFiles := chapterFiles + [ChapterFile(bctx.publicationSlug, bctx.book.slug, slug, record)];
        } else {
          var chapters := Get(json, bctx.book.slug).GetOr([]);
          json := Put(json, bctx.book.slug, Put(chapters, slug, record));
        }
      }
    }

    /** The paragraph loop of a chapter, then its record is stored. */
    method ReadChapterState(bctx: BookContext, info: ChapterInfo, blocks: seq<Node>) returns (err: Option<Exception>)
      modifies this, ids
      ensures Agrees(ReadChapter(bctx, old(Snapshot()), info, blocks), err, Snapshot())
    {
      var ctx := ChapterContext(bctx.cfg, bctx.ext, bctx.pubKey, bctx.book.slug, info.slug);
      var i := 0;
      while i < |blocks|
        invariant 0 <= i <= |blocks|
        invariant RunParagraphs(ctx, old(Snapshot()), blocks[..i]) == Success(Snapshot())
      {
        assert blocks[..i + 1][..i] == blocks[..i];
        assert RunParagraphs(ctx, old(Snapshot()), blocks[..i + 1]) == ParagraphStep(ctx, Snapshot(), blocks[i]);
        err := ExportParagraph(ctx, blocks[i]);
        if err.Some? {
          ParagraphsStopAtFailure(ctx, old(Snapshot()), blocks, i + 1);
          return;
        }
        i := i + 1;
      }
      assert blocks[..i] == blocks;
      var record := ChapterRecord(info.name, info.abbrev, info.number, info.uri, paragraphs, info.media);
      CloseChapterState(bctx, info.slug, record);
      return None;
    }

    /** One iteration of the chapter loop. */
    method ExportChapter(bctx: BookContext, ch: Chapter) returns (err: Option<Exception>)
      requires Truthy(bctx.book.churchUri)
      modifies this, ids
      ensures Agrees(ChapterStep(bctx, old(Snapshot()), ch), err, Snapshot())
    {
      if !HasSoup(bctx.cfg, ch.fetched) {
        return None;
      }
      var page := ch.fetched.value;
      var info := ChapterInfoOf(bctx.book, ch.id, page);
      ghost var before := Snapshot();
      err := OpenChapterState(bctx, info, page.firstPageBreak);
      if err.Some? {
        return;
      }
      assert ChapterStep(bctx, before, ch) == ReadChapter(bctx, Snapshot(), info, page.blocks);
      err := ReadChapterState(bctx, info, page.blocks);
    }

    /** One iteration of the book loop: a scraped book starts with no current page. */
    method ExportBook(pctx: PublicationContext, book: Book) returns (err: Option<Exception>)
      modifies this, ids
      ensures Agrees(BookStep(pctx, old(Snapshot()), book), err, Snapshot())
    {
      if !BookScraped(book) {
        return None;
      }
      previousPageNumber := None;
      var bctx := BookContext(pctx.cfg, pctx.ext, pctx.pubKey, pctx.publicationSlug, book);
      err := ExportChapters(bctx, book.chapters);
    }

    /** The chapter loop of a book. */
    method ExportChapters(bctx: BookContext, chapters: seq<Chapter>) returns (err: Option<Exception>)
      requires Truthy(bctx.book.churchUri)
      modifies this, ids
      ensures Agrees(RunChapters(bctx, old(Snapshot()), chapters), err, Snapshot())
    {
      var i := 0;
      while i < |chapters|
        invariant 0 <= i <= |chapters|
        invariant RunChapters(bctx, old(Snapshot()), chapters[..i]) == Success(Snapshot())
      {
        assert chapters[..i + 1][..i] == chapters[..i];
        assert RunChapters(bctx, old(Snapshot()), chapters[..i + 1]) == ChapterStep(bctx, Snapshot(), chapters[i]);
        err := ExportChapter(bctx, chapters[i]);
        if err.Some? {
          ChaptersStopAtFailure(bctx, old(Snapshot()), chapters, i + 1);
          return;
        }
        i := i + 1;
      }
      assert chapters[..i] == chapters;
      return None;
    }

    /** The buffers of a new publication, and its row. */
    method OpenPublicationState(cfg: Config, lang: string, p: Publication, key: string)
      modifies this
      ensures Snapshot() == OpenPublication(cfg, lang, old(Snapshot()), p, key)
    {
      ghost var before := Snapshot();
      chaptersInPublication, json := 0, [];
      html, md, txt := "", "", "";
      assert Snapshot() == before.(chaptersInPublication := 0, json := [], html := "", md := "", txt := "");
      if cfg.rows {
        publicationRows := publicationRows + [PublicationRow(key, lang, |publicationRows|, p.slug, VersionSlug(p.slug, p.version.versionKey), PublicationCategory(p.slug))];
      }
    }

    /** The files of a publication, one per enabled format. */
    method ClosePublicationState(cfg: Config, p: Publication)
      modifies this
      ensures Snapshot() == ClosePublication(cfg, old(Snapshot()), p)
    {
      publicationFiles := publicationFiles + [PublicationFile(
        p.slug,
        if cfg.json && !cfg.splitJson then Some(json) else None,
        if cfg.html then Some(html) else None,
        if cfg.md then Some(md) else None,
        if cfg.txt then Some(txt) else None)];
    }

    /** The book loop of a publication. */
    method ExportBooks(pctx: PublicationContext, books: seq<Book>) returns (err: Option<Exception>)
      modifies this, ids
      ensures Agrees(RunBooks(pctx, old(Snapshot()), books), err, Snapshot())
    {
      var i := 0;
      while i < |books|
        invariant 0 <= i <= |books|
        invariant RunBooks(pctx, old(Snapshot()), books[..i]) == Success(Snapshot())
      {
        assert books[..i + 1][..i] == books[..i];
        assert RunBooks(pctx, old(Snapshot()), books[..i + 1]) == BookStep(pctx, Snapshot(), books[i]);
        err := ExportBook(pctx, books[i]);
        if err.Some? {
          BooksStopAtFailure(pctx, old(Snapshot()), books, i + 1);
          return;
        }
        i := i + 1;
      }
      assert books[..i] == books;
      return None;
    }

    /** One iteration of the publication loop: reset the buffers, add the row, read the books, keep the files. */
    method ExportPublication(cfg: Config, ext: Externals, lang: string, p: Publication) returns (err: Option<Exception>)
      modifies this, ids
      ensures Agrees(PublicationStep(cfg, ext, lang, old(Snapshot()), p), err, Snapshot())
    {
      if !p.available {
        return None;
      }
      var key := PublicationKey(lang, p.abbrev, p.version.versionKey, p.version.editionYear);
      OpenPublicationState(cfg, lang, p, key);
      err := ExportBooks(PublicationContext(cfg, ext, key, p.slug), p.books);
      if err.Some? {
        return;
      }
      ClosePublicationState(cfg, p);
    }

    /** The publication loop. */
    method ExportPublications(cfg: Config, ext: Externals, lang: string, pubs: seq<Publication>) returns (err: Option<Exception>)
      modifies this, ids
      ensures Agrees(RunPublications(cfg, ext, lang, old(Snapshot()), pubs), err, Snapshot())
    {
      ghost var started := Snapshot();
      var i := 0;
      while i < |pubs|
        invariant 0 <= i <= |pubs|
        invariant RunPublications(cfg, ext, lang, started, pubs[..i]) == Success(Snapshot())
      {
        assert pubs[..i + 1][..i] == pubs[..i];
        assert RunPublications(cfg, ext, lang, started, pubs[..i + 1]) == PublicationStep(cfg, ext, lang, Snapshot(), pubs[i]);
        err := ExportPublication(cfg, ext, lang, pubs[i]);
        if err.Some? {
          PublicationsStopAtFailure(cfg, ext, lang, started, pubs, i + 1);
          return;
        }
        i := i + 1;
      }
      assert pubs[..i] == pubs;
      return None;
    }
  }

  /**
   * `output_full_content(bcp47_lang)`: a fresh exporter run over the
   * publications. Either it stops with the error the source would raise, or
   * it holds what the pipeline computes, with every row list numbered from 0.
   */
  method ExportLanguage(cfg: Config, ext: Externals, lang: string, pubs: seq<Publication>) returns (exporter: Exporter, err: Option<Exception>)
    ensures Agrees(OutputFullContent(cfg, ext, lang, pubs), err, exporter.Snapshot())
    ensures err.None? ==> RowsNumbered(exporter.Snapshot())
  {
    exporter := new Exporter();
    err := exporter.ExportPublications(cfg, ext, lang, pubs);
  }
}

=== FILE: ids.dfy ===
/**
 * Paragraph ids (`get_paragraph_id` in scrape.py): per chapter slug, the list
 * of paragraph types seen so far; an id is the type's abbreviation followed by
 * how many paragraphs of that type the chapter has had, this one included.
 */
module ParagraphIds {
  import opened Wrappers
  import opened Text
  import opened Paragraphs

  /** `list.count(t)`. */
  function Count(s: seq<ParagraphType>, t: ParagraphType): (r: nat)
    ensures r <= |s|
    decreases |s|
  {
    if |s| == 0 then 0
    else Count(s[..|s| - 1], t) + (if s[|s| - 1] == t then 1 else 0)
  }

  /** Appending a paragraph of type `t` raises its count by one and no other. */
  lemma CountAppend(s: seq<ParagraphType>, x: ParagraphType, t: ParagraphType)
    ensures Count(s + [x], t) == Count(s, t) + (if x == t then 1 else 0)
  {
    assert (s + [x])[..|s|] == s;
  }

  /** A longer prefix never has fewer paragraphs of a type. */
  lemma {:induction false} CountPrefixMonotone(s: seq<ParagraphType>, i: nat, j: nat, t: ParagraphType)
    requires i <= j <= |s|
    ensures Count(s[..i], t) <= Count(s[..j], t)
    decreases j - i
  {
    if i < j {
      CountPrefixMonotone(s, i, j - 1, t);
      assert s[..j][..j - 1] == s[..j - 1];
    }
  }

  /** The types already recorded for a chapter (the empty list before its first paragraph). */
  function TypesSeen(m: map<string, seq<ParagraphType>>, slug: string): seq<ParagraphType> {
    if slug in m then m[slug] else []
  }

  /**
   * The text of the abbreviation: `mapping_paragraph_type_to_paragraph_type_abbrev`
   * is looked up with `.get`, so a type missing from it is written as `None`.
   */
  function AbbrevText(abbrev: string -> Option<string>, t: ParagraphType): string {
    match abbrev(TypeName(t))
    case Some(a) => a
    case None => "None"
  }

  /** The id of the `k`-th paragraph of type `t` in a chapter. */
  function ParagraphId(abbrev: string -> Option<string>, t: ParagraphType, k: nat): (r: string)
    ensures AbbrevText(abbrev, t) < r
  {
    AbbrevText(abbrev, t) + NatToString(k)
  }

  /** What follows the abbreviation reads back as the ordinal. */
  lemma ParagraphIdOrdinal(abbrev: string -> Option<string>, t: ParagraphType, k: nat)
    ensures ParseInt(ParagraphId(abbrev, t, k)[|AbbrevText(abbrev, t)|..]) == Some(k)
  {
    var a := AbbrevText(abbrev, t);
    ParseNatural(k);
    assert ParagraphId(abbrev, t, k)[|a|..] == NatToString(k);
  }

  /** The same type with different ordinals gives different ids. */
  lemma ParagraphIdDistinct(abbrev: string -> Option<string>, t: ParagraphType, k1: nat, k2: nat)
    requires k1 != k2
    ensures ParagraphId(abbrev, t, k1) != ParagraphId(abbrev, t, k2)
  {
    var a := AbbrevText(abbrev, t);
    if ParagraphId(abbrev, t, k1) == ParagraphId(abbrev, t, k2) {
      assert NatToString(k1) == ParagraphId(abbrev, t, k1)[|a|..];
      NatToStringInjective(k1, k2);
    }
  }

  /** Recording a paragraph of type `t`: the chapter's list grows by `t`, the lists of other chapters stay as they were. */
  function Record(m: map<string, seq<ParagraphType>>, slug: string, t: ParagraphType): (r: map<string, seq<ParagraphType>>)
    ensures TypesSeen(r, slug) == TypesSeen(m, slug) + [t]
    ensures forall other :: other != slug ==> TypesSeen(r, other) == TypesSeen(m, other)
  {
    m[slug := TypesSeen(m, slug) + [t]]
  }

  /**
   * One call of `get_paragraph_id`: it records `t`, and the id carries the
   * number of `t` paragraphs the chapter had before, plus one.
   */
  function AssignId(abbrev: string -> Option<string>, m: map<string, seq<ParagraphType>>, slug: string, t: ParagraphType)
    : (r: (map<string, seq<ParagraphType>>, string))
    ensures r.0 == Record(m, slug, t)
    ensures r.1 == ParagraphId(abbrev, t, Count(TypesSeen(m, slug), t) + 1)
  {
    var table := Record(m, slug, t);
    var k := Count(TypesSeen(table, slug), t);
    assert k == Count(TypesSeen(m, slug), t) + 1 by { CountAppend(TypesSeen(m, slug), t, t); }
    (table, ParagraphId(abbrev, t, k))
  }

  /** A call for one type leaves the counts of every other type in that chapter unchanged. */
  lemma AssignIdOtherTypes(abbrev: string -> Option<string>, m: map<string, seq<ParagraphType>>, slug: string, t: ParagraphType, u: ParagraphType)
    requires u != t
    ensures Count(TypesSeen(AssignId(abbrev, m, slug, t).0, slug), u) == Count(TypesSeen(m, slug), u)
  {
    CountAppend(TypesSeen(m, slug), t, u);
  }

  /** The ids a sequence of calls for one chapter returns, and the table afterwards. */
  function AssignIds(abbrev: string -> Option<string>, m: map<string, seq<ParagraphType>>, slug: string, ts: seq<ParagraphType>)
    : (r: (map<string, seq<ParagraphType>>, seq<string>))
    ensures |r.1| == |ts|
    decreases |ts|
  {
    if ts == [] then (m, [])
    else
      var first := AssignId(abbrev, m, slug, ts[0]);
      var rest := AssignIds(abbrev, first.0, slug, ts[1..]);
      (rest.0, [first.1] + rest.1)
  }

  /** The table after a sequence of calls is the table the later calls leave, starting from the first call's. */
  lemma AssignIdsTable(abbrev: string -> Option<string>, m: map<string, seq<ParagraphType>>, slug: string, ts: seq<ParagraphType>)
    requires 0 < |ts|
    ensures AssignIds(abbrev, m, slug, ts).0 == AssignIds(abbrev, Record(m, slug, ts[0]), slug, ts[1..]).0
  {
  }

  /** After a sequence of calls the chapter's list has gained exactly `ts`, in order. */
  lemma {:induction false} AssignIdsRecords(abbrev: string -> Option<string>, m: map<string, seq<ParagraphType>>, slug: string, ts: seq<ParagraphType>)
    ensures TypesSeen(AssignIds(abbrev, m, slug, ts).0, slug) == TypesSeen(m, slug) + ts
    decreases |ts|
  {
    if ts != [] {
      var m1 := Record(m, slug, ts[0]);
      AssignIdsTable(abbrev, m, slug, ts);
      AssignIdsRecords(abbrev, m1, slug, ts[1..]);
      ConsAppend(TypesSeen(m, slug), ts);
    }
  }

  /** Appending the head of a sequence, then its tail, appends the sequence. */
  lemma ConsAppend(seen: seq<ParagraphType>, ts: seq<ParagraphType>)
    requires 0 < |ts|
    ensures (seen + [ts[0]]) + ts[1..] == seen + ts
  {
    assert ts == [ts[0]] + ts[1..];
  }

  /** Calls for one chapter leave the lists of every other chapter alone. */
  lemma {:induction false} AssignIdsOtherChapters(abbrev: string -> Option<string>, m: map<string, seq<ParagraphType>>, slug: string, ts: seq<ParagraphType>, other: string)
    requires other != slug
    ensures TypesSeen(AssignIds(abbrev, m, slug, ts).0, other) == TypesSeen(m, other)
    decreases |ts|
  {
    if ts != [] {
      AssignIdsTable(abbrev, m, slug, ts);
      AssignIdsOtherChapters(abbrev, Record(m, slug, ts[0]), slug, ts[1..], other);
    }
  }

  /** A later id of a sequence of calls is an id of the calls after the first. */
  lemma AssignIdsLater(abbrev: string -> Option<string>, m: map<string, seq<ParagraphType>>, slug: string, ts: seq<ParagraphType>, i: nat)
    requires 0 < i < |ts|
    ensures AssignIds(abbrev, m, slug, ts).1[i] == AssignIds(abbrev, Record(m, slug, ts[0]), slug, ts[1..]).1[i - 1]
  {
  }

  /**
   * The `i`-th call of a chapter returns its type's abbreviation followed by the
   * number of paragraphs of that type up to and including this one, counting
   * from what the chapter had before.
   */
  lemma {:induction false} AssignIdsOrdinal(abbrev: string -> Option<string>, m: map<string, seq<ParagraphType>>, slug: string, ts: seq<ParagraphType>, i: nat)
    requires i < |ts|
    ensures AssignIds(abbrev, m, slug, ts).1[i] == ParagraphId(abbrev, ts[i], Count(TypesSeen(m, slug) + ts[..i + 1], ts[i]))
    decreases i
  {
    if i == 0 {
      AssignIdsFirst(abbrev, m, slug, ts);
    } else {
      var m1 := Record(m, slug, ts[0]);
      AssignIdsLater(abbrev, m, slug, ts, i);
      AssignIdsOrdinal(abbrev, m1, slug, ts[1..], i - 1);
      ShiftPrefix(TypesSeen(m, slug), ts, i);
    }
  }

  /** The types before the `i`-th call, seen from the second call on. */
  lemma ShiftPrefix(seen: seq<ParagraphType>, ts: seq<ParagraphType>, i: nat)
    requires 0 < i < |ts|
    ensures ts[1..][i - 1] == ts[i]
    ensures (seen + [ts[0]]) + ts[1..][..i] == seen + ts[..i + 1]
  {
    assert ts[..i + 1] == [ts[0]] + ts[1..][..i];
  }

  /** The first call of a sequence returns the abbreviation and the type's count so far plus one. */
  lemma AssignIdsFirst(abbrev: string -> Option<string>, m: map<string, seq<ParagraphType>>, slug: string, ts: seq<ParagraphType>)
    requires 0 < |ts|
    ensures AssignIds(abbrev, m, slug, ts).1[0] == ParagraphId(abbrev, ts[0], Count(TypesSeen(m, slug) + ts[..1], ts[0]))
  {
    var seen := TypesSeen(m, slug);
    assert AssignIds(abbrev, m, slug, ts).1[0] == AssignId(abbrev, m, slug, ts[0]).1;
    assert seen + ts[..1] == seen + [ts[0]];
    CountAppend(seen, ts[0], ts[0]);
  }

  /**
   * Within a fresh chapter the `k`-th paragraph of a type gets ordinal `k`, and
   * two paragraphs of the same type never share an id.
   */
  lemma FreshChapterIdsDistinct(abbrev: string -> Option<string>, m: map<string, seq<ParagraphType>>, slug: string, ts: seq<ParagraphType>, i: nat, j: nat)
    requires slug !in m
    requires i < j < |ts| && ts[i] == ts[j]
    ensures AssignIds(abbrev, m, slug, ts).1[i] == ParagraphId(abbrev, ts[i], Count(ts[..i + 1], ts[i]))
    ensures AssignIds(abbrev, m, slug, ts).1[i] != AssignIds(abbrev, m, slug, ts).1[j]
  {
    AssignIdsOrdinal(abbrev, m, slug, ts, i);
    AssignIdsOrdinal(abbrev, m, slug, ts, j);
    assert TypesSeen(m, slug) == [];
    assert [] + ts[..i + 1] == ts[..i + 1];
    assert [] + ts[..j + 1] == ts[..j + 1];
    CountGrows(ts, i, j);
    ParagraphIdDistinct(abbrev, ts[i], Count(ts[..i + 1], ts[i]), Count(ts[..j + 1], ts[j]));
  }

  /** A later paragraph of the same type has seen strictly more of that type. */
  lemma CountGrows(ts: seq<ParagraphType>, i: nat, j: nat)
    requires i < j < |ts| && ts[i] == ts[j]
    ensures Count(ts[..i + 1], ts[i]) < Count(ts[..j + 1], ts[i])
  {
    CountPrefixMonotone(ts, i + 1, j, ts[i]);
    CountAppend(ts[..j], ts[j], ts[i]);
    assert ts[..j] + [ts[j]] == ts[..j + 1];
  }

  /** `paragraph_type_data_by_chapter` together with `get_paragraph_id`. */
  class IdRegistry {
    var typesByChapter: map<string, seq<ParagraphType>>

    constructor()
      ensures typesByChapter == map[]
    {
      typesByChapter := map[];
    }

    /** `get_paragraph_id(chapter_slug, paragraph_type)`. */
    method NextId(abbrev: string -> Option<string>, chapterSlug: string, t: ParagraphType) returns (id: string)
      modifies this
      ensures (typesByChapter, id) == AssignId(abbrev, old(typesByChapter), chapterSlug, t)
    {
      ghost var before := typesByChapter;
      if chapterSlug !in typesByChapter {
        typesByChapter := typesByChapter[chapterSlug := []];
      }
      assert typesByChapter[chapterSlug] == TypesSeen(before, chapterSlug);
      typesByChapter := typesByChapter[chapterSlug := typesByChapter[chapterSlug] + [t]];
      assert typesByChapter == before[chapterSlug := TypesSeen(before, chapterSlug) + [t]];
      var count := Count(typesByChapter[chapterSlug], t);
      id := AbbrevText(abbrev, t) + NatToString(count);
    }
  }
}

=== FILE: metadata.dfy ===
/**
 * The small string helpers around the chapter loop of `output_full_content`:
 * slugs, URIs and comparison ids, the publication key, the chapter
 * abbreviation, chapter media, the link rewriting of copyrighted mode, and the
 * plural suffix of the progress messages.
 */
module Metadata {
  import opened Wrappers
  import opened Exceptions
  import opened Text

  // ---------------------------------------------------------------------------
  // Slugs, URIs and ids

  /** `mapping_plural_to_singular_book_slug` (resources/resources.py). */
  const PluralToSingular: map<string, string> :=
    map["psalms" := "psalm", "sections" := "section", "official-declarations" := "official-declaration"]

  /** `mapping_plural_to_singular_book_slug.get(book_slug) or book_slug`. */
  function SingularBookSlug(bookSlug: string): (r: string)
    ensures bookSlug !in PluralToSingular ==> r == bookSlug
    ensures bookSlug in PluralToSingular ==> r == PluralToSingular[bookSlug] && r != "" && r < bookSlug
  {
    if bookSlug in PluralToSingular && PluralToSingular[bookSlug] != "" then PluralToSingular[bookSlug]
    else bookSlug
  }

  /**
   * An entry of a book's `churchChapters`: a chapter number, or a named
   * chapter such as Abraham's facsimiles `fac-1` to `fac-3`.
   */
  datatype ChapterId = Numbered(n: int) | Named(name: string)

  /** The metadata never names a chapter with a string `int()` would read as a number. */
  predicate WellNamed(c: ChapterId) {
    c.Named? ==> ParseInt(c.name).None?
  }

  /** `chapter_number = str(chapter)`. */
  function ChapterNumber(c: ChapterId): (r: string)
    ensures c.Numbered? ==> ParseInt(r) == Some(c.n)
    ensures c.Named? ==> r == c.name
  {
    match c
    case Numbered(n) => ParseIntToString(n); IntToString(n)
    case Named(name) => name
  }

  /** `'{0}-{1}'.format(singular_book_slug, chapter_number)`. */
  function ChapterSlug(bookSlug: string, chapter: ChapterId): (r: string)
    ensures SingularBookSlug(bookSlug) + "-" <= r
    ensures r[|SingularBookSlug(bookSlug)| + 1..] == ChapterNumber(chapter)
  {
    SingularBookSlug(bookSlug) + "-" + ChapterNumber(chapter)
  }

  /** `'{0}/{1}'.format(book_data['churchUri'], chapter_number)`. */
  function ChapterUri(bookUri: string, chapter: ChapterId): (r: string)
    ensures bookUri + "/" <= r
    ensures r[|bookUri| + 1..] == ChapterNumber(chapter)
  {
    bookUri + "/" + ChapterNumber(chapter)
  }

  /** `str(i)` never holds a `/`, and holds a `-` only as a leading sign. */
  lemma IntToStringChars(i: int)
    ensures '/' !in IntToString(i)
    ensures i >= 0 ==> '-' !in IntToString(i)
  {
    var s := IntToString(i);
    if i >= 0 {
      assert forall k :: 0 <= k < |s| ==> IsDigit(s[k]);
    } else {
      assert forall k :: 1 <= k < |s| ==> IsDigit(s[k]);
    }
  }

  /** A chapter number is read back from the end of the chapter URI. */
  lemma ChapterUriNumber(bookUri: string, chapter: int)
    ensures ParseInt(LastPiece(ChapterUri(bookUri, Numbered(chapter)), '/')) == Some(chapter)
  {
    IntToStringChars(chapter);
    assert ChapterUri(bookUri, Numbered(chapter)) == bookUri + ['/'] + IntToString(chapter);
    LastPieceAfterSep(bookUri, '/', IntToString(chapter));
    ParseIntToString(chapter);
  }

  /** A named chapter is the last segment of its URI (`/scriptures/pgp/abr/fac-3`). */
  lemma ChapterUriName(bookUri: string, name: string)
    requires '/' !in name
    ensures LastPiece(ChapterUri(bookUri, Named(name)), '/') == name
  {
    assert ChapterUri(bookUri, Named(name)) == bookUri + ['/'] + name;
    LastPieceAfterSep(bookUri, '/', name);
  }

  /** For a non-negative chapter number, the number is read back from the end of the slug. */
  lemma ChapterSlugNumber(bookSlug: string, chapter: int)
    requires chapter >= 0
    ensures ParseInt(LastPiece(ChapterSlug(bookSlug, Numbered(chapter)), '-')) == Some(chapter)
  {
    IntToStringChars(chapter);
    assert ChapterSlug(bookSlug, Numbered(chapter)) == SingularBookSlug(bookSlug) + ['-'] + IntToString(chapter);
    LastPieceAfterSep(SingularBookSlug(bookSlug), '-', IntToString(chapter));
    ParseIntToString(chapter);
  }

  /** Two chapters of one book, numbered or named, never share a slug. */
  lemma ChapterSlugInjective(bookSlug: string, c1: ChapterId, c2: ChapterId)
    requires WellNamed(c1) && WellNamed(c2)
    requires ChapterSlug(bookSlug, c1) == ChapterSlug(bookSlug, c2)
    ensures c1 == c2
  {
    var k := |SingularBookSlug(bookSlug)| + 1;
    assert ChapterNumber(c1) == ChapterSlug(bookSlug, c1)[k..];
    assert ChapterNumber(c1) == ChapterNumber(c2);
    assert ParseInt(ChapterNumber(c1)) == ParseInt(ChapterNumber(c2));
  }

  /** `f'{chapter_slug}_{paragraph_id}'`. */
  function CompareId(chapterSlug: string, paragraphId: string): (r: string)
    ensures |r| == |chapterSlug| + 1 + |paragraphId|
    ensures chapterSlug + "_" <= r && r[|chapterSlug| + 1..] == paragraphId
  {
    chapterSlug + "_" + paragraphId
  }

  /** Within one chapter, different paragraph ids give different comparison ids. */
  lemma CompareIdInjective(chapterSlug: string, a: string, b: string)
    requires CompareId(chapterSlug, a) == CompareId(chapterSlug, b)
    ensures a == b
  {
  }

  // ---------------------------------------------------------------------------
  // Publication key and version slug

  /** `filter(None, xs)` on optional strings: the truthy ones, in order. */
  function KeepTruthy(xs: seq<Option<string>>): (r: seq<string>)
    ensures |r| <= |xs|
    ensures forall i :: 0 <= i < |r| ==> r[i] != ""
    ensures (forall i :: 0 <= i < |xs| ==> Truthy(xs[i])) ==> |r| == |xs|
  {
    if xs == [] then []
    else if Truthy(xs[0]) then [xs[0].value] + KeepTruthy(xs[1..])
    else KeepTruthy(xs[1..])
  }

  /** One item is kept, as its string, exactly when it is truthy. */
  lemma KeepTruthySingle(x: Option<string>)
    ensures KeepTruthy([x]) == if Truthy(x) then [x.value] else []
  {
    assert [x][1..] == [];
  }

  /** Filtering a concatenation filters each part: the kept strings keep their order. */
  lemma {:induction false} KeepTruthyAppend(a: seq<Option<string>>, b: seq<Option<string>>)
    ensures KeepTruthy(a + b) == KeepTruthy(a) + KeepTruthy(b)
    decreases |a|
  {
    if a == [] {
      assert a + b == b;
    } else {
      KeepTruthyAppend(a[1..], b);
      assert (a + b)[0] == a[0];
      assert (a + b)[1..] == a[1..] + b;
    }
  }

  /** The three candidate parts of the key, after keeping the truthy ones. */
  lemma KeyParts(lang: string, abbrev: Option<string>, part: Option<string>)
    ensures KeepTruthy([Some(lang), abbrev, part])
      == (if lang != "" then [lang] else [])
       + (if Truthy(abbrev) then [abbrev.value] else [])
       + (if Truthy(part) then [part.value] else [])
  {
    assert [Some(lang), abbrev, part] == [Some(lang)] + [abbrev] + [part];
    KeepTruthyAppend([Some(lang)] + [abbrev], [part]);
    KeepTruthyAppend([Some(lang)], [abbrev]);
    KeepTruthySingle(Some(lang));
    KeepTruthySingle(abbrev);
    KeepTruthySingle(part);
  }

  /** `'_'.join(filter(None, [bcp47_lang, abbrev, versionKey or editionYear]))`. */
  function PublicationKey(lang: string, abbrev: Option<string>, versionKey: Option<string>, editionYear: Option<string>)
    : (r: string)
    ensures lang != "" ==> lang <= r
    ensures !Truthy(abbrev) && !Truthy(Or(versionKey, editionYear)) ==> r == lang
  {
    var xs := [Some(lang), abbrev, Or(versionKey, editionYear)];
    assert xs[1..] == [abbrev, xs[2]] && xs[1..][1..] == [xs[2]] && [xs[2]][1..] == [];
    var parts := KeepTruthy(xs);
    assert KeepTruthy([xs[2]]) == if Truthy(xs[2]) then [xs[2].value] else [];
    assert KeepTruthy(xs[1..]) == (if Truthy(abbrev) then [abbrev.value] else []) + KeepTruthy([xs[2]]);
    assert parts == (if lang != "" then [lang] else []) + KeepTruthy(xs[1..]);
    if lang != "" then JoinStartsWithFirst(parts, "_"); Join(parts, "_") else Join(parts, "_")
  }

  /**
   * When every part is present and free of `_`, splitting the key on `_` gives
   * the language, the abbreviation and the version key back.
   */
  lemma PublicationKeyParts(lang: string, abbrev: string, versionKey: string, editionYear: Option<string>)
    requires lang != "" && abbrev != "" && versionKey != ""
    requires '_' !in lang && '_' !in abbrev && '_' !in versionKey
    ensures Split(PublicationKey(lang, Some(abbrev), Some(versionKey), editionYear), '_') == [lang, abbrev, versionKey]
  {
    var xs := [Some(lang), Some(abbrev), Or(Some(versionKey), editionYear)];
    assert xs[2] == Some(versionKey);
    assert xs[1..][1..] == [Some(versionKey)];
    assert KeepTruthy([Some(versionKey)]) == [versionKey];
    assert KeepTruthy(xs[1..]) == [abbrev, versionKey];
    assert KeepTruthy(xs) == [lang, abbrev, versionKey];
    SplitJoin([lang, abbrev, versionKey], '_');
  }

  /**
   * Without a version key the edition year takes its place: the key splits
   * into the language, the abbreviation and the year.
   */
  lemma PublicationKeyYearFallback(lang: string, abbrev: string, versionKey: Option<string>, editionYear: string)
    requires lang != "" && abbrev != "" && editionYear != "" && !Truthy(versionKey)
    requires '_' !in lang && '_' !in abbrev && '_' !in editionYear
    ensures Split(PublicationKey(lang, Some(abbrev), versionKey, Some(editionYear)), '_') == [lang, abbrev, editionYear]
  {
    KeyParts(lang, Some(abbrev), Or(versionKey, Some(editionYear)));
    assert [lang] + [abbrev] + [editionYear] == [lang, abbrev, editionYear];
    SplitJoin([lang, abbrev, editionYear], '_');
  }

  /** A missing or empty abbreviation drops out of the key with its separator. */
  lemma PublicationKeyNoAbbrev(lang: string, abbrev: Option<string>, versionKey: string, editionYear: Option<string>)
    requires lang != "" && versionKey != "" && !Truthy(abbrev)
    requires '_' !in lang && '_' !in versionKey
    ensures Split(PublicationKey(lang, abbrev, Some(versionKey), editionYear), '_') == [lang, versionKey]
  {
    KeyParts(lang, abbrev, Or(Some(versionKey), editionYear));
    assert [lang] + [] + [versionKey] == [lang, versionKey];
    SplitJoin([lang, versionKey], '_');
  }

  /** The edition year enters the key only when there is no version key. */
  lemma PublicationKeyVersionWins(lang: string, abbrev: Option<string>, versionKey: Option<string>, y1: Option<string>, y2: Option<string>)
    requires Truthy(versionKey)
    ensures PublicationKey(lang, abbrev, versionKey, y1) == PublicationKey(lang, abbrev, versionKey, y2)
  {
  }

  /** A key never starts or ends with `_` and never holds `__` (empty parts are dropped). */
  lemma PublicationKeyNoEmptyParts(lang: string, abbrev: Option<string>, versionKey: Option<string>, editionYear: Option<string>)
    requires lang != "" && '_' !in lang
    requires abbrev.Some? ==> '_' !in abbrev.value
    requires versionKey.Some? ==> '_' !in versionKey.value
    requires editionYear.Some? ==> '_' !in editionYear.value
    ensures forall p | p in Split(PublicationKey(lang, abbrev, versionKey, editionYear), '_') :: p != ""
  {
    var xs := [Some(lang), abbrev, Or(versionKey, editionYear)];
    var parts := KeepTruthy(xs);
    KeepTruthyFrom(xs, '_');
    assert Truthy(xs[0]);
    SplitJoin(parts, '_');
  }

  /** Every kept part comes from one of the inputs, so it inherits what they lack. */
  lemma {:induction false} KeepTruthyFrom(xs: seq<Option<string>>, c: char)
    requires forall i :: 0 <= i < |xs| && xs[i].Some? ==> c !in xs[i].value
    ensures forall i :: 0 <= i < |KeepTruthy(xs)| ==> c !in KeepTruthy(xs)[i]
    ensures KeepTruthy(xs) == [] <==> forall i :: 0 <= i < |xs| ==> !Truthy(xs[i])
  {
    if xs != [] {
      KeepTruthyFrom(xs[1..], c);
      assert forall i :: 1 <= i < |xs| ==> xs[i] == xs[1..][i - 1];
    }
  }

  /** `publication_slug + ('-' + versionKey if versionKey else '')`. */
  function VersionSlug(publicationSlug: string, versionKey: Option<string>): (r: string)
    ensures publicationSlug <= r
    ensures r == publicationSlug <==> !Truthy(versionKey)
  {
    publicationSlug + (if Truthy(versionKey) then "-" + versionKey.value else "")
  }

  /** `pubCategory`: the two testaments are Bible, everything else is another canon. */
  function PublicationCategory(publicationSlug: string): (r: string)
    ensures r == "bible" <==> publicationSlug in {"old-testament", "new-testament"}
    ensures r != "bible" ==> r == "cjc"
  {
    if publicationSlug == "old-testament" || publicationSlug == "new-testament" then "bible" else "cjc"
  }

  // ---------------------------------------------------------------------------
  // Chapter name and abbreviation

  /**
   * `chapter_name.replace(book_name, book_abbrev)` when the book has a truthy
   * abbreviation, otherwise `None`.
   */
  function ChapterAbbrev(chapterName: string, bookName: string, bookAbbrev: Option<string>): (r: Option<string>)
    ensures r.Some? <==> Truthy(bookAbbrev)
    ensures r.Some? && bookName != "" && !Contains(chapterName, bookName) ==> r.value == chapterName
    ensures r.Some? && bookName != "" && |bookAbbrev.value| <= |bookName| ==> |r.value| <= |chapterName|
  {
    if Truthy(bookAbbrev) then Some(ReplaceAll(chapterName, bookName, bookAbbrev.value)) else None
  }

  /**
   * A chapter name that opens with the book's name, and does not name the
   * book again, is abbreviated by writing the abbreviation in its place.
   */
  lemma ChapterAbbrevReplaces(bookName: string, rest: string, abbrev: string)
    requires bookName != "" && abbrev != "" && !Contains(rest, bookName)
    ensures ChapterAbbrev(bookName + rest, bookName, Some(abbrev)) == Some(abbrev + rest)
  {
    ReplaceAllAtStart(bookName, rest, abbrev);
  }

  // ---------------------------------------------------------------------------
  // Chapter media

  /** A `<source>` of the header video. */
  datatype VideoSource = VideoSource(dataSrc: Option<string>, dataHeight: Option<string>)

  /** The header `<video>`: its asset id, its poster and its sources. */
  datatype Video = Video(assetId: Option<string>, poster: Option<string>, sources: seq<VideoSource>)

  /** A link of the downloads panel: its `href` and its text. */
  datatype DownloadLink = DownloadLink(href: Option<string>, text: string)

  /**
   * One entry of `chapter_media`. Start and end seconds are always `None` and
   * the source is always the Church's site, so they are not fields.
   */
  datatype MediaItem = MediaItem(mediaType: Option<string>, subtype: Option<string>, url: string, assetId: Option<string>, thumbUrl: Option<string>)

  /** The subtype of a video source: HLS by address, otherwise by `data-height`. */
  function VideoSubtype(src: string, height: Option<string>): (r: Option<string>)
    ensures Contains(src, "hls.m3u8") ==> r == Some("hls")
    ensures !Contains(src, "hls.m3u8") ==>
      r == (if height == Some("360") then Some("360p")
            else if height == Some("720") then Some("720p")
            else if height == Some("1080") then Some("1080p") else None)
  {
    if Contains(src, "hls.m3u8") then Some("hls")
    else if height == Some("360") then Some("360p")
    else if height == Some("720") then Some("720p")
    else if height == Some("1080") then Some("1080p")
    else None
  }

  /** The entry of a video source with a `data-src`. */
  function VideoItem(v: Video, source: VideoSource): MediaItem
    requires Truthy(source.dataSrc)
  {
    MediaItem(Some("video"), VideoSubtype(source.dataSrc.value, source.dataHeight), source.dataSrc.value, v.assetId, v.poster)
  }

  /** How many sources have a truthy `data-src`. */
  function SourcesWithSrc(sources: seq<VideoSource>): (r: nat)
    ensures r <= |sources|
  {
    if sources == [] then 0
    else (if Truthy(sources[0].dataSrc) then 1 else 0) + SourcesWithSrc(sources[1..])
  }

  /** The video entries: one per source with a truthy `data-src`, in order. */
  function VideoMedia(v: Video, sources: seq<VideoSource>): (r: seq<MediaItem>)
    ensures |r| == SourcesWithSrc(sources)
    ensures (forall i :: 0 <= i < |sources| ==> Truthy(sources[i].dataSrc)) ==> |r| == |sources|
    ensures forall i :: 0 <= i < |r| ==>
      r[i].mediaType == Some("video") && r[i].assetId == v.assetId && r[i].thumbUrl == v.poster && r[i].url != ""
  {
    if sources == [] then []
    else
      var rest := VideoMedia(v, sources[1..]);
      if Truthy(sources[0].dataSrc) then [VideoItem(v, sources[0])] + rest else rest
  }

  /**
   * Each source with a `data-src` has its entry (its address as the URL, the
   * subtype `VideoSubtype` gives) right after the entries of the earlier such
   * sources; a source without one has no entry.
   */
  lemma {:induction false} VideoMediaPositions(v: Video, sources: seq<VideoSource>, j: nat)
    requires j < |sources| && Truthy(sources[j].dataSrc)
    ensures SourcesWithSrc(sources[..j]) < |VideoMedia(v, sources)|
    ensures VideoMedia(v, sources)[SourcesWithSrc(sources[..j])] == VideoItem(v, sources[j])
    ensures VideoItem(v, sources[j]).url == sources[j].dataSrc.value
    ensures VideoItem(v, sources[j]).subtype == VideoSubtype(sources[j].dataSrc.value, sources[j].dataHeight)
    decreases j
  {
    if j > 0 {
      VideoMediaPositions(v, sources[1..], j - 1);
      assert sources[..j][1..] == sources[1..][..j - 1];
    }
  }

  /** `'MP3'` marks audio and `'PDF'` a document; anything else has no type. */
  function DownloadType(text: string): (r: Option<string>)
    ensures r == Some("audio") <==> Contains(text, "MP3")
    ensures r == Some("pdf") <==> !Contains(text, "MP3") && Contains(text, "PDF")
    ensures r.None? <==> !Contains(text, "MP3") && !Contains(text, "PDF")
  {
    if Contains(text, "MP3") then Some("audio")
    else if Contains(text, "PDF") then Some("pdf")
    else None
  }

  /** The voice of a download, checked in the order male, female, vocal, accompaniment. */
  function DownloadSubtype(text: string): (r: Option<string>)
    ensures r == Some("male") <==> Contains(text, "Male")
    ensures r == Some("female") <==> !Contains(text, "Male") && Contains(text, "Female")
    ensures r == Some("music-vocal") <==> !Contains(text, "Male") && !Contains(text, "Female") && Contains(text, "Vocal")
    ensures r == Some("music-accompaniment") <==>
      !Contains(text, "Male") && !Contains(text, "Female") && !Contains(text, "Vocal") && Contains(text, "Accompaniment")
    ensures r.None? <==> !Contains(text, "Male") && !Contains(text, "Female") && !Contains(text, "Vocal") && !Contains(text, "Accompaniment")
  {
    if Contains(text, "Male") then Some("male")
    else if Contains(text, "Female") then Some("female")
    else if Contains(text, "Vocal") then Some("music-vocal")
    else if Contains(text, "Accompaniment") then Some("music-accompaniment")
    else None
  }

  /**
   * `href.split('?')[0].split('#')[0]`: the address up to its first `?` or
   * `#`, whichever comes first.
   */
  function MediaUrl(href: string): (r: string)
    ensures '?' !in r && '#' !in r
    ensures r <= href
    ensures |r| < |href| ==> href[|r|] == '?' || href[|r|] == '#'
    ensures '?' !in href && '#' !in href ==> r == href
  {
    CutAtQueryOrFragment(href);
    FirstPiece(FirstPiece(href, '?'), '#')
  }

  /** Cutting at the first `?` and then at the first `#` stops just before the first of either. */
  lemma CutAtQueryOrFragment(href: string)
    ensures var r := FirstPiece(FirstPiece(href, '?'), '#');
      && '?' !in r && r <= href
      && (|r| < |href| ==> href[|r|] == '?' || href[|r|] == '#')
      && ('?' !in href && '#' !in href ==> r == href)
  {
    var noQuery := FirstPiece(href, '?');
    var r := FirstPiece(noQuery, '#');
    PiecesAreAffixes(href, '?');
    PiecesAreAffixes(noQuery, '#');
    assert r <= href;
    assert '?' !in r by {
      forall k | 0 <= k < |r| ensures r[k] != '?' { assert r[k] == noQuery[k]; }
    }
    if |r| < |href| {
      FirstPieceStops(noQuery, '#');
      if |r| == |noQuery| {
        FirstPieceStops(href, '?');
      } else {
        assert href[|r|] == noQuery[|r|];
      }
    }
    if '?' !in href && '#' !in href {
      FirstPieceStops(href, '?');
      FirstPieceStops(noQuery, '#');
    }
  }

  /** A link the downloads panel lists: a truthy `href`, and no `Entire` in its text. */
  predicate Listed(l: DownloadLink) {
    Truthy(l.href) && !Contains(l.text, "Entire")
  }

  /** The entry of a listed download link. */
  function DownloadItem(l: DownloadLink): MediaItem
    requires Truthy(l.href)
  {
    MediaItem(DownloadType(l.text), DownloadSubtype(l.text), MediaUrl(l.href.value), None, None)
  }

  /** How many links are listed. */
  function ListedLinks(links: seq<DownloadLink>): (r: nat)
    ensures r <= |links|
  {
    if links == [] then 0
    else (if Listed(links[0]) then 1 else 0) + ListedLinks(links[1..])
  }

  /** The download entries: one per listed link, in order; none of them is a video. */
  function DownloadMedia(links: seq<DownloadLink>): (r: seq<MediaItem>)
    ensures |r| == ListedLinks(links)
    ensures forall i :: 0 <= i < |r| ==>
      r[i].mediaType != Some("video") && r[i].assetId.None? && r[i].thumbUrl.None? && '?' !in r[i].url && '#' !in r[i].url
  {
    if links == [] then []
    else
      var rest := DownloadMedia(links[1..]);
      if Listed(links[0]) then [DownloadItem(links[0])] + rest else rest
  }

  /**
   * Each listed link has its entry (type and subtype from its text, its
   * address without query or fragment) right after the entries of the
   * earlier listed links; a link that is not listed has no entry.
   */
  lemma {:induction false} DownloadMediaPositions(links: seq<DownloadLink>, j: nat)
    requires j < |links| && Listed(links[j])
    ensures ListedLinks(links[..j]) < |DownloadMedia(links)|
    ensures DownloadMedia(links)[ListedLinks(links[..j])] == DownloadItem(links[j])
    ensures DownloadItem(links[j]).mediaType == DownloadType(links[j].text)
    ensures DownloadItem(links[j]).subtype == DownloadSubtype(links[j].text)
    ensures DownloadItem(links[j]).url == MediaUrl(links[j].href.value)
    decreases j
  {
    var head := if Listed(links[0]) then [DownloadItem(links[0])] else [];
    assert DownloadMedia(links) == head + DownloadMedia(links[1..]);
    if j > 0 {
      DownloadMediaPositions(links[1..], j - 1);
      assert links[..j][1..] == links[1..][..j - 1];
      assert ListedLinks(links[..j]) == |head| + ListedLinks(links[1..][..j - 1]);
    } else {
      assert links[..j] == [];
    }
  }

  /** A whole-book download (its text says `Entire`) is never listed. */
  lemma {:induction false} DownloadMediaSkipsEntire(links: seq<DownloadLink>)
    requires forall i :: 0 <= i < |links| ==> Contains(links[i].text, "Entire")
    ensures DownloadMedia(links) == []
  {
    if links != [] {
      DownloadMediaSkipsEntire(links[1..]);
    }
  }

  /** `chapter_media`: the video entries, then the download entries. */
  function ChapterMedia(video: Option<Video>, downloads: Option<seq<DownloadLink>>): (r: seq<MediaItem>)
    ensures var videos := if video.Some? then VideoMedia(video.value, video.value.sources) else [];
      var links := if downloads.Some? then DownloadMedia(downloads.value) else [];
      && |r| == |videos| + |links|
      && (forall i :: 0 <= i < |videos| ==> r[i] == videos[i])
      && (forall i :: 0 <= i < |links| ==> r[|videos| + i] == links[i])
    ensures forall i, j :: 0 <= i < j < |r| && r[j].mediaType == Some("video") ==> r[i].mediaType == Some("video")
  {
    (if video.Some? then VideoMedia(video.value, video.value.sources) else [])
      + (if downloads.Some? then DownloadMedia(downloads.value) else [])
  }

  // ---------------------------------------------------------------------------
  // Link rewriting (copyrighted mode)

  const SiteOrigin: string := "https://www.churchofjesuschrist.org"

  /** A string splits into one piece exactly when it does not hold the separator. */
  lemma SplitOnePiece(s: string, sep: char)
    ensures |Split(s, sep)| == 1 <==> sep !in s
  {
    if sep !in s {
      SplitSingle(s, sep);
    }
  }

  /**
   * The `href` of a link after the clean-up: a site-relative link inside a
   * study summary or a footnote reference becomes `#` and the piece between
   * its first and second `#` (`IndexError` when it has no `#`); any other
   * site-relative link is made absolute; everything else stays.
   */
  function RewriteHref(studyLink: bool, href: Option<string>): (r: Result<Option<string>, Exception>)
    ensures r.Failure? <==> studyLink && Truthy(href) && "/" <= href.value && '#' !in href.value
    ensures !(Truthy(href) && "/" <= href.value) ==> r == Success(href)
    ensures r.Success? && studyLink && Truthy(href) && "/" <= href.value ==>
      r.value.Some? && "#" <= r.value.value && '#' !in r.value.value[1..]
    ensures r.Success? && studyLink && Truthy(href) && "/" <= href.value ==>
      |Split(href.value, '#')| >= 2 && r.value == Some("#" + Split(href.value, '#')[1])
    ensures !studyLink && Truthy(href) && "/" <= href.value ==> r == Success(Some(SiteOrigin + href.value))
  {
    SplitOnePiece(if href.Some? then href.value else "", '#');
    if Truthy(href) && "/" <= href.value then
      if studyLink then
        var pieces := Split(href.value, '#');
        if |pieces| >= 2 then
          assert ("#" + pieces[1])[1..] == pieces[1];
          Success(Some("#" + pieces[1]))
        else Failure(IndexError("list index out of range"))
      else Success(Some(SiteOrigin + href.value))
    else Success(href)
  }

  /**
   * A study link `x#f` or `x#f#g` becomes `#f`: the text after a second `#`
   * is dropped with the path.
   */
  lemma StudyLinkFragment(x: string, f: string, rest: string)
    requires "/" <= x && '#' !in x && '#' !in f
    requires rest == "" || rest[0] == '#'
    ensures RewriteHref(true, Some(x + "#" + f + rest)) == Success(Some("#" + f))
  {
    var href := x + "#" + f + rest;
    assert href == x + ['#'] + (f + rest);
    assert "/" <= href;
    SplitFirstPiece(x, '#', f + rest);
    if rest == "" {
      assert f + rest == f;
      SplitSingle(f, '#');
    } else {
      assert f + rest == f + ['#'] + rest[1..];
      SplitFirstPiece(f, '#', rest[1..]);
    }
  }

  /** Rewriting an already rewritten link changes nothing (neither result starts with `/`). */
  lemma RewriteHrefIdempotent(studyLink: bool, href: Option<string>)
    requires RewriteHref(studyLink, href).Success?
    ensures RewriteHref(studyLink, RewriteHref(studyLink, href).value) == RewriteHref(studyLink, href)
  {
    var once := RewriteHref(studyLink, href).value;
    if Truthy(href) && "/" <= href.value {
      if studyLink {
        assert once.value[0] == '#';
      } else {
        assert once.value[0] == 'h';
      }
    }
  }

  // ---------------------------------------------------------------------------
  // Plural suffix

  /** `n ^ 1` for a non-negative integer: the lowest bit flipped. */
  function Xor1(n: nat): (r: nat)
    ensures r % 2 != n % 2
    ensures r == n + 1 || r + 1 == n
  {
    if n % 2 == 0 then n + 1 else n - 1
  }

  /** `'s'[:n ^ 1]`: empty for exactly one item, `s` otherwise (zero included). */
  function PluralSuffix(n: nat): (r: string)
    ensures r == "" <==> n == 1
    ensures r != "" ==> r == "s"
  {
    Slice("s", 0, Xor1(n))
  }
}

=== FILE: paragraphs.dfy ===
/**
 * Block nodes of a chapter page and their classification
 * (`get_paragraph_type` and `get_paragraph_number` in scrape.py).
 */
module Paragraphs {
  import opened Wrappers
  import opened Exceptions
  import opened Text

  /** The closed set of paragraph types the scraper assigns. */
  datatype ParagraphType =
    | BookTitle | ChapterTitle | BookSubtitle | ChapterSubtitle | SectionTitle
    | Verse | StudyParagraph | Image | StudyFootnotes | Paragraph

  /** The string the source uses for each type (it is written into every output). */
  function TypeName(t: ParagraphType): (r: string)
    ensures r != "footnotes"
  {
    match t
    case BookTitle => "book-title"
    case ChapterTitle => "chapter-title"
    case BookSubtitle => "book-subtitle"
    case ChapterSubtitle => "chapter-subtitle"
    case SectionTitle => "section-title"
    case Verse => "verse"
    case StudyParagraph => "study-paragraph"
    case Image => "image"
    case StudyFootnotes => "study-footnotes"
    case Paragraph => "paragraph"
  }

  /** Different types are written as different strings. */
  lemma TypeNameInjective(a: ParagraphType, b: ParagraphType)
    requires TypeName(a) == TypeName(b)
    ensures a == b
  {
  }

  /** What `previous_sibling` can be in the parsed tree. */
  datatype Sibling =
    | NoSibling                                        // None
    | TextSibling                                      // a NavigableString
    | TagSibling(name: string, id: Option<string>)    // a Tag

  /** An `id` or `href` attribute somewhere inside a block (the targets of the id-prefixing pass). */
  datatype Attr = IdAttr(value: string) | HrefAttr(value: string)

  /** A `.page-break` element: only its `data-page` attribute matters. */
  datatype PageBreak = PageBreak(dataPage: Option<string>)

  /**
   * One selected block of a chapter page after the clean-up passes: a heading,
   * a paragraph, an image, a footnote list, or a stand-alone `.page-break`.
   * `markup` stands for the rest of its inline content, which only the
   * external serialisers (BeautifulSoup, markdownify) read.
   */
  datatype Node = Node(
    name: string,                    // tag name
    id: Option<string>,              // own `id`
    classes: seq<string>,            // own `class` list
    previousSibling: Sibling,        // `previous_sibling`
    siblingBeforePrevious: Sibling,  // `previous_sibling.previous_sibling`
    verseNumber: Option<string>,     // text of the first nested `.verse-number`
    pageBreak: Option<PageBreak>,    // the first nested `.page-break`
    dataPage: Option<string>,        // own `data-page`
    assetId: Option<string>,         // own `data-assetid`
    src: Option<string>,             // own `src`
    alt: Option<string>,             // own `alt`
    attrs: seq<Attr>,                // `id`/`href` attributes of the descendants, in document order
    noteRefs: seq<Option<string>>,   // `data-scroll-id` of each nested `.study-note-ref`
    markup: nat)

  /** `paragraph.get('class') and paragraph.get('class')[0]`. */
  function FirstClass(n: Node): (r: Option<string>)
    ensures r.Some? <==> |n.classes| > 0
  {
    if |n.classes| > 0 then Some(n.classes[0]) else None
  }

  /**
   * The element the subtitle rule compares with: `previous_sibling` when it is a
   * tag, otherwise the sibling before it. The source raises `AttributeError`
   * when that is `None` or a text node.
   */
  function ElementBefore(n: Node): (r: Result<Sibling, Exception>)
    ensures r.Success? ==> r.value.TagSibling?
    ensures r.Success? <==>
      (n.previousSibling.TagSibling? || (n.previousSibling.TextSibling? && n.siblingBeforePrevious.TagSibling?))
  {
    match n.previousSibling
    case TagSibling(_, _) => Success(n.previousSibling)
    case NoSibling => Failure(AttributeError("previous_sibling"))
    case TextSibling =>
      if n.siblingBeforePrevious.TagSibling? then Success(n.siblingBeforePrevious)
      else Failure(AttributeError("get"))
  }

  /**
   * `get_paragraph_type`: the first rule that matches decides, in the source's
   * order. It fails only where the subtitle rule's sibling lookup raises.
   */
  function Classify(n: Node): (r: Result<ParagraphType, Exception>)
    ensures r.Failure? <==> n.name != "h1" && n.id == Some("subtitle1") && ElementBefore(n).Failure?
    ensures n.name == "h1" ==> r == Success(BookTitle)
    ensures n.name != "h1" && n.id == Some("title_number1") ==> r == Success(ChapterTitle)
    ensures r == Success(BookSubtitle) || r == Success(ChapterSubtitle) ==> n.id == Some("subtitle1")
  {
    if n.name == "h1" then Success(BookTitle)
    else if n.id == Some("title_number1") then Success(ChapterTitle)
    else if n.id == Some("subtitle1") then
      match ElementBefore(n)
      case Failure(e) => Failure(e)
      case Success(before) =>
        if before.name == "h1" then Success(BookSubtitle)
        else if before.id == Some("title_number1") then Success(ChapterSubtitle)
        else Success(Paragraph)
    else if n.name == "h2" then Success(SectionTitle)
    else if FirstClass(n) == Some("verse") then Success(Verse)
    else if FirstClass(n) == Some("study-intro") then Success(StudyParagraph)
    else if FirstClass(n) == Some("study-summary") then Success(StudyParagraph)
    else if n.name == "img" then Success(Image)
    else if n.name == "ul" then Success(StudyFootnotes)
    else Success(Paragraph)
  }

  /**
   * A `subtitle1` block whose preceding element is neither an `h1` nor the
   * chapter-number heading is an ordinary paragraph, whatever its tag or class.
   */
  lemma SubtitleFallsBackToParagraph(n: Node)
    requires n.name != "h1" && n.id == Some("subtitle1")
    requires ElementBefore(n).Success?
    requires ElementBefore(n).value.name != "h1"
    requires ElementBefore(n).value.id != Some("title_number1")
    ensures Classify(n) == Success(Paragraph)
  {
  }

  /** `image` is given exactly to `img` tags that no earlier rule claims. */
  lemma ClassifyImage(n: Node)
    ensures Classify(n) == Success(Image) <==>
      && n.name == "img"
      && n.id != Some("title_number1") && n.id != Some("subtitle1")
      && FirstClass(n) !in {Some("verse"), Some("study-intro"), Some("study-summary")}
  {
  }

  /** The classifier never produces the type name `footnotes`. */
  lemma ClassifyNeverFootnotes(n: Node)
    requires Classify(n).Success?
    ensures TypeName(Classify(n).value) != "footnotes"
  {
  }

  /** `get_paragraph_number`: the stripped text of the nested verse number, if any. */
  function ParagraphNumber(n: Node): (r: Option<string>)
    ensures r.Some? <==> n.verseNumber.Some?
    ensures r.Some? ==> Strip(r.value) == r.value
  {
    match n.verseNumber
    case None => None
    case Some(text) => StripIdempotent(text); Some(Strip(text))
  }
}

=== FILE: pipeline.dfy ===
/**
 * The output pipeline of `output_full_content` as functions on its state: the
 * row lists shared by all publications, the paragraph-type table behind the
 * ids, the per-publication buffers, the page number carried through a book,
 * and the paragraphs of the chapter being read. Each loop of the source is a
 * fold of one step function; a crash of the source is a `Failure`.
 */
module Pipeline {
  import opened Wrappers
  import opened Exceptions
  import opened Text
  import opened Paragraphs
  import opened ParagraphIds
  import opened ParagraphContent
  import opened Metadata
  import opened Dicts

  // ---------------------------------------------------------------------------
  // Inputs

  /** The `config` flags the pipeline reads. `rows` is "CSV or TSV or either SQL dialect". */
  datatype Config = Config(
    json: bool, splitJson: bool, html: bool, md: bool, txt: bool, rows: bool,
    basicHtml: bool,   // BASIC_HTML, the default styling of `get_paragraph_content`
    mediaInfo: bool)   // INCLUDE_MEDIA_INFO: the page comes from a browser, not a plain request

  /** What the model cannot compute: the serialisers, `str.upper`, and the type-abbreviation table. */
  datatype Externals = Externals(render: Renderers, upper: string -> string, abbrev: string -> Option<string>)

  /**
   * A fetched chapter page after the clean-up passes: whether its article has
   * the expected URI, the header text, the first `.page-break` of the page,
   * the selected blocks in document order, and the media elements. The first
   * nested `.page-break` of a block is part of that block, not a block of its own.
   */
  datatype Page = Page(
    uriMatched: bool, header: string, firstPageBreak: Option<PageBreak>, blocks: seq<Node>,
    video: Option<Video>, downloads: Option<seq<DownloadLink>>)

  /** An entry of `churchChapters` and the page fetched for it (`None`: no successful response). */
  datatype Chapter = Chapter(id: ChapterId, fetched: Option<Page>)

  /** A book of the metadata, with its translated name and abbreviation and whether the language has it. */
  datatype Book = Book(slug: string, name: string, abbrev: Option<string>, available: bool, churchUri: Option<string>, chapters: seq<Chapter>)

  /** The version fields the key and slug use. */
  datatype VersionInfo = VersionInfo(versionKey: Option<string>, editionYear: Option<string>)

  /** A publication of the metadata and whether the language has it. */
  datatype Publication = Publication(slug: string, abbrev: Option<string>, available: bool, version: VersionInfo, books: seq<Book>)

  // ---------------------------------------------------------------------------
  // Outputs and state

  datatype PublicationRow = PublicationRow(pubKey: string, lang: string, position: nat, slug: string, versionSlug: string, category: string)
  datatype ChapterRow = ChapterRow(pubKey: string, position: nat, slug: string, name: string, abbrev: Option<string>, number: string, bookSlug: string, uri: string)
  datatype MediaRow = MediaRow(pubKey: string, chapterSlug: string, item: MediaItem)
  datatype ParagraphRow = ParagraphRow(
    pubKey: string, chapterSlug: string, position: nat, ptype: ParagraphType, id: string,
    content: string, contentHtml: string, number: Option<string>, pageNumber: Option<string>,
    compareId: string, churchId: Option<string>)

  /** One entry of `chapter_dict['paragraphs']`. */
  datatype JsonParagraph = JsonParagraph(
    ptype: ParagraphType, id: string, content: string, contentHtml: string, number: Option<string>,
    pageNumber: Option<string>, compareId: string, churchId: Option<string>)

  /** `chapter_dict`. */
  datatype ChapterRecord = ChapterRecord(name: string, abbrev: Option<string>, number: string, uri: string, paragraphs: seq<JsonParagraph>, media: seq<MediaItem>)

  /** A chapter-level JSON file (split mode). */
  datatype ChapterFile = ChapterFile(publicationSlug: string, bookSlug: string, chapterSlug: string, record: ChapterRecord)

  /** The publication-level files, one per enabled format (the HTML before it is put into its template). */
  datatype PublicationFile = PublicationFile(
    slug: string, json: Option<Dict<Dict<ChapterRecord>>>,
    html: Option<string>, md: Option<string>, txt: Option<string>)

  datatype State = State(
    publicationRows: seq<PublicationRow>,
    chapterRows: seq<ChapterRow>,
    mediaRows: seq<MediaRow>,
    paragraphRows: seq<ParagraphRow>,
    typesByChapter: map<string, seq<ParagraphType>>,   // paragraph_type_data_by_chapter
    chapterFiles: seq<ChapterFile>,
    publicationFiles: seq<PublicationFile>,
    chaptersInPublication: nat,
    json: Dict<Dict<ChapterRecord>>,                   // json_content (not split), in insertion order
    html: string, md: string, txt: string,
    previousPageNumber: Option<string>,
    paragraphs: seq<JsonParagraph>)                     // chapter_dict['paragraphs'] of the current chapter

  const Initial: State := State([], [], [], [], map[], [], [], 0, [], "", "", "", None, [])

  /**
   * `t` is `s` after more of the run: every row list and every list of
   * written files of `s` is still there, at the start of the one in `t`.
   */
  predicate Extends(s: State, t: State) {
    && s.publicationRows <= t.publicationRows && s.chapterRows <= t.chapterRows
    && s.mediaRows <= t.mediaRows && s.paragraphRows <= t.paragraphRows
    && s.chapterFiles <= t.chapterFiles && s.publicationFiles <= t.publicationFiles
  }

  /** What the paragraph loop of one chapter knows. */
  datatype ChapterContext = ChapterContext(cfg: Config, ext: Externals, pubKey: string, bookSlug: string, chapterSlug: string)

  /** `paragraph_id_prefix`: the chapter slug and an underscore. */
  function IdPrefix(ctx: ChapterContext): (r: string)
    ensures |r| == |ctx.chapterSlug| + 1 && ctx.chapterSlug <= r
  {
    ctx.chapterSlug + "_"
  }

  /** The HTML anchors of paragraphs are the comparison ids. */
  lemma IdPrefixMakesCompareId(ctx: ChapterContext, id: string)
    ensures IdPrefix(ctx) + id == CompareId(ctx.chapterSlug, id)
  {
  }

  // ---------------------------------------------------------------------------
  // Page numbers

  /**
   * A block holding a page break: the break's `data-page` becomes the current
   * page, and the block itself is on both pages (`"old,new"`). A missing
   * `data-page` is a `KeyError`; no current page is a `TypeError`.
   * The result is the new current page and the block's page number.
   */
  function NestedBreak(page: Option<string>, n: Node): (r: Result<(Option<string>, Option<string>), Exception>)
    ensures n.pageBreak.None? ==> r == Success((page, page))
    ensures r.Failure? <==> n.pageBreak.Some? && (n.pageBreak.value.dataPage.None? || page.None?)
    ensures r.Success? && n.pageBreak.Some? ==>
      var next := n.pageBreak.value.dataPage.value;
      r.value.0 == Some(next) && r.value.1 == Some(page.value + "," + next)
  {
    match n.pageBreak
    case None => Success((page, page))
    case Some(b) =>
      if b.dataPage.None? then Failure(KeyError("data-page"))
      else if page.None? then Failure(TypeError("unsupported operand type(s) for +=: 'NoneType' and 'str'"))
      else Success((b.dataPage, Some(page.value + "," + b.dataPage.value)))
  }

  /** The block's page number names the old page first and the new page last. */
  lemma NestedBreakPages(page: string, next: string, n: Node)
    requires n.pageBreak == Some(PageBreak(Some(next)))
    requires ',' !in page && ',' !in next
    ensures NestedBreak(Some(page), n).Success?
    ensures Split(NestedBreak(Some(page), n).value.1.value, ',') == [page, next]
  {
    SplitJoin([page, next], ',');
  }

  /**
   * The seed of a chapter: when no page is current and the page has a
   * `.page-break`, the page before its `data-page`. A missing `data-page` is
   * a `KeyError`, one `int()` rejects a `ValueError`.
   */
  function SeedPage(s: State, first: Option<PageBreak>): (r: Result<State, Exception>)
    ensures first.None? || Truthy(s.previousPageNumber) ==> r == Success(s)
    ensures r.Success? ==> r.value == s.(previousPageNumber := r.value.previousPageNumber)
  {
    if first.Some? && !Truthy(s.previousPageNumber) then
      match first.value.dataPage
      case None => Failure(KeyError("data-page"))
      case Some(p) =>
        match ParseInt(p)
        case None => Failure(ValueError(p))
        case Some(v) => Success(s.(previousPageNumber := Some(IntToString(v - 1))))
    else Success(s)
  }

  /** A seeded page is one less than the first break's number, read back as that number. */
  lemma SeedPageValue(s: State, p: string, v: int)
    requires !Truthy(s.previousPageNumber) && ParseInt(p) == Some(v)
    ensures SeedPage(s, Some(PageBreak(Some(p)))).Success?
    ensures ParseInt(SeedPage(s, Some(PageBreak(Some(p)))).value.previousPageNumber.value) == Some(v - 1)
  {
    SeedPageSets(s, p, v);
    ParseIntToString(v - 1);
  }

  /** The page a seed sets, as `str(int(p) - 1)`. */
  lemma SeedPageSets(s: State, p: string, v: int)
    requires !Truthy(s.previousPageNumber) && ParseInt(p) == Some(v)
    ensures SeedPage(s, Some(PageBreak(Some(p)))) == Success(s.(previousPageNumber := Some(IntToString(v - 1))))
  {
  }

  // ---------------------------------------------------------------------------
  // One paragraph

  /** What the emitters know of a paragraph: its block (without the page break), type, id, number and page. */
  datatype Block = Block(node: Node, ptype: ParagraphType, id: string, number: Option<string>, pageNumber: Option<string>)

  /** A block whose content can be computed: classified and, unless an image, with every note reference's `data-scroll-id`. */
  predicate Renderable(b: Block) {
    Classify(b.node) == Success(b.ptype) && (b.ptype == Image || ScrollIdsPresent(b.node))
  }

  /** Whether any output asks for the content of a paragraph. */
  predicate AnyOutput(cfg: Config) {
    cfg.json || cfg.html || cfg.md || cfg.txt || cfg.rows
  }

  /** A classified block the outputs can take: renderable as soon as one output reads its content. */
  predicate Emittable(ctx: ChapterContext, b: Block) {
    Classify(b.node) == Success(b.ptype) && (AnyOutput(ctx.cfg) ==> Renderable(b))
  }

  /** `get_paragraph_content` on a renderable block: it cannot fail. */
  function ContentOf(ext: Externals, b: Block, ctype: ContentType, basic: bool, keepNumber: bool, prefix: string, id: string): (r: string)
    requires Renderable(b)
    ensures Content(ext.render, b.node, ctype, basic, keepNumber, prefix, id) == Success(r)
  {
    Content(ext.render, b.node, ctype, basic, keepNumber, prefix, id).value
  }

  /** `paragraph_content or paragraph_content_html`: the JSON and row test, with the prefix each passes. */
  predicate HasContent(ctx: ChapterContext, b: Block, prefix: string)
    requires Renderable(b)
  {
    ContentOf(ctx.ext, b, PlainText, ctx.cfg.basicHtml, false, prefix, b.id) != ""
      || ContentOf(ctx.ext, b, Html, ctx.cfg.basicHtml, false, prefix, b.id) != ""
  }

  /** `paragraph_number.strip() if paragraph_number else None`. */
  function JsonNumber(number: Option<string>): (r: Option<string>)
    ensures r.Some? <==> Truthy(number)
    ensures r.Some? ==> Strip(r.value) == r.value
  {
    if Truthy(number) then (StripIdempotent(number.value); Some(Strip(number.value))) else None
  }

  /**
   * The JSON paragraph: appended to the chapter record exactly when JSON is on
   * and the block has text or HTML content; it carries the block's type, id,
   * stripped number and page, the comparison id and the Church's id.
   */
  function JsonEmit(ctx: ChapterContext, s: State, b: Block): (r: State)
    requires Emittable(ctx, b)
    ensures r == s.(paragraphs := r.paragraphs)
    ensures s.paragraphs <= r.paragraphs && |r.paragraphs| <= |s.paragraphs| + 1
    ensures |r.paragraphs| == |s.paragraphs| + 1 <==> ctx.cfg.json && HasContent(ctx, b, IdPrefix(ctx))
    ensures |r.paragraphs| == |s.paragraphs| + 1 ==>
      var e := r.paragraphs[|s.paragraphs|];
      && e.ptype == b.ptype && e.id == b.id && e.number == JsonNumber(b.number) && e.pageNumber == b.pageNumber
      && e.compareId == CompareId(ctx.chapterSlug, b.id) && e.churchId == b.node.id
      && e.content == ContentOf(ctx.ext, b, PlainText, ctx.cfg.basicHtml, false, IdPrefix(ctx), b.id)
      && e.contentHtml == ContentOf(ctx.ext, b, Html, ctx.cfg.basicHtml, false, IdPrefix(ctx), b.id)
  {
    if !ctx.cfg.json then s
    else
      var text := ContentOf(ctx.ext, b, PlainText, ctx.cfg.basicHtml, false, IdPrefix(ctx), b.id);
      var html := ContentOf(ctx.ext, b, Html, ctx.cfg.basicHtml, false, IdPrefix(ctx), b.id);
      if text != "" || html != "" then
        s.(paragraphs := s.paragraphs + [JsonParagraph(b.ptype, b.id, text, html, JsonNumber(b.number), b.pageNumber, CompareId(ctx.chapterSlug, b.id), b.node.id)])
      else s
  }

  /** The HTML of one paragraph, by type. The `<ul>` branch is kept as written; no type reaches it. */
  function HtmlBlock(t: ParagraphType, bookSlug: string, chapterSlug: string, prefix: string, id: string, c: string): (r: string)
    ensures t == Image ==> r == c + "\n"
    ensures t == BookTitle ==> "\n<h1 id=\"" + bookSlug + "\"" <= r
    ensures t == ChapterTitle ==> "\n<h2 id=\"" + chapterSlug + "\"" <= r
    ensures t == SectionTitle ==> "\n<h3 id=\"" + prefix + id + "\"" <= r
    ensures t !in {BookTitle, ChapterTitle, SectionTitle, Image} ==> "<p id=\"" + prefix + id + "\"" <= r
  {
    var classAttr := " class=\"" + TypeName(t) + "\">";
    if t == BookTitle then Element("\n<h1 id=\"" + bookSlug + "\"", classAttr + c + "</h1>\n")
    else if t == ChapterTitle then Element("\n<h2 id=\"" + chapterSlug + "\"", classAttr + c + "</h2>\n")
    else if t == SectionTitle then Element("\n<h3 id=\"" + prefix + id + "\"", classAttr + c + "</h3>\n")
    else if t == Image then c + "\n"
    else if TypeName(t) == "footnotes" then Element("<ul id=\"" + prefix + id + "\"", classAttr + c + "</ul>\n")
    else Element("<p id=\"" + prefix + id + "\"", classAttr + c + "</p>\n")
  }

  /** An HTML element: its opening tag up to the id, then the rest. */
  function Element(head: string, rest: string): (r: string)
    ensures head <= r
  {
    head + rest
  }

  /** The HTML output: a paragraph with HTML content appends exactly its `HtmlBlock`; the rest add nothing. */
  function HtmlEmit(ctx: ChapterContext, s: State, b: Block): (r: State)
    requires Emittable(ctx, b)
    ensures r == s.(html := r.html)
    ensures s.html <= r.html
    ensures !ctx.cfg.html ==> r == s
    ensures ctx.cfg.html ==>
      var c := ContentOf(ctx.ext, b, Html, ctx.cfg.basicHtml, true, IdPrefix(ctx), b.id);
      && (c == "" ==> r == s)
      && (c != "" ==> r.html == s.html + HtmlBlock(b.ptype, ctx.bookSlug, ctx.chapterSlug, IdPrefix(ctx), b.id, c))
  {
    if !ctx.cfg.html then s
    else
      var c := ContentOf(ctx.ext, b, Html, ctx.cfg.basicHtml, true, IdPrefix(ctx), b.id);
      if c != "" then s.(html := s.html + HtmlBlock(b.ptype, ctx.bookSlug, ctx.chapterSlug, IdPrefix(ctx), b.id, c))
      else s
  }

  function MdAnchor(name: string): string {
    "<a name=\"" + name + "\"></a>"
  }

  /** The Markdown of one paragraph, by type. */
  function MdBlock(t: ParagraphType, bookSlug: string, chapterSlug: string, prefix: string, id: string, c: string): (r: string)
    ensures t == BookTitle ==> "# " + MdAnchor(bookSlug) <= r
    ensures t == ChapterTitle ==> "## " + MdAnchor(chapterSlug) <= r
    ensures t == SectionTitle ==> "### " + MdAnchor(prefix + id) <= r
    ensures t !in {BookTitle, ChapterTitle, SectionTitle} ==> MdAnchor(prefix + id) <= r
  {
    if t == BookTitle then "# " + MdAnchor(bookSlug) + c + "\n\n"
    else if t == ChapterTitle then "## " + MdAnchor(chapterSlug) + c + "\n\n"
    else if t == SectionTitle then "### " + MdAnchor(prefix + id) + c + "\n\n"
    else if t == Image then MdAnchor(prefix + id) + "![](" + c + ")\n\n"
    else MdAnchor(prefix + id) + c + "\n\n"
  }

  /**
   * The Markdown output (the serialiser is called without the id): a
   * paragraph with Markdown content appends exactly its `MdBlock`.
   */
  function MdEmit(ctx: ChapterContext, s: State, b: Block): (r: State)
    requires Emittable(ctx, b)
    ensures r == s.(md := r.md)
    ensures s.md <= r.md
    ensures !ctx.cfg.md ==> r == s
    ensures ctx.cfg.md ==>
      var c := ContentOf(ctx.ext, b, Markdown, ctx.cfg.basicHtml, true, IdPrefix(ctx), "");
      && (c == "" ==> r == s)
      && (c != "" ==> r.md == s.md + MdBlock(b.ptype, ctx.bookSlug, ctx.chapterSlug, IdPrefix(ctx), b.id, c))
  {
    if !ctx.cfg.md then s
    else
      var c := ContentOf(ctx.ext, b, Markdown, ctx.cfg.basicHtml, true, IdPrefix(ctx), "");
      if c != "" then s.(md := s.md + MdBlock(b.ptype, ctx.bookSlug, ctx.chapterSlug, IdPrefix(ctx), b.id, c))
      else s
  }

  /**
   * The plain-text output: a paragraph with text appends it, upper-cased for
   * a chapter title, and a blank line.
   */
  function TxtEmit(ctx: ChapterContext, s: State, b: Block): (r: State)
    requires Emittable(ctx, b)
    ensures r == s.(txt := r.txt)
    ensures s.txt <= r.txt
    ensures !ctx.cfg.txt ==> r == s
    ensures ctx.cfg.txt ==>
      var c := ContentOf(ctx.ext, b, PlainText, ctx.cfg.basicHtml, true, "", "");
      && (c == "" ==> r == s)
      && (c != "" && b.ptype == ChapterTitle ==> r.txt == s.txt + ctx.ext.upper(c) + "\n\n")
      && (c != "" && b.ptype != ChapterTitle ==> r.txt == s.txt + c + "\n\n")
  {
    if !ctx.cfg.txt then s
    else
      var c := ContentOf(ctx.ext, b, PlainText, ctx.cfg.basicHtml, true, "", "");
      if c != "" then s.(txt := s.txt + (if b.ptype == ChapterTitle then ctx.ext.upper(c) else c) + "\n\n")
      else s
  }

  /**
   * The paragraph row: added at the next position exactly when rows are on
   * and the block has text or HTML content (rendered without prefix); it
   * carries the chapter, the block's type, id, number and page, the
   * comparison id and the Church's id.
   */
  function RowEmit(ctx: ChapterContext, s: State, b: Block): (r: State)
    requires Emittable(ctx, b)
    ensures r == s.(paragraphRows := r.paragraphRows)
    ensures s.paragraphRows <= r.paragraphRows && |r.paragraphRows| <= |s.paragraphRows| + 1
    ensures |r.paragraphRows| == |s.paragraphRows| + 1 <==> ctx.cfg.rows && HasContent(ctx, b, "")
    ensures |r.paragraphRows| == |s.paragraphRows| + 1 ==>
      var e := r.paragraphRows[|s.paragraphRows|];
      && e.position == |s.paragraphRows| && e.pubKey == ctx.pubKey && e.chapterSlug == ctx.chapterSlug
      && e.ptype == b.ptype && e.id == b.id && e.number == b.number && e.pageNumber == b.pageNumber
      && e.compareId == CompareId(ctx.chapterSlug, b.id) && e.churchId == b.node.id
      && e.content == ContentOf(ctx.ext, b, PlainText, ctx.cfg.basicHtml, false, "", b.id)
      && e.contentHtml == ContentOf(ctx.ext, b, Html, ctx.cfg.basicHtml, false, "", b.id)
  {
    if !ctx.cfg.rows then s
    else
      var text := ContentOf(ctx.ext, b, PlainText, ctx.cfg.basicHtml, false, "", b.id);
      var html := ContentOf(ctx.ext, b, Html, ctx.cfg.basicHtml, false, "", b.id);
      if text != "" || html != "" then
        s.(paragraphRows := s.paragraphRows + [ParagraphRow(
          ctx.pubKey, ctx.chapterSlug, |s.paragraphRows|, b.ptype, b.id, text, html, b.number,
          b.pageNumber, CompareId(ctx.chapterSlug, b.id), b.node.id)])
      else s
  }

  /** The page-break test of the loop: the block's first class is `page-break`. */
  function IsPageBreak(n: Node): (r: bool)
    ensures r <==> |n.classes| > 0 && n.classes[0] == "page-break"
  {
    FirstClass(n) == Some("page-break")
  }

  /**
   * One iteration of the paragraph loop. A page break only moves the current
   * page. Any other block takes its page, then its type and id (the id is
   * taken even when no output keeps the paragraph), then goes to each output;
   * the first content call of an enabled output raises the `KeyError` of a
   * note reference without `data-scroll-id`.
   */
  function ParagraphStep(ctx: ChapterContext, s: State, n: Node): (r: Result<State, Exception>)
    ensures IsPageBreak(n) ==> (r.Success? <==> n.dataPage.Some?)
    ensures r.Success? ==> Extends(s, r.value)
  {
    if IsPageBreak(n) then
      if n.dataPage.None? then Failure(KeyError("data-page"))
      else Success(s.(previousPageNumber := n.dataPage))
    else
      var pages :- NestedBreak(s.previousPageNumber, n);
      var node := n.(pageBreak := None);
      var t :- Classify(node);
      var allotted := AssignId(ctx.ext.abbrev, s.typesByChapter, ctx.chapterSlug, t);
      var b := Block(node, t, allotted.1, ParagraphNumber(node), pages.1);
      var s1 := s.(previousPageNumber := pages.0, typesByChapter := allotted.0);
      if AnyOutput(ctx.cfg) && t != Image && !ScrollIdsPresent(node) then Failure(KeyError("data-scroll-id"))
      else Success(RowEmit(ctx, TxtEmit(ctx, MdEmit(ctx, HtmlEmit(ctx, JsonEmit(ctx, s1, b), b), b), b), b))
  }

  /** The block a step of an ordinary block works on, once its page and type are known. */
  function BlockOf(ctx: ChapterContext, s: State, n: Node): (b: Block)
    requires !IsPageBreak(n) && NestedBreak(s.previousPageNumber, n).Success? && Classify(n.(pageBreak := None)).Success?
    ensures Classify(b.node) == Success(b.ptype)
    ensures ParagraphStep(ctx, s, n).Success? ==> Emittable(ctx, b)
  {
    var node := n.(pageBreak := None);
    var t := Classify(node).value;
    Block(node, t, AssignId(ctx.ext.abbrev, s.typesByChapter, ctx.chapterSlug, t).1, ParagraphNumber(node),
      NestedBreak(s.previousPageNumber, n).value.1)
  }

  /** A stand-alone page break changes nothing but the current page. */
  lemma PageBreakOnlyMovesPage(ctx: ChapterContext, s: State, n: Node, p: string)
    requires IsPageBreak(n) && n.dataPage == Some(p)
    ensures ParagraphStep(ctx, s, n) == Success(s.(previousPageNumber := Some(p)))
  {
  }

  /**
   * Any other block consumes the next ordinal of its type, whether or not an
   * output keeps it, and leaves the other chapters' lists alone.
   */
  lemma StepConsumesId(ctx: ChapterContext, s: State, n: Node)
    requires !IsPageBreak(n)
    requires ParagraphStep(ctx, s, n).Success?
    ensures Classify(n).Success?
    ensures TypesSeen(ParagraphStep(ctx, s, n).value.typesByChapter, ctx.chapterSlug)
      == TypesSeen(s.typesByChapter, ctx.chapterSlug) + [Classify(n).value]
    ensures forall other :: other != ctx.chapterSlug ==>
      TypesSeen(ParagraphStep(ctx, s, n).value.typesByChapter, other) == TypesSeen(s.typesByChapter, other)
  {
    ClassifyIgnoresPageBreak(n);
  }

  /** The types of a list of blocks are those of all but its last block, then that of the last. */
  lemma BlockTypesSplit(blocks: seq<Node>)
    requires blocks != []
    ensures BlockTypes(blocks) == BlockTypes(blocks[..|blocks| - 1]) + BlockTypes([blocks[|blocks| - 1]])
  {
    assert [blocks[|blocks| - 1]][..0] == [];
  }

  /** One step adds to its chapter's list of types exactly what `BlockTypes` adds for its block. */
  lemma StepRecordsType(ctx: ChapterContext, s: State, n: Node)
    requires ParagraphStep(ctx, s, n).Success?
    ensures TypesSeen(ParagraphStep(ctx, s, n).value.typesByChapter, ctx.chapterSlug)
      == TypesSeen(s.typesByChapter, ctx.chapterSlug) + BlockTypes([n])
    ensures forall other :: other != ctx.chapterSlug ==>
      TypesSeen(ParagraphStep(ctx, s, n).value.typesByChapter, other) == TypesSeen(s.typesByChapter, other)
  {
    assert [n][..0] == [];
    if !IsPageBreak(n) {
      StepConsumesId(ctx, s, n);
    }
  }

  /** Removing the nested page break does not change the type. */
  lemma ClassifyIgnoresPageBreak(n: Node)
    ensures Classify(n.(pageBreak := None)) == Classify(n)
  {
    assert ElementBefore(n.(pageBreak := None)) == ElementBefore(n);
  }

  /** A block with a page break records `"old,new"` and makes `new` the current page. */
  lemma StepNestedBreak(ctx: ChapterContext, s: State, n: Node, next: string)
    requires !IsPageBreak(n) && n.pageBreak == Some(PageBreak(Some(next)))
    requires ParagraphStep(ctx, s, n).Success?
    ensures s.previousPageNumber.Some?
    ensures ParagraphStep(ctx, s, n).value.previousPageNumber == Some(next)
    ensures BlockOf(ctx, s, n).pageNumber == Some(s.previousPageNumber.value + "," + next)
  {
    ClassifyIgnoresPageBreak(n);
  }

  /** A paragraph row is added exactly when rows are on and the text or the HTML content is non-empty. */
  lemma StepAddsRowIffContent(ctx: ChapterContext, s: State, n: Node)
    requires !IsPageBreak(n) && ParagraphStep(ctx, s, n).Success?
    ensures var b := BlockOf(ctx, s, n);
      |ParagraphStep(ctx, s, n).value.paragraphRows| == |s.paragraphRows| + 1
      <==> (ctx.cfg.rows &&
              (ContentOf(ctx.ext, b, PlainText, ctx.cfg.basicHtml, false, "", b.id) != ""
               || ContentOf(ctx.ext, b, Html, ctx.cfg.basicHtml, false, "", b.id) != ""))
    ensures |ParagraphStep(ctx, s, n).value.paragraphRows| <= |s.paragraphRows| + 1
  {
    ClassifyIgnoresPageBreak(n);
  }

  /** A buffer gets nothing from a paragraph whose content for that format is empty. */
  lemma StepEmptyContentAddsNothing(ctx: ChapterContext, s: State, n: Node)
    requires !IsPageBreak(n) && ParagraphStep(ctx, s, n).Success?
    ensures var b := BlockOf(ctx, s, n); var r := ParagraphStep(ctx, s, n).value;
      && (!ctx.cfg.html || ContentOf(ctx.ext, b, Html, ctx.cfg.basicHtml, true, IdPrefix(ctx), b.id) == "" ==> r.html == s.html)
      && (!ctx.cfg.md || ContentOf(ctx.ext, b, Markdown, ctx.cfg.basicHtml, true, IdPrefix(ctx), "") == "" ==> r.md == s.md)
      && (!ctx.cfg.txt || ContentOf(ctx.ext, b, PlainText, ctx.cfg.basicHtml, true, "", "") == "" ==> r.txt == s.txt)
  {
    ClassifyIgnoresPageBreak(n);
  }

  /** The Markdown gets nothing from an image (its Markdown content is always empty). */
  lemma StepImageAddsNoMarkdown(ctx: ChapterContext, s: State, n: Node)
    requires !IsPageBreak(n) && ParagraphStep(ctx, s, n).Success?
    requires Classify(n) == Success(Image)
    ensures ParagraphStep(ctx, s, n).value.md == s.md
  {
    ClassifyIgnoresPageBreak(n);
  }

  /**
   * In the HTML, a paragraph that is neither a title nor an image is anchored
   * at its comparison id, the value its JSON and row entries carry.
   */
  lemma HtmlAnchorIsCompareId(ctx: ChapterContext, t: ParagraphType, id: string, c: string)
    requires t !in {BookTitle, ChapterTitle, Image}
    ensures var block := HtmlBlock(t, ctx.bookSlug, ctx.chapterSlug, IdPrefix(ctx), id, c);
      ("\n<h3 id=\"" + CompareId(ctx.chapterSlug, id) + "\"" <= block)
      || ("<p id=\"" + CompareId(ctx.chapterSlug, id) + "\"" <= block)
  {
    IdPrefixMakesCompareId(ctx, id);
    var prefix := IdPrefix(ctx);
    assert "\n<h3 id=\"" + prefix + id + "\"" == "\n<h3 id=\"" + (prefix + id) + "\"";
    assert "<p id=\"" + prefix + id + "\"" == "<p id=\"" + (prefix + id) + "\"";
  }

  /** What `HtmlEmit` appends for a paragraph that is neither a title nor an image opens with its comparison id. */
  lemma HtmlEmitAnchor(ctx: ChapterContext, s: State, b: Block)
    requires Emittable(ctx, b) && b.ptype !in {BookTitle, ChapterTitle, Image}
    ensures var r := HtmlEmit(ctx, s, b); var cid := CompareId(ctx.chapterSlug, b.id);
      |r.html| > |s.html| ==>
        ("\n<h3 id=\"" + cid + "\"" <= r.html[|s.html|..]) || ("<p id=\"" + cid + "\"" <= r.html[|s.html|..])
  {
    var r := HtmlEmit(ctx, s, b);
    if |r.html| > |s.html| {
      var c := ContentOf(ctx.ext, b, Html, ctx.cfg.basicHtml, true, IdPrefix(ctx), b.id);
      var block := HtmlBlock(b.ptype, ctx.bookSlug, ctx.chapterSlug, IdPrefix(ctx), b.id, c);
      assert r.html[|s.html|..] == block;
      HtmlAnchorIsCompareId(ctx, b.ptype, b.id, c);
    }
  }

  /** What `MdEmit` appends for a paragraph that is neither a title nor an image opens with an anchor at its comparison id. */
  lemma MdEmitAnchor(ctx: ChapterContext, s: State, b: Block)
    requires Emittable(ctx, b) && b.ptype !in {BookTitle, ChapterTitle, Image}
    ensures var r := MdEmit(ctx, s, b); var cid := CompareId(ctx.chapterSlug, b.id);
      |r.md| > |s.md| ==> ("### " + MdAnchor(cid) <= r.md[|s.md|..]) || (MdAnchor(cid) <= r.md[|s.md|..])
  {
    var r := MdEmit(ctx, s, b);
    if |r.md| > |s.md| {
      var c := ContentOf(ctx.ext, b, Markdown, ctx.cfg.basicHtml, true, IdPrefix(ctx), "");
      assert r.md[|s.md|..] == MdBlock(b.ptype, ctx.bookSlug, ctx.chapterSlug, IdPrefix(ctx), b.id, c);
      IdPrefixMakesCompareId(ctx, b.id);
    }
  }

  /**
   * One paragraph, one anchor: for a block that is neither a title nor an
   * image, the HTML and Markdown a step appends are anchored at the same
   * comparison id that its JSON paragraph and its row carry.
   */
  lemma StepAnchorsAgree(ctx: ChapterContext, s: State, n: Node)
    requires !IsPageBreak(n) && ParagraphStep(ctx, s, n).Success?
    requires Classify(n).Success? && Classify(n).value !in {BookTitle, ChapterTitle, Image}
    ensures var r := ParagraphStep(ctx, s, n).value; var cid := CompareId(ctx.chapterSlug, BlockOf(ctx, s, n).id);
      && s.html <= r.html && s.md <= r.md
      && (|r.html| > |s.html| ==>
            ("\n<h3 id=\"" + cid + "\"" <= r.html[|s.html|..]) || ("<p id=\"" + cid + "\"" <= r.html[|s.html|..]))
      && (|r.md| > |s.md| ==> ("### " + MdAnchor(cid) <= r.md[|s.md|..]) || (MdAnchor(cid) <= r.md[|s.md|..]))
      && (|r.paragraphs| > |s.paragraphs| ==> r.paragraphs[|s.paragraphs|].compareId == cid)
      && (|r.paragraphRows| > |s.paragraphRows| ==> r.paragraphRows[|s.paragraphRows|].compareId == cid)
  {
    ClassifyIgnoresPageBreak(n);
    var b := BlockOf(ctx, s, n);
    var s1 := s.(previousPageNumber := NestedBreak(s.previousPageNumber, n).value.0,
                 typesByChapter := AssignId(ctx.ext.abbrev, s.typesByChapter, ctx.chapterSlug, b.ptype).0);
    var s2 := JsonEmit(ctx, s1, b);
    var s3 := HtmlEmit(ctx, s2, b);
    var s4 := MdEmit(ctx, s3, b);
    var s5 := TxtEmit(ctx, s4, b);
    assert ParagraphStep(ctx, s, n) == Success(RowEmit(ctx, s5, b));
    HtmlEmitAnchor(ctx, s2, b);
    MdEmitAnchor(ctx, s3, b);
  }

  /** The `<ul>` wrapper is unreachable: no HTML block other than an image's (its content as is) opens a list. */
  lemma HtmlBlockNeverList(t: ParagraphType, bookSlug: string, chapterSlug: string, prefix: string, id: string, c: string)
    requires t != Image
    ensures !("<ul" <= HtmlBlock(t, bookSlug, chapterSlug, prefix, id, c))
  {
    var r := HtmlBlock(t, bookSlug, chapterSlug, prefix, id, c);
    if t in {BookTitle, ChapterTitle, SectionTitle} {
      assert r[0] == '\n';
    } else {
      assert r[1] == 'p';
    }
  }

  /**
   * The JSON paragraph and the row of a paragraph share its plain text (the
   * prefix and id only touch HTML): a non-empty text adds both, and when both
   * are added they agree on the text and on the comparison id.
   */
  lemma RowTextMatchesJson(ctx: ChapterContext, s: State, b: Block)
    requires Emittable(ctx, b) && ctx.cfg.json && ctx.cfg.rows
    ensures ContentOf(ctx.ext, b, PlainText, ctx.cfg.basicHtml, false, IdPrefix(ctx), b.id)
         == ContentOf(ctx.ext, b, PlainText, ctx.cfg.basicHtml, false, "", b.id)
    ensures ContentOf(ctx.ext, b, PlainText, ctx.cfg.basicHtml, false, "", b.id) != "" ==>
      |JsonEmit(ctx, s, b).paragraphs| == |s.paragraphs| + 1 && |RowEmit(ctx, s, b).paragraphRows| == |s.paragraphRows| + 1
    ensures |JsonEmit(ctx, s, b).paragraphs| == |s.paragraphs| + 1 && |RowEmit(ctx, s, b).paragraphRows| == |s.paragraphRows| + 1 ==>
      && JsonEmit(ctx, s, b).paragraphs[|s.paragraphs|].content == RowEmit(ctx, s, b).paragraphRows[|s.paragraphRows|].content
      && JsonEmit(ctx, s, b).paragraphs[|s.paragraphs|].compareId == RowEmit(ctx, s, b).paragraphRows[|s.paragraphRows|].compareId
  {
    TextIgnoresStyleAndIds(ctx.ext.render, b.node, false, ctx.cfg.basicHtml, ctx.cfg.basicHtml, IdPrefix(ctx), "", b.id, b.id);
    JsonAndRowGrow(ctx, s, b);
    JsonAndRowEntries(ctx, s, b);
  }

  /** With the same text, a non-empty text adds one JSON paragraph and one row. */
  lemma JsonAndRowGrow(ctx: ChapterContext, s: State, b: Block)
    requires Emittable(ctx, b) && ctx.cfg.json && ctx.cfg.rows
    requires ContentOf(ctx.ext, b, PlainText, ctx.cfg.basicHtml, false, IdPrefix(ctx), b.id)
          == ContentOf(ctx.ext, b, PlainText, ctx.cfg.basicHtml, false, "", b.id)
    ensures ContentOf(ctx.ext, b, PlainText, ctx.cfg.basicHtml, false, "", b.id) != "" ==>
      |JsonEmit(ctx, s, b).paragraphs| == |s.paragraphs| + 1 && |RowEmit(ctx, s, b).paragraphRows| == |s.paragraphRows| + 1
  {
  }

  /** With the same text, the new JSON paragraph and the new row agree on text and compare id. */
  lemma JsonAndRowEntries(ctx: ChapterContext, s: State, b: Block)
    requires Emittable(ctx, b) && ctx.cfg.json && ctx.cfg.rows
    requires ContentOf(ctx.ext, b, PlainText, ctx.cfg.basicHtml, false, IdPrefix(ctx), b.id)
          == ContentOf(ctx.ext, b, PlainText, ctx.cfg.basicHtml, false, "", b.id)
    ensures |JsonEmit(ctx, s, b).paragraphs| == |s.paragraphs| + 1 && |RowEmit(ctx, s, b).paragraphRows| == |s.paragraphRows| + 1 ==>
      && JsonEmit(ctx, s, b).paragraphs[|s.paragraphs|].content == RowEmit(ctx, s, b).paragraphRows[|s.paragraphRows|].content
      && JsonEmit(ctx, s, b).paragraphs[|s.paragraphs|].compareId == RowEmit(ctx, s, b).paragraphRows[|s.paragraphRows|].compareId
  {
  }

  // ---------------------------------------------------------------------------
  // The paragraph loop

  /** The paragraph loop over the first blocks; it stops at the first failure. */
  function RunParagraphs(ctx: ChapterContext, s: State, blocks: seq<Node>): (r: Result<State, Exception>)
    ensures r.Success? ==> Extends(s, r.value)
    decreases |blocks|
  {
    if blocks == [] then Success(s)
    else
      var before :- RunParagraphs(ctx, s, blocks[..|blocks| - 1]);
      ParagraphStep(ctx, before, blocks[|blocks| - 1])
  }

  /** The loop stops at its first failure: later blocks do not change the outcome. */
  lemma {:induction false} ParagraphsStopAtFailure(ctx: ChapterContext, s: State, blocks: seq<Node>, k: nat)
    requires k <= |blocks| && RunParagraphs(ctx, s, blocks[..k]).Failure?
    ensures RunParagraphs(ctx, s, blocks) == RunParagraphs(ctx, s, blocks[..k])
    decreases |blocks|
  {
    if k < |blocks| {
      var init := blocks[..|blocks| - 1];
      assert init[..k] == blocks[..k];
      ParagraphsStopAtFailure(ctx, s, init, k);
    } else {
      assert blocks[..k] == blocks;
    }
  }

  /** The types of the blocks that are not page breaks, in order (each one classified). */
  function BlockTypes(blocks: seq<Node>): (r: seq<ParagraphType>)
    ensures |r| <= |blocks|
    decreases |blocks|
  {
    if blocks == [] then []
    else
      var last := blocks[|blocks| - 1];
      BlockTypes(blocks[..|blocks| - 1]) + (if IsPageBreak(last) || Classify(last).Failure? then [] else [Classify(last).value])
  }

  /**
   * After a chapter's paragraph loop its list of types has gained exactly the
   * types of its blocks that are not page breaks, whatever the outputs kept;
   * so the ids of the chapter are those `AssignIds` gives for that list.
   */
  lemma {:induction false} ParagraphsRecordTypes(ctx: ChapterContext, s: State, blocks: seq<Node>)
    requires RunParagraphs(ctx, s, blocks).Success?
    ensures TypesSeen(RunParagraphs(ctx, s, blocks).value.typesByChapter, ctx.chapterSlug)
      == TypesSeen(s.typesByChapter, ctx.chapterSlug) + BlockTypes(blocks)
    ensures forall other :: other != ctx.chapterSlug ==>
      TypesSeen(RunParagraphs(ctx, s, blocks).value.typesByChapter, other) == TypesSeen(s.typesByChapter, other)
    decreases |blocks|
  {
    if blocks != [] {
      var init := blocks[..|blocks| - 1];
      var last := blocks[|blocks| - 1];
      ParagraphsRecordTypes(ctx, s, init);
      var mid := RunParagraphs(ctx, s, init).value;
      assert RunParagraphs(ctx, s, blocks) == ParagraphStep(ctx, mid, last);
      var after := ParagraphStep(ctx, mid, last).value;
      StepRecordsType(ctx, mid, last);
      BlockTypesSplit(blocks);
      assert TypesSeen(after.typesByChapter, ctx.chapterSlug)
        == TypesSeen(s.typesByChapter, ctx.chapterSlug) + BlockTypes(init) + BlockTypes([last]);
      forall other | other != ctx.chapterSlug
        ensures TypesSeen(after.typesByChapter, other) == TypesSeen(s.typesByChapter, other)
      {
        assert TypesSeen(after.typesByChapter, other) == TypesSeen(mid.typesByChapter, other);
      }
    }
  }

  /** Rows are numbered from 0 with no gap, across every publication. */
  predicate RowsNumbered(s: State) {
    && (forall i :: 0 <= i < |s.publicationRows| ==> s.publicationRows[i].position == i)
    && (forall i :: 0 <= i < |s.chapterRows| ==> s.chapterRows[i].position == i)
    && (forall i :: 0 <= i < |s.paragraphRows| ==> s.paragraphRows[i].position == i)
  }

  lemma StepKeepsRowsNumbered(ctx: ChapterContext, s: State, n: Node)
    requires RowsNumbered(s) && ParagraphStep(ctx, s, n).Success?
    ensures RowsNumbered(ParagraphStep(ctx, s, n).value)
    ensures ParagraphStep(ctx, s, n).value.publicationRows == s.publicationRows
    ensures ParagraphStep(ctx, s, n).value.chapterRows == s.chapterRows
  {
    if !IsPageBreak(n) {
      var b := BlockOf(ctx, s, n);
      var s1 := s.(previousPageNumber := NestedBreak(s.previousPageNumber, n).value.0,
                   typesByChapter := AssignId(ctx.ext.abbrev, s.typesByChapter, ctx.chapterSlug, b.ptype).0);
      var s2 := JsonEmit(ctx, s1, b);
      var s3 := HtmlEmit(ctx, s2, b);
      var s4 := MdEmit(ctx, s3, b);
      var s5 := TxtEmit(ctx, s4, b);
      assert s5.publicationRows == s.publicationRows && s5.chapterRows == s.chapterRows && s5.paragraphRows == s.paragraphRows;
      assert ParagraphStep(ctx, s, n) == Success(RowEmit(ctx, s5, b));
      RowEmitKeepsRowsNumbered(ctx, s5, b);
    }
  }

  /** A paragraph row is added at the next position, so the numbering holds. */
  lemma RowEmitKeepsRowsNumbered(ctx: ChapterContext, s: State, b: Block)
    requires Emittable(ctx, b) && RowsNumbered(s)
    ensures RowsNumbered(RowEmit(ctx, s, b))
  {
    var r := RowEmit(ctx, s, b);
    forall i | 0 <= i < |r.paragraphRows|
      ensures r.paragraphRows[i].position == i
    {
      if i < |s.paragraphRows| {
        assert r.paragraphRows[i] == s.paragraphRows[i];
      }
    }
  }

  lemma {:induction false} ParagraphsKeepRowsNumbered(ctx: ChapterContext, s: State, blocks: seq<Node>)
    requires RowsNumbered(s) && RunParagraphs(ctx, s, blocks).Success?
    ensures RowsNumbered(RunParagraphs(ctx, s, blocks).value)
    ensures RunParagraphs(ctx, s, blocks).value.publicationRows == s.publicationRows
    ensures RunParagraphs(ctx, s, blocks).value.chapterRows == s.chapterRows
    decreases |blocks|
  {
    if blocks != [] {
      var prefix := blocks[..|blocks| - 1];
      ParagraphsKeepRowsNumbered(ctx, s, prefix);
      StepKeepsRowsNumbered(ctx, RunParagraphs(ctx, s, prefix).value, blocks[|blocks| - 1]);
    }
  }

  // ---------------------------------------------------------------------------
  // One chapter

  /** What the chapter loop of a book knows. */
  datatype BookContext = BookContext(cfg: Config, ext: Externals, pubKey: string, publicationSlug: string, book: Book)

  /** Whether a page is processed: a response was received and, with a browser, its URI matched. */
  function HasSoup(cfg: Config, fetched: Option<Page>): (r: bool)
    ensures r ==> fetched.Some?
    ensures !cfg.mediaInfo ==> (r <==> fetched.Some?)
    ensures cfg.mediaInfo && fetched.Some? ==> (r <==> fetched.value.uriMatched)
  {
    fetched.Some? && (!cfg.mediaInfo || fetched.value.uriMatched)
  }

  /** The rule line written between two chapters of one output file. */
  function Separators(cfg: Config, s: State): (r: State)
    ensures r == s.(html := r.html, txt := r.txt, md := r.md)
    ensures s.chaptersInPublication <= 1 ==> r == s
    ensures s.chaptersInPublication > 1 && cfg.html ==> r.html == s.html + "\n<hr>\n\n"
    ensures s.chaptersInPublication > 1 && cfg.txt ==> r.txt == s.txt + "\n--------------------\n\n"
    ensures s.chaptersInPublication > 1 && cfg.md ==> r.md == s.md + "\n---\n\n"
  {
    if s.chaptersInPublication > 1 then
      var s1 := if cfg.html then s.(html := s.html + "\n<hr>\n\n") else s;
      var s2 := if cfg.txt then s1.(txt := s1.txt + "\n--------------------\n\n") else s1;
      if cfg.md then s2.(md := s2.md + "\n---\n\n") else s2
    else s
  }

  /** The media rows of a chapter, one per media item, in order. */
  function MediaRows(pubKey: string, chapterSlug: string, media: seq<MediaItem>): (r: seq<MediaRow>)
    ensures |r| == |media|
    ensures forall i :: 0 <= i < |r| ==> r[i].item == media[i] && r[i].chapterSlug == chapterSlug
  {
    seq(|media|, i requires 0 <= i < |media| => MediaRow(pubKey, chapterSlug, media[i]))
  }

  /**
   * Everything a chapter does before its paragraph loop: the split-mode
   * counter, the separators, the chapter row and media rows, the empty
   * paragraph list, and the page seed.
   */
  function OpenChapter(bctx: BookContext, s: State, info: ChapterInfo, first: Option<PageBreak>)
    : (r: Result<State, Exception>)
    ensures r.Success? ==> Extends(s, r.value)
    ensures r.Success? ==> r.value.paragraphs == []
  {
    var separated := Separators(bctx.cfg, CountChapter(bctx.cfg, s));
    var rows := ChapterRows(bctx, separated, info);
    SeedPage(rows.(paragraphs := []), first)
  }

  /** The chapter counter, which only split-JSON mode advances. */
  function CountChapter(cfg: Config, s: State): (r: State)
    ensures r == s.(chaptersInPublication := r.chaptersInPublication)
    ensures r.chaptersInPublication == s.chaptersInPublication + (if cfg.json && cfg.splitJson then 1 else 0)
  {
    if cfg.json && cfg.splitJson then s.(chaptersInPublication := s.chaptersInPublication + 1) else s
  }

  /** The chapter row at the next position, then one media row per media item. */
  function ChapterRows(bctx: BookContext, s: State, info: ChapterInfo): (r: State)
    ensures r == s.(chapterRows := r.chapterRows, mediaRows := r.mediaRows)
    ensures bctx.cfg.rows ==> r.chapterRows == s.chapterRows + [ChapterRowOf(bctx, |s.chapterRows|, info)]
    ensures bctx.cfg.rows ==> r.mediaRows == s.mediaRows + MediaRows(bctx.pubKey, info.slug, info.media)
    ensures !bctx.cfg.rows ==> r == s
  {
    if bctx.cfg.rows then
      s.(
        chapterRows := s.chapterRows + [ChapterRowOf(bctx, |s.chapterRows|, info)],
        mediaRows := s.mediaRows + MediaRows(bctx.pubKey, info.slug, info.media))
    else s
  }

  function ChapterRowOf(bctx: BookContext, position: nat, info: ChapterInfo): ChapterRow {
    ChapterRow(bctx.pubKey, position, info.slug, info.name, info.abbrev, info.number, bctx.book.slug, info.uri)
  }

  /** The counter moves only in split-JSON mode, so without it no separator is ever written. */
  lemma OpenChapterCounter(bctx: BookContext, s: State, info: ChapterInfo, first: Option<PageBreak>)
    requires OpenChapter(bctx, s, info, first).Success?
    ensures var r := OpenChapter(bctx, s, info, first).value;
      && r.chaptersInPublication == s.chaptersInPublication + (if bctx.cfg.json && bctx.cfg.splitJson then 1 else 0)
      && (!(bctx.cfg.json && bctx.cfg.splitJson) && s.chaptersInPublication == 0 ==> r.html == s.html && r.md == s.md && r.txt == s.txt)
      && (bctx.cfg.json && bctx.cfg.splitJson && s.chaptersInPublication >= 1 && bctx.cfg.html ==> r.html == s.html + "\n<hr>\n\n")
  {
  }

  /** A chapter adds one chapter row and exactly one media row per media item (when rows are on). */
  lemma OpenChapterRows(bctx: BookContext, s: State, info: ChapterInfo, first: Option<PageBreak>)
    requires RowsNumbered(s)
    requires OpenChapter(bctx, s, info, first).Success?
    ensures var r := OpenChapter(bctx, s, info, first).value;
      && RowsNumbered(r)
      && r.publicationRows == s.publicationRows && r.paragraphRows == s.paragraphRows
      && |r.chapterRows| == |s.chapterRows| + (if bctx.cfg.rows then 1 else 0)
      && r.mediaRows == s.mediaRows + (if bctx.cfg.rows then MediaRows(bctx.pubKey, info.slug, info.media) else [])
  {
  }

  /** The page seed never replaces a page carried over from the book's previous chapter. */
  lemma OpenChapterKeepsCarriedPage(bctx: BookContext, s: State, info: ChapterInfo, first: Option<PageBreak>)
    requires Truthy(s.previousPageNumber)
    ensures OpenChapter(bctx, s, info, first).Success?
    ensures OpenChapter(bctx, s, info, first).value.previousPageNumber == s.previousPageNumber
  {
  }

  /** After the paragraph loop: the record goes into the publication JSON, or into its own file in split mode. */
  function CloseChapter(bctx: BookContext, s: State, slug: string, record: ChapterRecord): (r: State)
    ensures r == s.(json := r.json, chapterFiles := r.chapterFiles)
    ensures bctx.cfg.json && bctx.cfg.splitJson ==> r.chapterFiles == s.chapterFiles + [ChapterFile(bctx.publicationSlug, bctx.book.slug, slug, record)]
    ensures bctx.cfg.json && !bctx.cfg.splitJson ==>
      var book := bctx.book.slug; var chapters := Get(s.json, book).GetOr([]);
      && Keys(r.json) == (if book in Keys(s.json) then Keys(s.json) else Keys(s.json) + [book])
      && Get(r.json, book).Some?
      && Keys(Get(r.json, book).value) == (if slug in Keys(chapters) then Keys(chapters) else Keys(chapters) + [slug])
      && Get(Get(r.json, book).value, slug) == Some(record)
    ensures bctx.cfg.json && !bctx.cfg.splitJson ==> r.chapterFiles == s.chapterFiles
    ensures bctx.cfg.json && bctx.cfg.splitJson ==> r.json == s.json
    ensures !bctx.cfg.json ==> r == s
  {
    if !bctx.cfg.json then s
    else if bctx.cfg.splitJson then s.(chapterFiles := s.chapterFiles + [ChapterFile(bctx.publicationSlug, bctx.book.slug, slug, record)])
    else
      var chapters := Get(s.json, bctx.book.slug).GetOr([]);
      s.(json := Put(s.json, bctx.book.slug, Put(chapters, slug, record)))
  }

  /** Storing a chapter leaves every other book's chapters as they were. */
  lemma CloseChapterOtherBooks(bctx: BookContext, s: State, slug: string, record: ChapterRecord, other: string)
    requires other != bctx.book.slug
    ensures Get(CloseChapter(bctx, s, slug, record).json, other) == Get(s.json, other)
  {
    if bctx.cfg.json && !bctx.cfg.splitJson {
      PutOthers(s.json, bctx.book.slug, Put(Get(s.json, bctx.book.slug).GetOr([]), slug, record), other);
    }
  }

  /** What a chapter's page gives before its paragraphs are read. */
  datatype ChapterInfo = ChapterInfo(slug: string, uri: string, number: string, name: string, abbrev: Option<string>, media: seq<MediaItem>)

  /**
   * `str(chapter)` as the chapter number, the slug and URI built from it, the
   * stripped header as its name, its abbreviation and its media.
   */
  function ChapterInfoOf(book: Book, chapter: ChapterId, page: Page): (r: ChapterInfo)
    requires Truthy(book.churchUri)
    ensures r.number == ChapterNumber(chapter)
    ensures r.slug == ChapterSlug(book.slug, chapter) && r.uri == ChapterUri(book.churchUri.value, chapter)
    ensures r.name == Strip(page.header) && r.abbrev.Some? == Truthy(book.abbrev)
    ensures r.media == ChapterMedia(page.video, page.downloads)
  {
    var name := Strip(page.header);
    ChapterInfo(ChapterSlug(book.slug, chapter), ChapterUri(book.churchUri.value, chapter), ChapterNumber(chapter), name,
      ChapterAbbrev(name, book.name, book.abbrev), ChapterMedia(page.video, page.downloads))
  }

  /** The paragraph loop of a chapter, then its record is stored. */
  function ReadChapter(bctx: BookContext, s: State, info: ChapterInfo, blocks: seq<Node>): (r: Result<State, Exception>)
    ensures r.Success? ==> Extends(s, r.value)
  {
    var ctx := ChapterContext(bctx.cfg, bctx.ext, bctx.pubKey, bctx.book.slug, info.slug);
    var read :- RunParagraphs(ctx, s, blocks);
    var record := ChapterRecord(info.name, info.abbrev, info.number, info.uri, read.paragraphs, info.media);
    Success(CloseChapter(bctx, read, info.slug, record))
  }

  /** One iteration of the chapter loop of a book. */
  function ChapterStep(bctx: BookContext, s: State, ch: Chapter): (r: Result<State, Exception>)
    requires Truthy(bctx.book.churchUri)
    ensures !HasSoup(bctx.cfg, ch.fetched) ==> r == Success(s)
    ensures r.Success? ==> Extends(s, r.value)
  {
    if !HasSoup(bctx.cfg, ch.fetched) then Success(s)
    else
      var page := ch.fetched.value;
      var info := ChapterInfoOf(bctx.book, ch.id, page);
      var started :- OpenChapter(bctx, s, info, page.firstPageBreak);
      ReadChapter(bctx, started, info, page.blocks)
  }

  /** A chapter without a page, or with a mismatched page in browser mode, changes nothing. */
  lemma SkippedChapterChangesNothing(bctx: BookContext, s: State, ch: Chapter)
    requires Truthy(bctx.book.churchUri) && !HasSoup(bctx.cfg, ch.fetched)
    ensures ChapterStep(bctx, s, ch) == Success(s)
  {
  }

  /** Over plain requests a mismatched URI is only a warning: the page is still processed. */
  lemma MismatchedUriKeptOverHttp(cfg: Config, p: Page)
    requires !cfg.mediaInfo && !p.uriMatched
    ensures HasSoup(cfg, Some(p))
  {
  }

  lemma ChapterKeepsRowsNumbered(bctx: BookContext, s: State, ch: Chapter)
    requires Truthy(bctx.book.churchUri)
    requires RowsNumbered(s) && ChapterStep(bctx, s, ch).Success?
    ensures RowsNumbered(ChapterStep(bctx, s, ch).value)
    ensures ChapterStep(bctx, s, ch).value.publicationRows == s.publicationRows
  {
    if HasSoup(bctx.cfg, ch.fetched) {
      var page := ch.fetched.value;
      var info := ChapterInfoOf(bctx.book, ch.id, page);
      OpenChapterRows(bctx, s, info, page.firstPageBreak);
      var started := OpenChapter(bctx, s, info, page.firstPageBreak).value;
      var ctx := ChapterContext(bctx.cfg, bctx.ext, bctx.pubKey, bctx.book.slug, info.slug);
      ParagraphsKeepRowsNumbered(ctx, started, page.blocks);
    }
  }

  // ---------------------------------------------------------------------------
  // Books and publications

  /** The chapter loop over the first chapters of a book. */
  function RunChapters(bctx: BookContext, s: State, chapters: seq<Chapter>): (r: Result<State, Exception>)
    requires Truthy(bctx.book.churchUri)
    ensures r.Success? ==> Extends(s, r.value)
    decreases |chapters|
  {
    if chapters == [] then Success(s)
    else
      var before :- RunChapters(bctx, s, chapters[..|chapters| - 1]);
      ChapterStep(bctx, before, chapters[|chapters| - 1])
  }

  lemma {:induction false} ChaptersStopAtFailure(bctx: BookContext, s: State, chapters: seq<Chapter>, k: nat)
    requires Truthy(bctx.book.churchUri)
    requires k <= |chapters| && RunChapters(bctx, s, chapters[..k]).Failure?
    ensures RunChapters(bctx, s, chapters) == RunChapters(bctx, s, chapters[..k])
    decreases |chapters|
  {
    if k < |chapters| {
      var init := chapters[..|chapters| - 1];
      assert init[..k] == chapters[..k];
      ChaptersStopAtFailure(bctx, s, init, k);
    } else {
      assert chapters[..k] == chapters;
    }
  }

  lemma {:induction false} ChaptersKeepRowsNumbered(bctx: BookContext, s: State, chapters: seq<Chapter>)
    requires Truthy(bctx.book.churchUri)
    requires RowsNumbered(s) && RunChapters(bctx, s, chapters).Success?
    ensures RowsNumbered(RunChapters(bctx, s, chapters).value)
    ensures RunChapters(bctx, s, chapters).value.publicationRows == s.publicationRows
    decreases |chapters|
  {
    if chapters != [] {
      var prefix := chapters[..|chapters| - 1];
      ChaptersKeepRowsNumbered(bctx, s, prefix);
      ChapterKeepsRowsNumbered(bctx, RunChapters(bctx, s, prefix).value, chapters[|chapters| - 1]);
    }
  }

  /** What the book loop of a publication knows. */
  datatype PublicationContext = PublicationContext(cfg: Config, ext: Externals, pubKey: string, publicationSlug: string)

  /** Whether a book is scraped: the language has it and it has a URI. */
  function BookScraped(b: Book): (r: bool)
    ensures r <==> b.available && b.churchUri.Some? && b.churchUri.value != ""
  {
    b.available && Truthy(b.churchUri)
  }

  /** One iteration of the book loop: a scraped book starts with no current page. */
  function BookStep(pctx: PublicationContext, s: State, book: Book): (r: Result<State, Exception>)
    ensures !BookScraped(book) ==> r == Success(s)
    ensures r.Success? ==> Extends(s, r.value)
  {
    if !BookScraped(book) then Success(s)
    else RunChapters(BookContext(pctx.cfg, pctx.ext, pctx.pubKey, pctx.publicationSlug, book), s.(previousPageNumber := None), book.chapters)
  }

  /** The page number does not leak from one book into the next: a scraped book ignores the page it is handed. */
  lemma BookStartsWithoutPage(pctx: PublicationContext, s: State, book: Book, carried: Option<string>)
    requires BookScraped(book)
    ensures BookStep(pctx, s.(previousPageNumber := carried), book) == BookStep(pctx, s, book)
  {
    assert s.(previousPageNumber := carried).(previousPageNumber := None) == s.(previousPageNumber := None);
  }

  /** The book loop over the first books of a publication. */
  function RunBooks(pctx: PublicationContext, s: State, books: seq<Book>): (r: Result<State, Exception>)
    ensures r.Success? ==> Extends(s, r.value)
    decreases |books|
  {
    if books == [] then Success(s)
    else
      var before :- RunBooks(pctx, s, books[..|books| - 1]);
      BookStep(pctx, before, books[|books| - 1])
  }

  lemma {:induction false} BooksStopAtFailure(pctx: PublicationContext, s: State, books: seq<Book>, k: nat)
    requires k <= |books| && RunBooks(pctx, s, books[..k]).Failure?
    ensures RunBooks(pctx, s, books) == RunBooks(pctx, s, books[..k])
    decreases |books|
  {
    if k < |books| {
      var init := books[..|books| - 1];
      assert init[..k] == books[..k];
      BooksStopAtFailure(pctx, s, init, k);
    } else {
      assert books[..k] == books;
    }
  }

  lemma {:induction false} BooksKeepRowsNumbered(pctx: PublicationContext, s: State, books: seq<Book>)
    requires RowsNumbered(s) && RunBooks(pctx, s, books).Success?
    ensures RowsNumbered(RunBooks(pctx, s, books).value)
    ensures RunBooks(pctx, s, books).value.publicationRows == s.publicationRows
    decreases |books|
  {
    if books != [] {
      var prefix := books[..|books| - 1];
      BooksKeepRowsNumbered(pctx, s, prefix);
      var mid := RunBooks(pctx, s, prefix).value;
      var book := books[|books| - 1];
      if BookScraped(book) {
        ChaptersKeepRowsNumbered(BookContext(pctx.cfg, pctx.ext, pctx.pubKey, pctx.publicationSlug, book), mid.(previousPageNumber := None), book.chapters);
      }
    }
  }

  /** The publication row, at the next position. */
  function OpenPublication(cfg: Config, lang: string, s: State, p: Publication, key: string): (r: State)
    ensures r.chaptersInPublication == 0 && r.json == [] && r.html == "" && r.md == "" && r.txt == ""
    ensures cfg.rows ==> r.publicationRows == s.publicationRows + [PublicationRow(key, lang, |s.publicationRows|, p.slug, VersionSlug(p.slug, p.version.versionKey), PublicationCategory(p.slug))]
    ensures !cfg.rows ==> r.publicationRows == s.publicationRows
    ensures r.chapterRows == s.chapterRows && r.paragraphRows == s.paragraphRows
  {
    var cleared := s.(chaptersInPublication := 0, json := [], html := "", md := "", txt := "");
    if cfg.rows then
      cleared.(publicationRows := cleared.publicationRows + [PublicationRow(key, lang, |s.publicationRows|, p.slug, VersionSlug(p.slug, p.version.versionKey), PublicationCategory(p.slug))])
    else cleared
  }

  /** The files of a publication, one per enabled format. */
  function ClosePublication(cfg: Config, s: State, p: Publication): (r: State)
    ensures r == s.(publicationFiles := r.publicationFiles)
    ensures |r.publicationFiles| == |s.publicationFiles| + 1
    ensures var f := r.publicationFiles[|s.publicationFiles|];
      && (f.json.Some? <==> cfg.json && !cfg.splitJson)
      && (f.html.Some? <==> cfg.html) && (f.md.Some? <==> cfg.md) && (f.txt.Some? <==> cfg.txt)
    ensures var f := r.publicationFiles[|s.publicationFiles|];
      && f.slug == p.slug
      && (cfg.json && !cfg.splitJson ==> f.json == Some(s.json))
      && (cfg.html ==> f.html == Some(s.html)) && (cfg.md ==> f.md == Some(s.md)) && (cfg.txt ==> f.txt == Some(s.txt))
  {
    var file := PublicationFile(
      p.slug,
      if cfg.json && !cfg.splitJson then Some(s.json) else None,
      if cfg.html then Some(s.html) else None,
      if cfg.md then Some(s.md) else None,
      if cfg.txt then Some(s.txt) else None);
    s.(publicationFiles := s.publicationFiles + [file])
  }

  /** One iteration of the publication loop. */
  function PublicationStep(cfg: Config, ext: Externals, lang: string, s: State, p: Publication): (r: Result<State, Exception>)
    ensures !p.available ==> r == Success(s)
    ensures r.Success? ==> Extends(s, r.value)
  {
    if !p.available then Success(s)
    else
      var key := PublicationKey(lang, p.abbrev, p.version.versionKey, p.version.editionYear);
      var started := OpenPublication(cfg, lang, s, p, key);
      var read :- RunBooks(PublicationContext(cfg, ext, key, p.slug), started, p.books);
      Success(ClosePublication(cfg, read, p))
  }

  /** `output_full_content` over the first publications. */
  function RunPublications(cfg: Config, ext: Externals, lang: string, s: State, pubs: seq<Publication>): (r: Result<State, Exception>)
    ensures r.Success? ==> Extends(s, r.value)
    decreases |pubs|
  {
    if pubs == [] then Success(s)
    else
      var before :- RunPublications(cfg, ext, lang, s, pubs[..|pubs| - 1]);
      PublicationStep(cfg, ext, lang, before, pubs[|pubs| - 1])
  }

  lemma {:induction false} PublicationsStopAtFailure(cfg: Config, ext: Externals, lang: string, s: State, pubs: seq<Publication>, k: nat)
    requires k <= |pubs| && RunPublications(cfg, ext, lang, s, pubs[..k]).Failure?
    ensures RunPublications(cfg, ext, lang, s, pubs) == RunPublications(cfg, ext, lang, s, pubs[..k])
    decreases |pubs|
  {
    if k < |pubs| {
      var init := pubs[..|pubs| - 1];
      assert init[..k] == pubs[..k];
      PublicationsStopAtFailure(cfg, ext, lang, s, init, k);
    } else {
      assert pubs[..k] == pubs;
    }
  }

  /** `output_full_content(bcp47_lang)` from its empty lists. */
  function OutputFullContent(cfg: Config, ext: Externals, lang: string, pubs: seq<Publication>): (r: Result<State, Exception>)
    ensures r.Success? ==> RowsNumbered(r.value)
  {
    var r := RunPublications(cfg, ext, lang, Initial, pubs);
    if r.Success? then PublicationsKeepRowsNumbered(cfg, ext, lang, Initial, pubs); r else r
  }

  lemma PublicationKeepsRowsNumbered(cfg: Config, ext: Externals, lang: string, s: State, p: Publication)
    requires RowsNumbered(s) && PublicationStep(cfg, ext, lang, s, p).Success?
    ensures RowsNumbered(PublicationStep(cfg, ext, lang, s, p).value)
  {
    if p.available {
      var key := PublicationKey(lang, p.abbrev, p.version.versionKey, p.version.editionYear);
      var started := OpenPublication(cfg, lang, s, p, key);
      assert RowsNumbered(started);
      BooksKeepRowsNumbered(PublicationContext(cfg, ext, key, p.slug), started, p.books);
    }
  }

  lemma {:induction false} PublicationsKeepRowsNumbered(cfg: Config, ext: Externals, lang: string, s: State, pubs: seq<Publication>)
    requires RowsNumbered(s) && RunPublications(cfg, ext, lang, s, pubs).Success?
    ensures RowsNumbered(RunPublications(cfg, ext, lang, s, pubs).value)
    decreases |pubs|
  {
    if pubs != [] {
      var prefix := pubs[..|pubs| - 1];
      PublicationsKeepRowsNumbered(cfg, ext, lang, s, prefix);
      PublicationKeepsRowsNumbered(cfg, ext, lang, RunPublications(cfg, ext, lang, s, prefix).value, pubs[|pubs| - 1]);
    }
  }
}

=== FILE: text.dfy ===
/**
 * The Python string operations the scraper relies on, with the semantics of
 * CPython's `str`: `in`, `replace`, `strip`, `split`, `join`, clamped slicing,
 * `str(int)` and `int(str)`, and the truthiness of an optional string.
 */
module Text {
  import opened Wrappers

  /** Python truthiness of a value that may be `None`: `None` and `''` are false. */
  predicate Truthy(o: Option<string>) {
    o.Some? && o.value != ""
  }

  /** Python's `a or b` on two optional strings. */
  function Or(a: Option<string>, b: Option<string>): (r: Option<string>)
    ensures Truthy(a) ==> r == a
    ensures !Truthy(a) ==> r == b
  {
    if Truthy(a) then a else b
  }

  // ---------------------------------------------------------------------------
  // Substrings

  /** `sub in s`: `sub` occurs somewhere in `s` (the empty string occurs everywhere). */
  predicate Contains(s: string, sub: string)
    decreases |s|
  {
    sub <= s || (|s| > 0 && Contains(s[1..], sub))
  }

  lemma {:induction false} ContainsAt(s: string, sub: string, i: nat)
    requires i + |sub| <= |s| && s[i..i + |sub|] == sub
    ensures Contains(s, sub)
    decreases i
  {
    if i == 0 {
      assert sub <= s;
    } else {
      assert s[1..][i - 1..i - 1 + |sub|] == sub;
      ContainsAt(s[1..], sub, i - 1);
    }
  }

  /** A character that does not occur in `s` does not occur in any substring of `s`. */
  lemma {:induction false} NotContainsChar(s: string, c: char, sub: string)
    requires c !in s && c in sub
    ensures !Contains(s, sub)
    decreases |s|
  {
    if |s| > 0 {
      NotContainsChar(s[1..], c, sub);
    }
  }

  // ---------------------------------------------------------------------------
  // replace

  /** `s.replace('', rep)`: Python inserts `rep` before every character and at the end. */
  function InsertEverywhere(s: string, rep: string): (r: string)
    ensures |r| == |s| + (|s| + 1) * |rep|
  {
    if s == [] then rep else rep + [s[0]] + InsertEverywhere(s[1..], rep)
  }

  /**
   * `s.replace(pat, rep)`: every occurrence of `pat`, found left to right
   * without overlapping, is replaced by `rep`.
   */
  function ReplaceAll(s: string, pat: string, rep: string): (r: string)
    ensures pat != [] && |rep| <= |pat| ==> |r| <= |s|
    ensures pat != [] && !Contains(s, pat) ==> r == s
    ensures pat != [] && Contains(r, pat) ==> Contains(s, pat) || Contains(rep, pat) || rep == []
    decreases |s|
  {
    if pat == [] then InsertEverywhere(s, rep)
    else if s == [] then []
    else if pat <= s then rep + ReplaceAll(s[|pat|..], pat, rep)
    else [s[0]] + ReplaceAll(s[1..], pat, rep)
  }

  /** An occurrence at the very start is replaced, and the search resumes after it. */
  lemma ReplaceAllAtStart(pat: string, rest: string, rep: string)
    requires pat != []
    ensures ReplaceAll(pat + rest, pat, rep) == rep + ReplaceAll(rest, pat, rep)
  {
    assert pat <= pat + rest;
    assert (pat + rest)[|pat|..] == rest;
  }

  /** Concatenation is associative. */
  lemma AppendAssoc<T>(x: seq<T>, y: seq<T>, z: seq<T>)
    ensures x + y + z == x + (y + z)
  {
  }

  /** `s.replace(pat, rep, 1)`: only the first occurrence is replaced. */
  function ReplaceFirst(s: string, pat: string, rep: string): (r: string)
    ensures pat != [] && pat <= s ==> r == rep + s[|pat|..]
    ensures pat != [] && !Contains(s, pat) ==> r == s
    decreases |s|
  {
    if pat == [] then rep + s
    else if s == [] then []
    else if pat <= s then rep + s[|pat|..]
    else [s[0]] + ReplaceFirst(s[1..], pat, rep)
  }

  // ---------------------------------------------------------------------------
  // strip

  /** `str.isspace()` for one character (the characters CPython counts as whitespace). */
  predicate IsSpace(c: char) {
    || ('\U{9}' <= c <= '\U{D}')
    || ('\U{1C}' <= c <= '\U{20}')
    || c == '\U{85}' || c == '\U{A0}' || c == '\U{1680}'
    || ('\U{2000}' <= c <= '\U{200A}')
    || c == '\U{2028}' || c == '\U{2029}' || c == '\U{202F}' || c == '\U{205F}' || c == '\U{3000}'
  }

  function StripStart(s: string): (r: string)
    ensures |r| <= |s| && r == s[|s| - |r|..]
    ensures forall k :: 0 <= k < |s| - |r| ==> IsSpace(s[k])
    ensures r == [] || !IsSpace(r[0])
    decreases |s|
  {
    if |s| > 0 && IsSpace(s[0]) then StripStart(s[1..]) else s
  }

  function StripEnd(s: string): (r: string)
    ensures |r| <= |s| && r == s[..|r|]
    ensures forall k :: |r| <= k < |s| ==> IsSpace(s[k])
    ensures r == [] || !IsSpace(r[|r| - 1])
    decreases |s|
  {
    if |s| > 0 && IsSpace(s[|s| - 1]) then StripEnd(s[..|s| - 1]) else s
  }

  /** `s.strip()`: the longest infix of `s` that neither starts nor ends with whitespace. */
  function Strip(s: string): (r: string)
    ensures |r| <= |s|
    ensures r == [] || (!IsSpace(r[0]) && !IsSpace(r[|r| - 1]))
  {
    StripEnd(StripStart(s))
  }

  /** Stripping twice is stripping once (the source strips a verse number twice). */
  lemma StripIdempotent(s: string)
    ensures Strip(Strip(s)) == Strip(s)
  {
    var r := Strip(s);
    assert StripStart(r) == r;
    assert StripEnd(r) == r;
  }

  /** A string with no whitespace at either end is left alone by `strip`. */
  lemma StripNoSpace(s: string)
    requires forall k :: 0 <= k < |s| ==> !IsSpace(s[k])
    ensures Strip(s) == s
  {
  }

  // ---------------------------------------------------------------------------
  // split and join

  /** `sep.join(xs)`. */
  function Join(xs: seq<string>, sep: string): (r: string)
    ensures |xs| == 1 ==> r == xs[0]
  {
    if |xs| == 0 then ""
    else if |xs| == 1 then xs[0]
    else xs[0] + sep + Join(xs[1..], sep)
  }

  /** `s.split(sep)` for a one-character separator; joining the pieces gives `s` back. */
  function Split(s: string, sep: char): (r: seq<string>)
    ensures |r| >= 1
    ensures forall i :: 0 <= i < |r| ==> sep !in r[i]
    ensures Join(r, [sep]) == s
    decreases |s|
  {
    if |s| == 0 then [""]
    else if s[0] == sep then
      var rest := Split(s[1..], sep);
      assert ([""] + rest)[1..] == rest;
      [""] + rest
    else
      var rest := Split(s[1..], sep);
      var r := [[s[0]] + rest[0]] + rest[1..];
      assert r[1..] == rest[1..];
      r
  }

  /** Pieces that do not hold the separator come back unchanged from `split`. */
  lemma {:induction false} SplitSingle(x: string, sep: char)
    requires sep !in x
    ensures Split(x, sep) == [x]
    decreases |x|
  {
    if |x| > 0 {
      SplitSingle(x[1..], sep);
    }
  }

  lemma {:induction false} SplitFirstPiece(x: string, sep: char, rest: string)
    requires sep !in x
    ensures Split(x + [sep] + rest, sep) == [x] + Split(rest, sep)
    decreases |x|
  {
    if |x| == 0 {
      assert x + [sep] + rest == [sep] + rest;
      assert ([sep] + rest)[1..] == rest;
    } else {
      var s := x + [sep] + rest;
      assert s[0] == x[0] && s[0] != sep;
      assert s[1..] == x[1..] + [sep] + rest;
      SplitFirstPiece(x[1..], sep, rest);
      var tail := Split(s[1..], sep);
      assert tail == [x[1..]] + Split(rest, sep);
      assert Split(s, sep) == [[s[0]] + tail[0]] + tail[1..];
      assert [x[0]] + x[1..] == x;
    }
  }

  /** `split` undoes `join` when no piece holds the separator. */
  lemma {:induction false} SplitJoin(xs: seq<string>, sep: char)
    requires |xs| >= 1
    requires forall i :: 0 <= i < |xs| ==> sep !in xs[i]
    ensures Split(Join(xs, [sep]), sep) == xs
    decreases |xs|
  {
    if |xs| == 1 {
      SplitSingle(xs[0], sep);
    } else {
      SplitJoin(xs[1..], sep);
      SplitFirstPiece(xs[0], sep, Join(xs[1..], [sep]));
      assert [xs[0]] + xs[1..] == xs;
    }
  }

  /** `s.split(sep)[-1]`: what follows the last separator. */
  function LastPiece(s: string, sep: char): (r: string)
    ensures sep !in r
  {
    var p := Split(s, sep);
    p[|p| - 1]
  }

  /** `s.split(sep)[0]`: what precedes the first separator. */
  function FirstPiece(s: string, sep: char): (r: string)
    ensures sep !in r
  {
    Split(s, sep)[0]
  }

  /** The first piece stops at the first separator: whatever follows it in the string is the separator. */
  lemma {:induction false} FirstPieceStops(s: string, sep: char)
    ensures |FirstPiece(s, sep)| < |s| ==> s[|FirstPiece(s, sep)|] == sep
    decreases |s|
  {
    if |s| > 0 && s[0] != sep {
      FirstPieceStops(s[1..], sep);
      var rest := Split(s[1..], sep);
      assert Split(s, sep) == [[s[0]] + rest[0]] + rest[1..];
    }
  }

  lemma {:induction false} JoinEndsWithLast(xs: seq<string>, sep: string)
    requires |xs| >= 1
    ensures |xs[|xs| - 1]| <= |Join(xs, sep)|
    ensures Join(xs, sep)[|Join(xs, sep)| - |xs[|xs| - 1]|..] == xs[|xs| - 1]
    decreases |xs|
  {
    if |xs| > 1 {
      JoinEndsWithLast(xs[1..], sep);
    }
  }

  lemma {:induction false} JoinStartsWithFirst(xs: seq<string>, sep: string)
    requires |xs| >= 1
    ensures xs[0] <= Join(xs, sep)
  {
  }

  /** Whatever precedes the last separator, the last piece is what follows it. */
  lemma {:induction false} LastPieceAfterSep(x: string, sep: char, f: string)
    requires sep !in f
    ensures |Split(x + [sep] + f, sep)| >= 2
    ensures LastPiece(x + [sep] + f, sep) == f
    decreases |x|
  {
    var s := x + [sep] + f;
    if |x| == 0 {
      assert s == [sep] + f && s[1..] == f;
      SplitSingle(f, sep);
    } else {
      assert s[1..] == x[1..] + [sep] + f;
      LastPieceAfterSep(x[1..], sep, f);
      var rest := Split(s[1..], sep);
      if s[0] == sep {
        assert Split(s, sep) == [""] + rest;
      } else {
        assert Split(s, sep) == [[s[0]] + rest[0]] + rest[1..];
      }
    }
  }

  /** The last piece of `split` is a suffix of the string, the first piece a prefix. */
  lemma PiecesAreAffixes(s: string, sep: char)
    ensures |LastPiece(s, sep)| <= |s| && LastPiece(s, sep) == s[|s| - |LastPiece(s, sep)|..]
    ensures FirstPiece(s, sep) <= s
  {
    var p := Split(s, sep);
    JoinEndsWithLast(p, [sep]);
    JoinStartsWithFirst(p, [sep]);
  }

  // ---------------------------------------------------------------------------
  // Clamped slicing

  /** `s[i:j]` for non-negative bounds: Python clamps both bounds to the length. */
  function Slice(s: string, i: nat, j: nat): (r: string)
    ensures |r| == if j <= i || i >= |s| then 0 else (if j <= |s| then j else |s|) - i
    ensures forall k :: 0 <= k < |r| ==> r[k] == s[i + k]
  {
    var lo := if i <= |s| then i else |s|;
    var hi := if j <= |s| then j else |s|;
    if hi <= lo then "" else s[lo..hi]
  }

  // ---------------------------------------------------------------------------
  // str(int) and int(str)

  predicate IsDigit(c: char) {
    '0' <= c <= '9'
  }

  predicate AllDigits(s: string) {
    forall k :: 0 <= k < |s| ==> IsDigit(s[k])
  }

  function DigitChar(d: nat): (c: char)
    requires d < 10
    ensures IsDigit(c) && c as int - '0' as int == d
  {
    ('0' as int + d) as char
  }

  /** `str(n)` for a natural number: its decimal digits, without leading zeros. */
  function NatToString(n: nat): (r: string)
    ensures |r| >= 1 && AllDigits(r)
    ensures |r| > 1 ==> r[0] != '0'
    decreases n
  {
    if n < 10 then [DigitChar(n)] else NatToString(n / 10) + [DigitChar(n % 10)]
  }

  /** `str(i)` for any integer. */
  function IntToString(i: int): (r: string)
    ensures |r| >= 1
    ensures forall k :: 0 <= k < |r| ==> !IsSpace(r[k])
  {
    if i < 0 then "-" + NatToString(-i) else NatToString(i)
  }

  /** The value of a non-empty run of decimal digits. */
  function DigitsValue(s: string): nat
    requires |s| >= 1 && AllDigits(s)
    decreases |s|
  {
    var last := s[|s| - 1] as int - '0' as int;
    if |s| == 1 then last else DigitsValue(s[..|s| - 1]) * 10 + last
  }

  /**
   * `int(s)` for the forms the scraped `data-page` attributes take: optional
   * surrounding whitespace, an optional sign, then ASCII digits. Anything else
   * is the `ValueError` Python raises (`None`).
   */
  function ParseInt(s: string): Option<int> {
    var t := Strip(s);
    if |t| >= 1 && (t[0] == '-' || t[0] == '+') then
      match UnsignedValue(t[1..])
      case None => None
      case Some(v) => if t[0] == '-' then Some(-v) else Some(v)
    else UnsignedValue(t)
  }

  /** The value of a non-empty run of ASCII digits, and `None` for anything else. */
  function UnsignedValue(t: string): Option<int> {
    if |t| >= 1 && AllDigits(t) then Some(DigitsValue(t)) else None
  }

  lemma {:induction false} DigitsOfNat(n: nat)
    ensures DigitsValue(NatToString(n)) == n
    decreases n
  {
    if n >= 10 {
      DigitsOfNat(n / 10);
      var s := NatToString(n);
      assert s[..|s| - 1] == NatToString(n / 10);
    }
  }

  /** `int(str(i)) == i`: the page-number arithmetic round-trips. */
  lemma ParseIntToString(i: int)
    ensures ParseInt(IntToString(i)) == Some(i)
  {
    if i < 0 {
      ParseNegative(-i);
    } else {
      ParseNatural(i);
    }
  }

  /** `int(str(n))` for a natural number. */
  lemma ParseNatural(n: nat)
    ensures ParseInt(NatToString(n)) == Some(n)
  {
    var s := NatToString(n);
    assert forall k :: 0 <= k < |s| ==> !IsSpace(s[k]);
    StripNoSpace(s);
    ParseUnsigned(s);
    DigitsOfNat(n);
  }

  /** `int(str(-n))` for a positive number. */
  lemma ParseNegative(n: nat)
    requires n > 0
    ensures ParseInt("-" + NatToString(n)) == Some(-(n as int))
  {
    var digits := NatToString(n);
    var s := "-" + digits;
    forall k | 0 <= k < |s|
      ensures !IsSpace(s[k])
    {
      if k > 0 {
        assert s[k] == digits[k - 1];
      }
    }
    StripNoSpace(s);
    assert s[1..] == digits;
    ParseMinus(s);
    DigitsOfNat(n);
  }

  /** A stripped string that starts with a digit is read as an unsigned number. */
  lemma ParseUnsigned(t: string)
    requires Strip(t) == t && |t| >= 1 && IsDigit(t[0])
    ensures ParseInt(t) == UnsignedValue(t)
  {
  }

  /** A stripped string that starts with `-` is read as the negated number after it. */
  lemma ParseMinus(t: string)
    requires Strip(t) == t && |t| >= 1 && t[0] == '-' && |t[1..]| >= 1 && AllDigits(t[1..])
    ensures ParseInt(t) == Some(-(DigitsValue(t[1..]) as int))
  {
  }

  /** Two different numbers never print the same (so ordinals give distinct ids). */
  lemma NatToStringInjective(a: nat, b: nat)
    requires NatToString(a) == NatToString(b)
    ensures a == b
  {
    DigitsOfNat(a);
    DigitsOfNat(b);
  }
}

=== FILE: wrappers.dfy ===
/** Option and Result, the two failure-carrying shapes the model uses. */
module Wrappers {

  /** Python's `None` or a value. */
  datatype Option<+T> = None | Some(value: T) {
    function GetOr(default: T): T {
      match this
      case Some(v) => v
      case None => default
    }
  }

  /** A value, or the exception the source would raise instead of producing it. */
  datatype Result<+T, +E> = Success(value: T) | Failure(error: E) {
    predicate IsFailure() { Failure? }

    function PropagateFailure<U>(): Result<U, E>
      requires Failure?
    {
      Failure(error)
    }

    function Extract(): T
      requires Success?
    {
      value
    }
  }
}

/** The Python exceptions the modelled code can raise on unexpected input. */
module Exceptions {
  datatype Exception =
    | AttributeError(detail: string)   // attribute looked up on None or on a text node
    | KeyError(key: string)            // a missing attribute read with `attrs[...]`
    | ValueError(text: string)         // `int()` of something that is not a number
    | TypeError(detail: string)        // `None + str`
    | IndexError(detail: string)       // a `split()` result indexed past its end
}
